=== FILE: README.md ===
# Terreno property API — a Dafny model

This project models the core of the terreno real-estate API. Terreno is a Laravel application
that stores property listings and serves them over a JSON CRUD API. The model covers these parts:

- **The `Property` model.** This is the row, the derived price per square foot, the query scopes,
  the full-address and formatted-zip accessors, and the feature-list helpers (`hasFeature`,
  `addFeature`, `removeFeature`).
- **The global middleware.** `TrimStrings` and `ConvertEmptyStringsToNull` run on every body and
  query string before the form request and the controller see them (`Middleware`, `Api`).
- **The form requests.** `StorePropertyRequest` and `UpdatePropertyRequest` are modelled with
  their rule tables, Laravel's rule semantics (`nullable`, `sometimes`, blank strings, `features.*`),
  and `prepareForValidation`.
- **The controller actions.**
  - `index`: the filters, the price range, the whitelisted sort and its direction.
  - `store`, `show`, `update` and `destroy`: these act on an in-memory table with an id counter.
    Route-model binding answers 404 before validation answers 422.
  - `search`: validation, text search, and the geographic gate.
  - `stats`: the status counts and the per-type tally.
- **The resources.** `PropertyResource` regroups a row into its `address`, `coordinates`,
  `property_details`, `amenities` and `financial` groups, with the three-way `whenLoaded` owner.
  `PropertyCollection` builds the `data`/`meta`/`links` envelope.
- **`PropertyFactory`.** The model covers `definition` and the `forSale`, `forRent`, `sold`,
  `luxury` and `inState` states. It also covers the Mexican state, city, postal-code and street
  helpers.

Representation:

- **Money.** Price, price per square foot, rent, taxes and lot size are integer hundredths, the
  scale of the `decimal(_, 2)` columns.
- **Coordinates.** Latitude and longitude are integer units of 1e-8 degree.
- **JSON numbers.** Numbers in a request body are exact decimals `Decimal(mantissa, exp)`, whose
  value is mantissa / 10^exp.
- **Query strings.** A query string is a map from names to strings. After the middleware, ""
  stands for null: the empty string cannot survive them. It is read through `filled`, `input` and
  `integer`, modelled as PHP's `intval` on a digit prefix.
- **Derived price.** The price per square foot is the exact quotient, rounded half-up to the cent
  (`Numbers.IsRoundedQuotient`).
- **Side effects.** A clock reading, the set of existing user ids, the current year, the postal-code
  prefix from configuration, the application URL and every random draw of the factory are explicit
  parameters.

An unknown `sort_by` adds no ordering clause and does not fall back to `created_at`
(app/Http/Controllers/Api/PropertyController.php:56-59; `Listing.UnknownSortAddsNoOrdering`).

## Model

| member | source | states |
|---|---|---|
| Numbers.RoundHalfUpDiv | app/Models/Property.php:80-86 | The result is the quotient rounded half away from zero, the one integer within half a unit of n/d, with the sign of n. |
| Numbers.RoundHalfUpDivUnique | app/Models/Property.php:80-86 | Any integer within that half-unit bracket is the rounded quotient, so the cent value of a price per square foot is determined. |
| Numbers.LeIsValueOrder | app/Models/Property.php:123-134 | The comparison of two decimals by cross-multiplication agrees with the order of their real values. |
| Numbers.ToScale | app/Models/Property.php:50-67 | Rescaling a decimal to a fixed number of places lands within half a unit of its exact value. |
| Text.NatToString | database/factories/PropertyFactory.php:265-270 | The decimal rendering of n is a non-empty digit string; it is one character exactly below 10, and at most two, three or four characters exactly below 100, 1000 and 10^4. |
| NumericStrings.NatToStringLength | database/factories/PropertyFactory.php:265-270 | For every k of at least 1, the rendering of n has at most k digits exactly when n is below 10^k. |
| Text.DigitsValueOfNatToString | database/factories/PropertyFactory.php:265-270 | Reading a rendered number's digits back gives the number. |
| Text.ZeroPadNatRoundTrip | database/factories/PropertyFactory.php:265-270 | Left-padding with zeros keeps the digits' value: str_pad of a number reads back as the number. |
| Text.ZeroPadLeft | database/factories/PropertyFactory.php:265-267 | The padded string is at least the width, ends with the input, and has only zeros before it. |
| Text.IntValRoundTrip | app/Http/Controllers/Api/PropertyController.php:37-43 | `intval`, as `$request->integer` applies it, reads a rendered number and its negation back exactly. |
| Text.IntValOfWord | app/Http/Controllers/Api/PropertyController.php:37-43 | A parameter that starts with a letter reads as 0. |
| Text.ContainsIffOccurs | app/Models/Property.php:139-142 | The substring search holds exactly when the needle occurs at some position of the haystack. |
| Text.SplitJoinRoundTrip | app/Models/Property.php:147-157 | Splitting an `implode(', ', …)` of comma-free parts at ", " gives the parts back. |
| Text.Lower | app/Http/Controllers/Api/PropertyController.php:54-58 | Lower-casing keeps the length and maps each character on its own. |
| NumericStrings.ParseFormatRoundTrip | app/Http/Controllers/Api/PropertyController.php:45-49 | Every decimal, written in plain notation, parses back as the same decimal. |
| NumericStrings.ParseUnsignedPointed | app/Http/Controllers/Api/PropertyController.php:135-137 | A digit string with a point parses to the value of its digits scaled by the number of fraction digits. |
| PropertyModel.CalculatePricePerSqft | app/Models/Property.php:80-86 | After the recompute, the row satisfies the price-per-square-foot invariant. Nothing changes unless the price is set and the area is positive. Only that column and `updated_at` may change, and a row that `save()` finds changed is stamped with the clock. |
| PropertyModel.Save | app/Models/Property.php:84 | `save()` leaves an unchanged row as it was. A changed row keeps every assigned column and gets `updated_at` set to the clock. |
| PropertyModel.AssignPricePerSqft | app/Models/Property.php:82-83 | Assigning the quotient makes the row consistent and touches no other column. |
| PropertyModel.CalculatePricePerSqftIdempotent | app/Models/Property.php:80-86 | Recomputing a second time changes nothing. |
| PropertyModel.CalculatePricePerSqftFixesConsistent | app/Models/Property.php:80-86 | A row that already satisfies the invariant is left unchanged. |
| PropertyModel.InPriceRangeBetween | app/Models/Property.php:123-134 | With two non-zero bounds, a row is in range exactly when its price lies between them by value. |
| PropertyModel.KeptParts | app/Models/Property.php:149-154 | `array_filter` keeps every truthy address part, keeps nothing else, and is empty exactly when every part is falsy. |
| PropertyModel.FullAddressEmptyIff | app/Models/Property.php:147-157 | The full address is empty exactly when street, city, state and zip are all falsy. |
| PropertyModel.FullAddressSplits | app/Models/Property.php:147-157 | Splitting the full address at ", " gives back the truthy parts in order. |
| PropertyModel.FormattedZipCode | app/Models/Property.php:162-176 | A falsy zip formats as "". A zip that contains a dash is returned as it is. Any other zip gets the configured prefix in front. |
| PropertyModel.FormattedZipCodeIdempotent | app/Models/Property.php:162-176 | Formatting an already formatted zip code changes nothing. |
| PropertyModel.AddFeature | app/Models/Property.php:189-198 | Afterwards the feature is present. An existing feature leaves the row unchanged. A new one is appended at the end and `save()` stamps `updated_at` with the clock. Only the features column and `updated_at` change, and a duplicate-free list stays duplicate-free. |
| PropertyModel.AddFeatureIdempotent | app/Models/Property.php:189-198 | Adding the same feature twice is the same as adding it once. |
| PropertyModel.RemoveFeature | app/Models/Property.php:203-212 | Removes the first occurrence and re-indexes, and `save()` stamps `updated_at`. The multiset of features loses exactly one copy of the feature. Only the features column and `updated_at` change. |
| PropertyModel.RemoveAfterAdd | app/Models/Property.php:189-212 | Removing a feature just added restores the original list. |
| Validation.StoreRulesByKind | app/Http/Requests/StorePropertyRequest.php:22-53 | Each rule list of the store request is the declared rule list of that field's kind (text, count, amount, coordinate, year, choice, flag, array, owner). |
| Validation.DeclaredRulesMeaning | app/Http/Requests/StorePropertyRequest.php:25-51 | A value passes a kind's rule list exactly when it is acceptable for that kind: null, blank, or a well-typed value within the kind's bounds. JSON `true` counts as the integer 1 for the count fields, as `filter_var` and the size rules read it. An owner is a whole number, a boolean or a numeric string such as "1" naming an existing user, since `exists:users,id` runs with no type rule before it. |
| Validation.UpdateRulesAreStoreRulesWithSometimes | app/Http/Requests/UpdatePropertyRequest.php:24-52 | The update request has the same fields as the store request, each with `sometimes` prepended. |
| Validation.SometimesIsNeutral | app/Http/Requests/UpdatePropertyRequest.php:24-52 | `sometimes` changes nothing for a key that is present. |
| Validation.StoreAndUpdateAgree | app/Http/Requests/UpdatePropertyRequest.php:24-52 | Store and update reject exactly the same fields of every body. |
| Validation.StoreFieldErrors | app/Http/Requests/StorePropertyRequest.php:22-53 | A field is in the errors exactly when it is present and its value is not acceptable for its kind, so `{"floors": true}` passes, and so does `{"user_id": "1"}` when user 1 exists. |
| Validation.NumericStringOwnerAccepted | app/Http/Requests/StorePropertyRequest.php:51 | A user id sent as the string of a whole number is an error exactly when no user has that id. |
| Validation.FeatureElementErrors | app/Http/Requests/StorePropertyRequest.php:49 | `features.i` is in the errors exactly when the i-th feature exists and is neither a blank string nor a string of at most 100 characters. |
| Validation.NullBodyPasses | app/Http/Requests/StorePropertyRequest.php:22-53 | A body whose every value is null passes. |
| Validation.ErrorsOnlyForPresentKeys | app/Http/Requests/StorePropertyRequest.php:22-53 | Without a features array, errors are only reported for keys present in the body. |
| Validation.CountBelowMinimumRejected | app/Http/Requests/StorePropertyRequest.php:33-36 | An integer field below its `min` is rejected. |
| Validation.CoordinateOutOfRangeRejected | app/Http/Requests/StorePropertyRequest.php:31-32 | A latitude or longitude outside its `between` range is rejected. |
| Validation.UnknownChoiceRejected | app/Http/Requests/StorePropertyRequest.php:40-41 | A non-blank type or status outside its `in` list is rejected. |
| Validation.FutureYearRejected | app/Http/Requests/StorePropertyRequest.php:42 | A year built after the current year is rejected. |
| Validation.RejectsOutOfRangeBody | tests/Feature/PropertyApiTest.php:196-214 | The negative-area, negative-bedrooms, unknown-type, latitude-100 body fails on exactly those four fields. |
| Validation.RejectsFutureYearBody | tests/Feature/ArchitectureExampleTest.php:16-29 | The negative-area, castle, 2030 body fails on exactly those three fields whenever the current year is before 2030. |
| Validation.RoundedRatio | app/Http/Requests/StorePropertyRequest.php:74-82 | The merged ratio is price over area rounded to the cent. |
| Validation.Operand | app/Http/Requests/StorePropertyRequest.php:79 | A JSON number is divided as its value, and an array cannot be divided. |
| Validation.PositiveOperand | app/Http/Requests/StorePropertyRequest.php:77 | An area PHP finds greater than 0 and can divide by is a positive number, so the division never divides by zero. |
| Validation.Prepare | app/Http/Requests/StorePropertyRequest.php:74-82 | The merge runs when price and square_feet are present and PHP finds the area positive. It fails, before any rule runs, exactly when an operand is not a number PHP can divide. Otherwise it keeps every other key and merges the rounded ratio. |
| Validation.MergedPricePerSqftIsDropped | app/Http/Requests/StorePropertyRequest.php:74-82 | `validated()` never carries the merged `price_per_sqft`, because no rule names it, and the merge leaves `validated()` as it would be without it. |
| Validation.NoRuleForPricePerSqft | app/Http/Requests/StorePropertyRequest.php:22-53 | Neither request has a rule for `price_per_sqft`. |
| Validation.PrepareKeepsErrors | app/Http/Requests/UpdatePropertyRequest.php:74-82 | Preparation never changes which fields fail validation. |
| Validation.Validated | app/Http/Controllers/Api/PropertyController.php:75 | `validated()` holds exactly the ruled keys of the body, with their values. |
| Listing.Select | app/Http/Controllers/Api/PropertyController.php:22-50 | The selected rows are the table's rows that satisfy every filter, each with its multiplicity. |
| Listing.PriceBound | app/Http/Controllers/Api/PropertyController.php:45-49 | A bound that is not null and does not parse as a number fails, because it cannot be passed as `?float`. A null or absent bound is null. Any other bound is its parsed number. |
| Listing.Input | app/Http/Controllers/Api/PropertyController.php:26 | `input` is null exactly when the key is absent or null, and otherwise the value as it arrived. |
| Listing.IndexFiltersFailIff | app/Http/Controllers/Api/PropertyController.php:45-49 | Building the filters fails exactly when the price clause is added and one of its bounds is a non-null string that is not a number. |
| Listing.IndexFiltersMeaning | app/Http/Controllers/Api/PropertyController.php:25-50 | A row satisfies the built filters exactly when it satisfies each filled parameter's scope (the reference predicate `Admits`). |
| Listing.PriceFilterAddedIff | app/Http/Controllers/Api/PropertyController.php:45-50 | A price-range clause is added exactly when `min_price` or `max_price` is filled. |
| Listing.UnfilteredQueryAdmitsAll | app/Http/Controllers/Api/PropertyController.php:25-50 | With no filter filled, no clause is added and every row is admitted. |
| Listing.OrderClause | app/Http/Controllers/Api/PropertyController.php:53-59 | Any ordering applied is on the requested column, and that column is whitelisted. |
| Listing.DefaultOrderIsNewestFirst | app/Http/Controllers/Api/PropertyController.php:53-54 | Without sort parameters, rows are ordered by `created_at` descending. |
| Listing.UnknownSortAddsNoOrdering | app/Http/Controllers/Api/PropertyController.php:56-59 | A `sort_by` outside the whitelist adds no ordering and no error. |
| Listing.SortDirectionIgnoresCase | app/Http/Controllers/Api/PropertyController.php:54-58 | "ASC" orders ascending. |
| Listing.BadDirectionRejected | app/Http/Controllers/Api/PropertyController.php:54-58 | A whitelisted column with a direction other than asc/desc fails. |
| Listing.Sort | app/Http/Controllers/Api/PropertyController.php:58 | The result is ordered on the column and is a permutation of the input. |
| Listing.IndexReturnsAdmittedRows | app/Http/Controllers/Api/PropertyController.php:20-68 | A listing holds every admitted row of the table with its multiplicity and no other row, ordered as requested. |
| Listing.RadiusRule | app/Http/Controllers/Api/PropertyController.php:135 | `radius` fails exactly when filled and either not numeric or outside 0.1 to 100. |
| Listing.NumberWithinMeaning | app/Http/Controllers/Api/PropertyController.php:135-137 | A range rule passes exactly when the string parses to a number between the bounds by value. |
| Listing.SearchErrors | app/Http/Controllers/Api/PropertyController.php:133-138 | Only the four validated parameters can fail. |
| Listing.Search | app/Http/Controllers/Api/PropertyController.php:131-170 | Search fails exactly when validation reports a field, and it reports those fields. |
| Listing.SearchReturnsMatchingRows | app/Http/Controllers/Api/PropertyController.php:140-167 | A valid search returns exactly the rows that match the text term (when filled) and lie in the box (when the geographic search is active), with their multiplicity. |
| Listing.TextMatchesMeaning | app/Http/Controllers/Api/PropertyController.php:143-151 | A row matches the term exactly when one of title, description, address or city contains it. |
| Listing.GeoNeedsAllThree | app/Http/Controllers/Api/PropertyController.php:154 | Without all three of latitude, longitude and radius filled, no box clause is added. |
| Listing.RadiusDefaultUnreachable | app/Http/Controllers/Api/PropertyController.php:154-157 | Whenever the box is applied, the radius is the filled parameter. The default of 10 is never used. |
| Crud.AssignRequiredText | app/Http/Controllers/Api/PropertyController.php:75 | Writing anything but a string into a NOT NULL text column fails with that column. A string is stored as it is, and an absent key keeps the current value. |
| Crud.AssignRequiredFlag | app/Http/Controllers/Api/PropertyController.php:75 | Writing null into a NOT NULL flag fails with that column; an absent key keeps the current value. |
| Crud.FeatureStrings | app/Models/Property.php:63 | The stored feature list holds exactly the string items of the array, and all of them in order when every item is a string. |
| Crud.OwnerIdOf | app/Models/Property.php:44 | `user_id` has no cast: a number or boolean is stored as in the other whole-number columns, and a string is stored exactly when it is numeric. |
| Crud.StoredOwnerIsLookedUp | app/Models/Property.php:44 | Whenever `exists:users,id` reads an id from the value, the stored owner is that id. |
| Crud.AssignNullable | app/Models/Property.php:17-45 | Every nullable fillable column present in the attributes takes the attribute's value under the column's cast. The required columns, the id and the timestamps are untouched. |
| Crud.AssignRequired | app/Models/Property.php:17-45 | Status and the three flags take the attribute's value, and fail with the column when it is null. Nothing else changes. |
| Crud.Store | app/Http/Controllers/Api/PropertyController.php:73-87 | A non-numeric operand fails the merge before validation. An invalid body gets the validator's 422. In both cases the table is left alone. A stored row is appended under the next id; it carries every body value, has the defaults elsewhere, and its price per square foot is the rounded quotient whenever price and area are set. |
| Crud.Create | app/Http/Controllers/Api/PropertyController.php:75-80 | A created row is appended under the next id. It carries the attributes, keeps the defaults elsewhere and satisfies the invariant. A failed insert changes nothing. |
| Crud.CreatedAgrees | app/Http/Controllers/Api/PropertyController.php:78-80 | Recomputing the price per square foot after `create` keeps the attribute values and the defaults. |
| Crud.ValidatedColumns | app/Http/Controllers/Api/PropertyController.php:75 | `validated()` keeps exactly what the columns read, so a row carries the validated body exactly when it carries the body. |
| Crud.NumericStringOwnerStored | app/Http/Controllers/Api/PropertyController.php:73-87 | Storing `{"user_id": "n"}` for an existing user n succeeds and the row's owner is n. |
| Crud.StoreWritesBody | app/Http/Controllers/Api/PropertyController.php:73-97 | After a successful store, showing the new id returns a row that carries the body's values, has the defaults elsewhere and the rounded price per square foot. The table stays well formed. |
| Crud.StoreThenShow | app/Http/Controllers/Api/PropertyController.php:73-97 | Showing the id just stored returns the stored row, and the table stays well formed. |
| Crud.Show | app/Http/Controllers/Api/PropertyController.php:92-97 | Show is 404 exactly when no row has the id; otherwise it returns a row of the table with that id. |
| Crud.Destroy | app/Http/Controllers/Api/PropertyController.php:119-126 | A deletion removes exactly one row, the one with the id, and an unknown id is 404 with the table unchanged. |
| Crud.DestroyRemovesId | app/Http/Controllers/Api/PropertyController.php:119-126 | After a deletion, showing the id is 404 and the table stays well formed. |
| Crud.Fill | app/Http/Controllers/Api/PropertyController.php:104 | Filling fails exactly when a NOT NULL column would get null. Otherwise every fillable column in the body carries the body's value, and the id and both timestamps are kept. |
| Crud.FillAgrees | app/Http/Controllers/Api/PropertyController.php:104 | Filling changes no column outside the body's keys. |
| Crud.SaveAgrees | app/Http/Controllers/Api/PropertyController.php:104 | `save()` after `fill()` changes no column but `updated_at`. |
| Crud.UpdateWith | app/Http/Controllers/Api/PropertyController.php:102-114 | Update is 404 exactly when no row has the id, and 404 comes before the merge and validation. A non-numeric operand fails, and an invalid body is 422. A success replaces the row in place with one that carries the body's values, changes nothing else but the price per square foot and `updated_at`, and is stamped when it changed. |
| Crud.Modify | app/Http/Controllers/Api/PropertyController.php:104-109 | An update writes the body's values, changes only the body's keys, `price_per_sqft` and `updated_at`, stamps a changed row with the clock, and keeps the row's id and position. |
| Crud.Recompute | app/Http/Controllers/Api/PropertyController.php:107-109 | The recompute changes at most the price per square foot and `updated_at`. When it runs it restores the invariant, and a row it changes is stamped with the clock. |
| Crud.UpdateWritesBody | app/Http/Controllers/Api/PropertyController.php:102-114 | After a successful update, showing the id returns exactly the updated row, and the table stays well formed. |
| Crud.ReplaceKeepsId | app/Http/Controllers/Api/PropertyController.php:104 | Replacing a row by one with the same id keeps the table well formed and the row findable at the same place. |
| Crud.UpdateKeepsPricePerSqft | app/Http/Controllers/Api/PropertyController.php:107 | Unless both price and square_feet are in the body, the stored price per square foot is not touched. |
| Crud.EmptyUpdateChangesNothing | app/Http/Controllers/Api/PropertyController.php:102-114 | An update with an empty body returns the row and leaves the table exactly as it was. |
| Crud.UpdateLeavesStalePricePerSqft | app/Http/Controllers/Api/PropertyController.php:107 | A valid price-only update leaves a price per square foot that no longer matches the price; the corrected update recomputes it. |
| Crud.UpdateAsIntendedKeepsConsistency | app/Http/Controllers/Api/PropertyController.php:107 | With the corrected guard, an update of a consistent row yields a consistent row. |
| Middleware.Trim | routes/api.php:12-14 | `TrimStrings`, which Laravel runs as global middleware before the "api" group, cuts a run of trim characters from each end: the result is a middle slice with nothing left to strip, and it is empty exactly when every character is one to strip. |
| Middleware.TrimIdempotent | routes/api.php:12-14 | Trimming twice is trimming once. |
| Middleware.CleanString | routes/api.php:12-14 | A string becomes null exactly when it trims to nothing, and otherwise its trimmed form. |
| Middleware.CleanValue | routes/api.php:12-14 | `TrimStrings` and `ConvertEmptyStringsToNull`, Laravel's global middleware, clean every string of a value at any depth, keep array shapes and keys, and leave null, booleans and numbers alone. The result is clean. |
| Middleware.CleanFixesClean | routes/api.php:12-14 | A clean value passes both middleware unchanged. |
| Middleware.CleanValueIdempotent | routes/api.php:12-14 | Running the middleware twice is running them once. |
| Middleware.CleanBody | routes/api.php:12-14 | The cleaned body has the same keys, each value cleaned. |
| Middleware.CleanBodyMeaning | routes/api.php:12-14 | The cleaned body is clean, and a clean body is not changed. |
| Middleware.CleanQuery | routes/api.php:12-14 | The cleaned query has the same keys, each value trimmed, with "" as null. |
| Middleware.CleanQueryIdempotent | routes/api.php:12-14 | Every cleaned query value has nothing to trim, and cleaning twice is cleaning once. |
| Api.StoreRequest | routes/api.php:25 | `POST /api/properties` validates and stores the cleaned body. A failure leaves the table alone, and a stored row carries the cleaned body's values. |
| Api.UpdateRequest | routes/api.php:29-30 | `PUT`/`PATCH` update with the cleaned body. A failure leaves the table alone, and an updated row carries the cleaned body's values. |
| Api.CleanRequestsPassUnchanged | routes/api.php:24-25 | A body with nothing to clean reaches the controller as sent, and a query cleaned once lists the same rows as the raw one. |
| Api.BlankStatusRefused | app/Http/Controllers/Api/PropertyController.php:75 | `{"status": " "}` becomes a null status, which validation lets through and the NOT NULL column refuses. |
| Api.BlankFeatureRejected | app/Http/Requests/StorePropertyRequest.php:49 | A blank feature item passes `features.*` as sent, but becomes null in the middleware, and the store request then fails on `features.0`. |
| Api.BlankBoundIsNull | app/Http/Controllers/Api/PropertyController.php:45-49 | A price bound made only of white space becomes null, so the scope gets no bound and does not fail. |
| Api.BlankMinPriceIsOpen | app/Http/Controllers/Api/PropertyController.php:45-49 | With a blank `min_price` and a numeric `max_price`, `index` adds a price clause with an open lower end and does not fail. |
| Stats.CountStatusIsOccurrences | app/Http/Controllers/Api/PropertyController.php:179-181 | A status count is the number of occurrences of the status among the rows' statuses. |
| Stats.TallyOf | app/Http/Controllers/Api/PropertyController.php:185-189 | The tally has one positive entry per distinct key, each counting its occurrences, and the counts sum to the number of keys. |
| Stats.TypeList | app/Http/Controllers/Api/PropertyController.php:185-189 | The types fed to the grouping are the rows' non-null types, each as often as it occurs. |
| Stats.StatsWith | app/Http/Controllers/Api/PropertyController.php:175-195 | The totals count all rows and the rows with each of the three statuses. The type tally counts each non-null type and sums to the number of typed rows. |
| Stats.TypeCountPositive | app/Http/Controllers/Api/PropertyController.php:185-189 | A type has a positive count exactly when some row has it. |
| Stats.StatusCountsBounded | app/Http/Controllers/Api/PropertyController.php:178-181 | The three status counts never add up to more than the total. |
| Stats.StatsOfGroupedRows | tests/Feature/PropertyApiTest.php:170-194 | With groups of available, sold and rented rows, the counts are the group sizes. |
| Stats.ValidatedStatusesUncounted | app/Http/Controllers/Api/PropertyController.php:179-181 | Rows whose statuses are all ones the validator accepts are counted as 0 available, 0 sold and 0 rented. |
| Stats.SoldListingUncounted | app/Http/Controllers/Api/PropertyController.php:180 | A row the factory marks sold ("vendida") is not counted as sold; with the validator's words it is. |
| Stats.IntendedCountsPartition | app/Http/Controllers/Api/PropertyController.php:179-181 | With the validator's status words, available, sold, rented and pending partition the validated rows. |
| Stats.FourWayPartition | app/Http/Requests/StorePropertyRequest.php:41 | Over four distinct statuses that cover every row, the four counts sum to the number of rows. |
| Resource.Shape | app/Http/Resources/PropertyResource.php:15-66 | The view carries the full address, features and metadata with null shown as `[]`, the owner per `whenLoaded`, and null timestamps as null. |
| Resource.OwnerOf | app/Http/Resources/PropertyResource.php:56-62 | The owner key is omitted exactly when the relation is not loaded. When it is loaded, the key holds the owner or null. |
| Resource.ShapeOfNormalized | app/Http/Resources/PropertyResource.php:46-55 | Showing a null feature list or null metadata is the same as showing the empty list. |
| Resource.ShapeInjective | app/Http/Resources/PropertyResource.php:15-66 | Two rows with the same owner get the same view exactly when they agree once null lists are read as empty. No column is lost. |
| Resource.Normalized | app/Http/Resources/PropertyResource.php:46-55 | Normalizing only fills in null features and metadata, and leaves a row without nulls there as it is. |
| Resource.Only | app/Http/Resources/PropertyCollection.php:21 | `only` keeps exactly the listed keys the request has, with their values. |
| Resource.Collection | app/Http/Resources/PropertyCollection.php:15-36 | `data` shows each row of the page in order, `meta.total` is the page size, and `meta.filters` echoes the seven filter names. |
| Resource.CollectionRoundTrip | app/Http/Resources/PropertyCollection.php:15-24 | Every item of `data` reads back as its row, in page order. |
| Factory.StateIndex | database/factories/PropertyFactory.php:163-175 | A state is found exactly when it is one of the 32 listed states. |
| Factory.FindIndexFirst | database/factories/PropertyFactory.php:217 | Lookup by name finds the first position of the name. |
| Factory.CitiesOf | database/factories/PropertyFactory.php:180-219 | Every state has at least one city; an unlisted state falls back to "Ciudad Ejemplo". |
| Factory.City | database/factories/PropertyFactory.php:180-219 | The drawn city is one of the state's cities. |
| Factory.EveryStateHasCities | database/factories/PropertyFactory.php:182-217 | A listed state's cities are its own entry of the table. |
| Factory.EveryStateHasCode | database/factories/PropertyFactory.php:227-262 | Every listed state has its own postal-code rule, never the fallback 99. |
| Factory.ZipCodeRoundTrip | database/factories/PropertyFactory.php:224-273 | A generated postal code is the prefix plus five digits that read back as the state code and the drawn last three digits. |
| Factory.StateCodeDigits | database/factories/PropertyFactory.php:262-267 | The state code is two digits that read back as the drawn code, including the zero-padded Ciudad de México codes. |
| Factory.TrailingDigits | database/factories/PropertyFactory.php:270 | The last three digits are three digits that read back as the draw. |
| Factory.JaliscoZipCode | tests/Feature/MexicanAddressTest.php:49-60 | A Jalisco postal code starts with a code between 44 and 49. |
| Factory.UnknownStateFallbacks | database/factories/PropertyFactory.php:217-262 | An unlisted state gets state code 99 and the fallback city. |
| Factory.StreetAddress | database/factories/PropertyFactory.php:278-294 | A street address starts with its street type. |
| Factory.StreetNumberRoundTrip | database/factories/PropertyFactory.php:278-294 | The digits after the last `#` of a generated street address read back as the drawn number, and there are one to four of them. |
| Factory.FactoryPricePerSqft | database/factories/PropertyFactory.php:41 | The factory's price per square foot is the peso price over the area, rounded to the cent. |
| Factory.DefinitionPricePerSqft | database/factories/PropertyFactory.php:17-73 | A generated row satisfies the price-per-square-foot invariant, is a fixed point of the model's recompute, and has an area of at least 500. |
| Factory.DefinitionAddress | database/factories/PropertyFactory.php:23-33 | A generated row's city belongs to its state. Its street number and postal code read back as the draws. |
| Factory.DefinitionChoices | database/factories/PropertyFactory.php:44-65 | A generated row's type and status are values the validator accepts, and its features are distinct choices from the list. |
| Factory.FeatureNames | database/factories/PropertyFactory.php:52-65 | The features are the listed choices at the drawn positions, in draw order. |
| Factory.FeatureNamesDistinct | database/factories/PropertyFactory.php:52-65 | Distinct draws give a duplicate-free feature list drawn from the choices. |
| Factory.ForSale | database/factories/PropertyFactory.php:78-84 | The row becomes "available" with no rent, and nothing else changes. |
| Factory.ForRent | database/factories/PropertyFactory.php:89-97 | The row becomes "available" with no price, no price per square foot and the drawn rent, and nothing else changes. |
| Factory.Sold | database/factories/PropertyFactory.php:102-107 | The sold status is one the validator accepts, and nothing else changes. |
| Factory.Luxury | database/factories/PropertyFactory.php:112-144 | A luxury row has at least 3000 square feet and the fixed luxury feature list. |
| Factory.LuxuryConsistent | database/factories/PropertyFactory.php:115-124 | A luxury row satisfies the price-per-square-foot invariant. |
| Factory.InState | database/factories/PropertyFactory.php:149-158 | The row gets the state and one of its cities, and only state, city and zip change. |
| Factory.InStateZipCode | database/factories/PropertyFactory.php:149-158 | The new postal code reads back as the state's code and the drawn digits. |

## Left out

- Pagination is left out. The `per_page` parameter, the page slice, and the `links`/`meta` keys the
  paginator merges into a collection are not modelled. The model's page is the whole filtered,
  ordered table.
- `TrimStrings` exempts the password keys from trimming. No rule of these requests reads them, so
  the model trims every key.
- NUL characters are not modelled consistently. PHP's `trim` strips "\0" when the validator decides
  whether a value is blank, but `Str::trim` in the middleware does not. So a body string made only
  of NUL characters reaches validation as a non-null string that the validator treats as blank.
  The model follows both readings as written.
- Listing.Query: after the middleware, "" stands for null. `meta.filters` therefore echoes "" for a
  parameter the framework echoes as null.
- Geographic search is only partly modelled. The bounding box uses floating-point `cos` and
  division, so it is a parameter (`Listing.Box`). The model covers the gate that decides whether the
  box applies, not the box arithmetic.
- The three averages of `stats` (`avg` over float columns) are left out.
- Timestamps are opaque instants. Their ISO-8601 rendering and the string form of `decimal:2` casts
  are not modelled.
- `LIKE` is modelled as a case-insensitive substring test. `%`/`_` wildcards inside a term and
  database collations are not modelled.
- `in_array` loose comparison is not modelled: membership is string equality. This affects only
  `hasFeature`, `addFeature` and `removeFeature` (a feature "1" and a stored feature " 1" compare
  equal in PHP). The `sort_by` whitelist holds only non-numeric strings, so loose and strict
  comparison agree there.
- Text.IntVal: reads only an optional sign and a digit prefix. PHP 8's `intval("1e3")` is 1000,
  but the model gives 1, so `bedrooms=1e3` filters on 1 bedroom in the model. The exponent form is
  left out. The same holds for `NumericStrings.ParseDecimal`, which rejects exponent strings, so
  a price bound or a string operand such as "1e3" fails in the model where PHP reads 1000.
- Numeric strings in the number fields of a body (all but `user_id`) are not modelled. A
  number sent as a string fails the `numeric` and `integer` rules, although Laravel accepts it. Flags accept exactly Laravel's
  true, false, 0, 1, "0" and "1".
- `intval` overflow is not modelled: `Text.IntVal` is unbounded.
- Column precision and width are not modelled. Integers are unbounded, so `price_per_sqft`
  (`decimal(8,2)`), `price` (`decimal(12,2)`), `monthly_rent`, `property_taxes` and `lot_size`
  (`decimal(10,2)`), the coordinates and the unsigned counts never overflow or reject a value in
  the model. For example, `{"price": 100000000, "square_feet": 1}` stores a ratio of 1e8, above the
  column's 999999.99. `PricePerSqftConsistent` relies on this.
- PHP's float division and `round()` are not modelled. They are replaced by exact rational rounding
  half away from zero.
- A string operand that PHP reads by a leading numeric prefix ("5abc") only with a warning is a
  failure in the model, as Laravel turns the warning into an exception.
- The `store` and `update` responses show the attributes as they were written. Database defaults
  (status, flags) are applied by `Crud.NewRow`, not re-read. A JSON `true` sent for a count column
  without a cast is echoed as `true` by the response; the model stores and shows 1, the value a
  later read returns.
- The `exists:users,id` rule is modelled against a set of user ids in the context. A numeric
  string reads as the number it denotes, as the database compares it. A string the database
  would read only by a leading numeric prefix ("1abc", which MySQL compares as 1) fails the rule
  in the model. An array sent as `user_id` is not modelled. The response echoes a string
  `user_id` as it was sent, while the model stores and shows the number.
- Crud.FeatureStrings, Crud.FeaturesOf: a `features` value sent as a JSON object passes
  `array` and `features.*`, and the `array` cast would store it with its keys
  (`{"a":"pool"}`). The model stores only the object's values, as a list (`["pool"]`), because
  the features column is a list everywhere else (`addFeature`, `removeFeature`, the resource).
  A list-shaped `features` is stored exactly.
- The `user` relation and its loading are parameters of the resource (`Resource.Relation`).
- The route's host is the `appUrl` parameter.
- Query parameters that are arrays are not modelled. Every query value is a string.
- Row order among equal sort keys is left to the table's order, as the database leaves it
  unspecified.
- The per-type tally is listed in order of first appearance. The database's group order is not
  modelled.
- Faker's draws are explicit parameters constrained to the source's ranges (`Factory.InRange`).
  Title, description, coordinates, listing agent and renovation year are free draws, so no property
  beyond their range is stated.
- The uniqueness of `mls_number` across rows is not modelled.
- A null `metadata` is shown as `[]`, which JSON encodes as a list. The model follows this.
- The postal-code prefix from configuration is a parameter.

## Findings

| source | as written | input that shows it | evidently intended | confidence | as-written member | corrected member |
|---|---|---|---|---|---|---|
| app/Http/Controllers/Api/PropertyController.php:179-181 | `stats` counts rows whose status is "available", "sold" or "rented", but the validator only accepts "disponible", "pendiente", "vendida" and "rentada", and the factory's `sold` state writes "vendida" | one row stored with status "vendida": `sold_properties` is 0 | count the validator's words: "disponible", "vendida" and "rentada" | not executed; the feature test (tests/Feature/PropertyApiTest.php:170-193) seeds "available" and "sold", so the code may instead mean the English words and the validator be the part that is off | Stats.SoldListingUncounted | Stats.IntendedCountsPartition |
| app/Http/Controllers/Api/PropertyController.php:107 | `$request->has(['price', 'square_feet'])` is true only when BOTH keys are sent, so an update of the price alone keeps the old price per square foot | row with price 1000.00, 100 square feet and price per square foot 10.00; body `{"price": 2000}`: the response keeps 10.00 | recompute when either key is sent (`hasAny`), so the derived column follows the new price (20.00) | not executed | Crud.UpdateLeavesStalePricePerSqft | Crud.UpdateAsIntendedKeepsConsistency |

=== FILE: api.dfy ===
/** The API routes end to end: each request passes the global middleware before the form
    request and the controller see it (routes/api.php, app/Http/Controllers/Api/PropertyController.php). */
module Api {
  import opened Wrappers
  import opened Json
  import opened Text
  import opened NumericStrings
  import opened Faults
  import opened Validation
  import opened PropertyModel
  import opened Crud
  import opened Listing
  import opened Middleware

  /** `POST /api/properties` as the client sends it. */
  function StoreRequest(db: Db, body: Payload, ctx: Context, now: int): (r: Outcome)
    ensures r.response.Failure? ==> r.db == db
    ensures r.response.Success? ==> Carries(r.response.value, CleanBody(body))
  {
    Store(db, CleanBody(body), ctx, now)
  }

  /** `PUT|PATCH /api/properties/{id}` as the client sends it. */
  function UpdateRequest(db: Db, id: int, body: Payload, ctx: Context, now: int): (r: Outcome)
    ensures r.response.Failure? ==> r.db == db
    ensures r.response.Success? ==> Carries(r.response.value, CleanBody(body))
  {
    Update(db, id, CleanBody(body), ctx, now)
  }

  /** `GET /api/properties` as the client sends it, before pagination. */
  function IndexRequest(table: seq<Property>, q: Query): Result<seq<Property>, Fault> {
    Index(table, CleanQuery(q))
  }

  /** `GET /api/properties/search` as the client sends it, before pagination. */
  function SearchRequest(table: seq<Property>, q: Query, box: Box): Result<seq<Property>, Fault> {
    Search(table, CleanQuery(q), box)
  }

  /** A body the middleware have nothing to do to reaches the controller as sent, and a
      query that went through them once is not changed by a second pass. */
  lemma CleanRequestsPassUnchanged(db: Db, body: Payload, ctx: Context, now: int, table: seq<Property>, q: Query)
    requires CleanPayload(body)
    ensures StoreRequest(db, body, ctx, now) == Store(db, body, ctx, now)
    ensures IndexRequest(table, CleanQuery(q)) == IndexRequest(table, q)
  {
    CleanBodyMeaning(body);
    CleanQueryIdempotent(q);
  }

  /** A blank status becomes null before validation, which lets null through; the NOT NULL
      column then refuses it. */
  lemma BlankStatusRefused(db: Db, ctx: Context, now: int)
    ensures StoreRequest(db, map["status" := Str(" ")], ctx, now).response == Failure(NullInNotNullColumn("status"))
  {
    CleanBlankStatus();
    NullStatusRefused(db, ctx, now);
  }

  lemma CleanBlankStatus()
    ensures CleanBody(map["status" := Str(" ")]) == map["status" := Null]
  {
    CleanSingletonBody("status", Str(" "));
    BlankCleansToNull(" ");
  }

  lemma NullStatusRefused(db: Db, ctx: Context, now: int)
    ensures Store(db, map["status" := Null], ctx, now).response == Failure(NullInNotNullColumn("status"))
  {
    var body := map["status" := Null];
    NullBodyPasses(body, ctx);
    assert Prepare(body) == Success(body);
    StatusHasRules(ctx.currentYear);
    assert Validated(StoreRules(ctx.currentYear), body) == body;
    NullStatusNotFilled(NewRow(db.nextId, now));
  }

  lemma StatusHasRules(currentYear: int)
    ensures "status" in StoreRules(currentYear)
  {
    StoreRulesKeys(currentYear);
    ColumnsHaveKinds();
  }

  lemma NullStatusNotFilled(row: Property)
    ensures Fill(row, map["status" := Null]) == Failure(NullInNotNullColumn("status"))
  {
    var body := map["status" := Null];
    assert AssignRequiredText(body, "status", AssignNullable(row, body).status) == Failure(NullInNotNullColumn("status"));
  }

  /** A blank feature becomes null, which the `string` rule of `features.*` rejects; sent
      as is, the blank item would have been skipped. */
  lemma BlankFeatureRejected(db: Db, ctx: Context, now: int)
    ensures "features.0" !in StoreErrors(map["features" := List([Str("")])], ctx)
    ensures StoreRequest(db, map["features" := List([Str("")])], ctx, now).response.Failure?
    ensures StoreRequest(db, map["features" := List([Str("")])], ctx, now).response.error.ValidationFailed?
    ensures "features.0" in StoreRequest(db, map["features" := List([Str("")])], ctx, now).response.error.fields
  {
    CleanBlankFeature();
    BlankFeatureSkipped(ctx);
    NullFeatureRejected(db, ctx, now);
  }

  lemma CleanBlankFeature()
    ensures CleanBody(map["features" := List([Str("")])]) == map["features" := List([Null])]
  {
    CleanSingletonBody("features", List([Str("")]));
    CleanSingletonList(Str(""));
    BlankCleansToNull("");
  }

  lemma BlankFeatureSkipped(ctx: Context)
    ensures "features.0" !in StoreErrors(map["features" := List([Str("")])], ctx)
  {
    assert NatToString(0) == "0";
    FeatureElementErrors(map["features" := List([Str("")])], ctx, 0);
  }

  lemma NullFeatureRejected(db: Db, ctx: Context, now: int)
    ensures Store(db, map["features" := List([Null])], ctx, now).response.Failure?
    ensures Store(db, map["features" := List([Null])], ctx, now).response.error.ValidationFailed?
    ensures "features.0" in Store(db, map["features" := List([Null])], ctx, now).response.error.fields
  {
    var body := map["features" := List([Null])];
    assert NatToString(0) == "0";
    assert "features." + NatToString(0) == "features.0";
    FeatureElementErrors(body, ctx, 0);
    assert "features.0" in StoreErrors(body, ctx);
    assert Prepare(body) == Success(body);
  }

  /** Input the middleware turn into null: every character is stripped. */
  predicate AllTrimSpace(s: string) {
    forall i :: 0 <= i < |s| ==> IsTrimSpace(s[i])
  }

  /** A blank price bound becomes null, so the scope receives no bound rather than a
      string PHP cannot pass as a float. */
  lemma BlankBoundIsNull(q: Query, key: string)
    requires key in q && AllTrimSpace(q[key])
    ensures PriceBound(CleanQuery(q), key) == Success(None)
    ensures Bound(CleanQuery(q), key) == None
  {
  }

  /** With a blank minimum and a filled numeric maximum, the price clause is added with an
      open lower end and `index` does not fail on it. */
  lemma BlankMinPriceIsOpen(q: Query)
    requires "min_price" in q && AllTrimSpace(q["min_price"])
    requires "max_price" in q && IsTrimmedString(q["max_price"]) && !IsBlank(q["max_price"])
    requires ParseDecimal(q["max_price"]).Some?
    ensures !HasBadPriceBound(CleanQuery(q))
    ensures PriceFilter(CleanQuery(q)) == Success([PriceBetween(None, ParseDecimal(q["max_price"]))])
  {
    BlankBoundIsNull(q, "min_price");
    TrimmedValueKept(q, "max_price");
    NumericBoundIsRead(CleanQuery(q), "max_price");
  }

  /** A filled numeric bound reaches the scope as its number. */
  lemma NumericBoundIsRead(q: Query, key: string)
    requires key in q && !IsBlank(q[key]) && ParseDecimal(q[key]).Some?
    ensures Filled(q, key) && !BadBound(q, key)
    ensures PriceBound(q, key) == Success(ParseDecimal(q[key]))
  {
    assert q[key] != [];
  }

  /** A query value with nothing to trim passes the middleware as it is. */
  lemma TrimmedValueKept(q: Query, key: string)
    requires key in q && IsTrimmedString(q[key])
    ensures key in CleanQuery(q) && CleanQuery(q)[key] == q[key]
  {
    TrimOfTrimmed(q[key]);
  }
}

=== FILE: crud.dfy ===
/** The write side of the controller, over an in-memory `properties` table: `store`, `show`,
    `update` and `destroy` (app/Http/Controllers/Api/PropertyController.php), with the
    mass assignment of a validated body onto a row (app/Models/Property.php). */
module Crud {
  import opened Wrappers
  import opened Numbers
  import opened Text
  import opened Json
  import opened PropertyModel
  import opened Validation
  import opened NumericStrings
  import opened Faults

  /** The table and its auto-increment counter, which never hands out an id twice. */
  datatype Db = Db(rows: seq<Property>, nextId: int)

  /** Ids are unique and all below the counter. */
  predicate Valid(db: Db) {
    && (forall i, j :: 0 <= i < j < |db.rows| ==> db.rows[i].id != db.rows[j].id)
    && (forall i :: 0 <= i < |db.rows| ==> db.rows[i].id < db.nextId)
  }

  /** The state after a request and the response it produced. */
  datatype Outcome = Outcome(db: Db, response: Result<Property, Fault>)

  // ---------------------------------------------------------------------------
  // Mass assignment: a validated body onto a row
  // ---------------------------------------------------------------------------

  /** A text column stores the string as it reaches the controller; anything else (null)
      is stored as null. */
  function TextOf(v: Value): (r: Option<string>)
    ensures r.Some? <==> v.Str?
    ensures r.Some? ==> r.value == v.s
  {
    if v.Str? then Some(v.s) else None
  }

  /** A number stored in a column with `places` decimals, rounded half-up as the column
      and the `decimal:N` cast do; an integer column has no decimals. A boolean is bound as
      1 or 0. */
  function ScaledOf(v: Value, places: nat): (r: Option<int>)
    ensures v.Num? ==> r == Some(ToScale(v.n, places))
    ensures v.Bool? ==> r == Some(if v.b then Pow10(places) else 0)
    ensures r.None? <==> !v.Num? && !v.Bool?
  {
    match v
    case Num(n) => Some(ToScale(n, places))
    case Bool(b) => Some(if b then Pow10(places) else 0)
    case _ => None
  }

  /** The value the `boolean` cast reads back: PHP truthiness, so 0, "" and "0" are false;
      null stays null. */
  function FlagOf(v: Value): (r: Option<bool>)
    ensures r.None? <==> !v.Bool? && !v.Num? && !v.Str?
    ensures v.Bool? ==> r == Some(v.b)
    ensures v.Str? ==> r == Some(v.s != "" && v.s != "0")
  {
    match v
    case Bool(b) => Some(b)
    case Num(n) => Some(!IsZero(n))
    case Str(s) => Some(s != "" && s != "0")
    case _ => None
  }

  predicate AllStrings(items: seq<Value>) {
    forall i :: 0 <= i < |items| ==> items[i].Str?
  }

  /** The strings of a `features` array, in order: for a list of strings (the only lists
      validation lets through) exactly its items. */
  function FeatureStrings(items: seq<Value>): (r: seq<string>)
    ensures forall s :: s in r <==> Str(s) in items
    ensures AllStrings(items) ==> |r| == |items| && forall i :: 0 <= i < |r| ==> Str(r[i]) == items[i]
  {
    if items == [] then []
    else
      var rest := FeatureStrings(items[1..]);
      assert forall s :: Str(s) in items <==> Str(s) == items[0] || Str(s) in items[1..];
      (if items[0].Str? then [items[0].s] else []) + rest
  }

  function FeaturesOf(v: Value): Option<seq<string>> {
    if v.IsArray() then Some(FeatureStrings(v.Elements())) else None
  }

  /** The `array` cast stores any non-null value as JSON and reads it back unchanged. */
  function MetadataOf(v: Value): (r: Option<Value>)
    ensures r.None? <==> v.Null?
    ensures r.Some? ==> r.value == v
  {
    if v.Null? then None else Some(v)
  }

  /** A nullable text column: the body's string when the key is present, else `current`. */
  function AssignText(attrs: Payload, key: string, current: Option<string>): (r: Option<string>)
    ensures r == if key in attrs then TextOf(attrs[key]) else current
  {
    if key in attrs then TextOf(attrs[key]) else current
  }

  /** A nullable numeric column with `places` decimals. */
  function AssignNumber(attrs: Payload, key: string, current: Option<int>, places: nat): (r: Option<int>)
    ensures r == if key in attrs then ScaledOf(attrs[key], places) else current
  {
    if key in attrs then ScaledOf(attrs[key], places) else current
  }

  /** What the `user_id` column stores for a body value. The column has no cast, so the
      database converts the value itself: a number or a boolean as the other whole-number
      columns do, and a numeric string as the number it denotes. */
  function OwnerIdOf(v: Value): (r: Option<int>)
    ensures !v.Str? ==> r == ScaledOf(v, 0)
    ensures v.Str? ==> (r.Some? <==> ParseDecimal(v.s).Some?)
  {
    if v.Str? then
      match ParseDecimal(v.s)
      case Some(d) => Some(ToScale(d, 0))
      case None => None
    else ScaledOf(v, 0)
  }

  /** A whole decimal is stored as its own value in a whole-number column. */
  lemma WholeToScale(d: Decimal)
    requires IsIntegral(d)
    ensures ToScale(d, 0) == IntegralValue(d)
  {
    var k := IntegralValue(d);
    assert d.mantissa * Pow10(0) == k * Pow10(d.exp);
    var p := Pow10(d.exp);
    assert (2 * k - 1) * p == 2 * (k * p) - p && (2 * k + 1) * p == 2 * (k * p) + p;
    RoundHalfUpDivUnique(d.mantissa * Pow10(0), Pow10(d.exp), k);
  }

  /** The owner stored is the user the `exists:users,id` rule found: whenever the lookup
      reads an id from the value, the column holds that id. */
  lemma StoredOwnerIsLookedUp(v: Value)
    requires LookupId(v).Some?
    ensures OwnerIdOf(v) == LookupId(v)
  {
    if v.Num? {
      WholeToScale(v.n);
    } else if v.Str? {
      WholeToScale(ParseDecimal(v.s).value);
    }
  }

  /** A NOT NULL text column: a null body value is refused by the database. */
  function AssignRequiredText(attrs: Payload, key: string, current: string): (r: Result<string, Fault>)
    ensures r.Failure? <==> key in attrs && !attrs[key].Str?
    ensures r.Failure? ==> r.error == NullInNotNullColumn(key)
    ensures r.Success? ==> r.value == if key in attrs then attrs[key].s else current
  {
    if key !in attrs then Success(current)
    else match TextOf(attrs[key])
      case None => Failure(NullInNotNullColumn(key))
      case Some(v) => Success(v)
  }

  /** A NOT NULL boolean column. */
  function AssignRequiredFlag(attrs: Payload, key: string, current: bool): (r: Result<bool, Fault>)
    ensures r.Failure? <==> key in attrs && FlagOf(attrs[key]).None?
    ensures r.Failure? ==> r.error == NullInNotNullColumn(key)
    ensures r.Success? ==> r.value == if key in attrs then FlagOf(attrs[key]).value else current
  {
    if key !in attrs then Success(current)
    else match FlagOf(attrs[key])
      case None => Failure(NullInNotNullColumn(key))
      case Some(v) => Success(v)
  }

  /** The NOT NULL columns can take what the body gives them. */
  predicate RequiredColumnsAccept(attrs: Payload) {
    && ("status" in attrs ==> TextOf(attrs["status"]).Some?)
    && ("has_basement" in attrs ==> FlagOf(attrs["has_basement"]).Some?)
    && ("has_pool" in attrs ==> FlagOf(attrs["has_pool"]).Some?)
    && ("has_garden" in attrs ==> FlagOf(attrs["has_garden"]).Some?)
  }

  /** Each NOT NULL column whose key the body carries holds the value the body gives it. */
  predicate RequiredColumnsCarry(row: Property, attrs: Payload) {
    && ("status" in attrs ==> TextOf(attrs["status"]) == Some(row.status))
    && ("has_basement" in attrs ==> FlagOf(attrs["has_basement"]) == Some(row.hasBasement))
    && ("has_pool" in attrs ==> FlagOf(attrs["has_pool"]) == Some(row.hasPool))
    && ("has_garden" in attrs ==> FlagOf(attrs["has_garden"]) == Some(row.hasGarden))
  }

  /** Each nullable text column whose key the body carries holds the body's string. */
  predicate TextColumnsCarry(row: Property, attrs: Payload) {
    && ("title" in attrs ==> row.title == TextOf(attrs["title"]))
    && ("description" in attrs ==> row.description == TextOf(attrs["description"]))
    && ("address" in attrs ==> row.address == TextOf(attrs["address"]))
    && ("city" in attrs ==> row.city == TextOf(attrs["city"]))
    && ("state" in attrs ==> row.state == TextOf(attrs["state"]))
    && ("zip_code" in attrs ==> row.zipCode == TextOf(attrs["zip_code"]))
    && ("property_type" in attrs ==> row.propertyType == TextOf(attrs["property_type"]))
  }

  /** Each numeric column whose key the body carries holds the body's number at the
      column's scale. The price per square foot is left out: the application derives it. */
  predicate NumberColumnsCarry(row: Property, attrs: Payload) {
    && ("latitude" in attrs ==> row.latitude == ScaledOf(attrs["latitude"], 8))
    && ("longitude" in attrs ==> row.longitude == ScaledOf(attrs["longitude"], 8))
    && ("square_feet" in attrs ==> row.squareFeet == ScaledOf(attrs["square_feet"], 0))
    && ("bedrooms" in attrs ==> row.bedrooms == ScaledOf(attrs["bedrooms"], 0))
    && ("bathrooms" in attrs ==> row.bathrooms == ScaledOf(attrs["bathrooms"], 0))
    && ("floors" in attrs ==> row.floors == ScaledOf(attrs["floors"], 0))
    && ("price" in attrs ==> row.price == ScaledOf(attrs["price"], 2))
    && ("monthly_rent" in attrs ==> row.monthlyRent == ScaledOf(attrs["monthly_rent"], 2))
    && ("property_taxes" in attrs ==> row.propertyTaxes == ScaledOf(attrs["property_taxes"], 2))
    && ("year_built" in attrs ==> row.yearBuilt == ScaledOf(attrs["year_built"], 0))
    && ("lot_size" in attrs ==> row.lotSize == ScaledOf(attrs["lot_size"], 2))
    && ("garage_spaces" in attrs ==> row.garageSpaces == ScaledOf(attrs["garage_spaces"], 0))
    && ("user_id" in attrs ==> row.userId == OwnerIdOf(attrs["user_id"]))
  }

  /** The two array-cast columns hold the body's list and value. */
  predicate ArrayColumnsCarry(row: Property, attrs: Payload) {
    && ("features" in attrs ==> row.features == FeaturesOf(attrs["features"]))
    && ("metadata" in attrs ==> row.metadata == MetadataOf(attrs["metadata"]))
  }

  /** Each nullable column whose key the body carries holds the value the body gives it,
      in the column's type. */
  predicate NullableColumnsCarry(row: Property, attrs: Payload) {
    TextColumnsCarry(row, attrs) && NumberColumnsCarry(row, attrs) && ArrayColumnsCarry(row, attrs)
  }

  /** The row carries every column value the body gives. */
  predicate Carries(row: Property, attrs: Payload) {
    NullableColumnsCarry(row, attrs) && RequiredColumnsCarry(row, attrs)
  }

  /** `fill($attributes)`: every present key overwrites its column, and nothing else
      changes; a null for a NOT NULL column is refused. */
  function Fill(row: Property, attrs: Payload): (r: Result<Property, Fault>)
    ensures r.Success? <==> RequiredColumnsAccept(attrs)
    ensures r.Failure? ==> r.error.NullInNotNullColumn?
    ensures r.Success? ==> Carries(r.value, attrs)
    ensures r.Success? ==> r.value.id == row.id && r.value.createdAt == row.createdAt && r.value.updatedAt == row.updatedAt
  {
    var filled := AssignNullable(row, attrs);
    var written :- AssignRequired(filled, attrs);
    FlagsKeepNullable(filled, written, attrs);
    Success(written)
  }

  /** The NOT NULL columns of the fill. */
  function AssignRequired(row: Property, attrs: Payload): (r: Result<Property, Fault>)
    ensures r.Success? <==> RequiredColumnsAccept(attrs)
    ensures r.Failure? ==> r.error.NullInNotNullColumn?
    ensures r.Success? ==> RequiredColumnsCarry(r.value, attrs)
    ensures r.Success? ==> r.value.(status := row.status, hasBasement := row.hasBasement,
                                    hasPool := row.hasPool, hasGarden := row.hasGarden) == row
  {
    var status :- AssignRequiredText(attrs, "status", row.status);
    var hasBasement :- AssignRequiredFlag(attrs, "has_basement", row.hasBasement);
    var hasPool :- AssignRequiredFlag(attrs, "has_pool", row.hasPool);
    var hasGarden :- AssignRequiredFlag(attrs, "has_garden", row.hasGarden);
    Success(row.(status := status, hasBasement := hasBasement, hasPool := hasPool, hasGarden := hasGarden))
  }

  /** Setting the NOT NULL columns leaves the nullable ones as they were. */
  lemma FlagsKeepNullable(p: Property, q: Property, attrs: Payload)
    requires NullableColumnsCarry(p, attrs)
    requires q.(status := p.status, hasBasement := p.hasBasement, hasPool := p.hasPool, hasGarden := p.hasGarden) == p
    ensures NullableColumnsCarry(q, attrs)
  {
    assert TextColumnsCarry(q, attrs);
    assert NumberColumnsCarry(q, attrs);
    assert ArrayColumnsCarry(q, attrs);
  }

  /** The nullable columns of `fill($attributes)`. Money has two decimals, coordinates
      eight, and the integer columns none. */
  function AssignNullable(row: Property, attrs: Payload): (r: Property)
    ensures r.id == row.id && r.createdAt == row.createdAt && r.updatedAt == row.updatedAt
    ensures r.status == row.status && r.hasBasement == row.hasBasement
    ensures r.hasPool == row.hasPool && r.hasGarden == row.hasGarden
    ensures NullableColumnsCarry(r, attrs)
    ensures "price_per_sqft" in attrs ==> r.pricePerSqft == ScaledOf(attrs["price_per_sqft"], 2)
  {
    var texts := AssignTexts(row, attrs);
    var numbers := AssignNumbers(texts, attrs);
    AssignArrays(numbers, attrs)
  }

  /** The text columns of the fill. */
  function AssignTexts(row: Property, attrs: Payload): (r: Property)
    ensures TextColumnsCarry(r, attrs)
    ensures r.(title := row.title, description := row.description, address := row.address,
               city := row.city, state := row.state, zipCode := row.zipCode,
               propertyType := row.propertyType) == row
  {
    row.(
      title := AssignText(attrs, "title", row.title),
      description := AssignText(attrs, "description", row.description),
      address := AssignText(attrs, "address", row.address),
      city := AssignText(attrs, "city", row.city),
      state := AssignText(attrs, "state", row.state),
      zipCode := AssignText(attrs, "zip_code", row.zipCode),
      propertyType := AssignText(attrs, "property_type", row.propertyType))
  }

  /** The numeric columns of the fill. */
  function AssignNumbers(row: Property, attrs: Payload): (r: Property)
    ensures NumberColumnsCarry(r, attrs)
    ensures "price_per_sqft" in attrs ==> r.pricePerSqft == ScaledOf(attrs["price_per_sqft"], 2)
    ensures r.(latitude := row.latitude, longitude := row.longitude, squareFeet := row.squareFeet,
               bedrooms := row.bedrooms, bathrooms := row.bathrooms, floors := row.floors,
               price := row.price, pricePerSqft := row.pricePerSqft, monthlyRent := row.monthlyRent,
               propertyTaxes := row.propertyTaxes, yearBuilt := row.yearBuilt, lotSize := row.lotSize,
               garageSpaces := row.garageSpaces, userId := row.userId) == row
  {
    row.(
      latitude := AssignNumber(attrs, "latitude", row.latitude, 8),
      longitude := AssignNumber(attrs, "longitude", row.longitude, 8),
      squareFeet := AssignNumber(attrs, "square_feet", row.squareFeet, 0),
      bedrooms := AssignNumber(attrs, "bedrooms", row.bedrooms, 0),
      bathrooms := AssignNumber(attrs, "bathrooms", row.bathrooms, 0),
      floors := AssignNumber(attrs, "floors", row.floors, 0),
      price := AssignNumber(attrs, "price", row.price, 2),
      pricePerSqft := AssignNumber(attrs, "price_per_sqft", row.pricePerSqft, 2),
      monthlyRent := AssignNumber(attrs, "monthly_rent", row.monthlyRent, 2),
      propertyTaxes := AssignNumber(attrs, "property_taxes", row.propertyTaxes, 2),
      yearBuilt := AssignNumber(attrs, "year_built", row.yearBuilt, 0),
      lotSize := AssignNumber(attrs, "lot_size", row.lotSize, 2),
      garageSpaces := AssignNumber(attrs, "garage_spaces", row.garageSpaces, 0),
      userId := if "user_id" in attrs then OwnerIdOf(attrs["user_id"]) else row.userId)
  }

  /** The array-cast columns of the fill. */
  function AssignArrays(row: Property, attrs: Payload): (r: Property)
    ensures ArrayColumnsCarry(r, attrs)
    ensures r.(features := row.features, metadata := row.metadata) == row
  {
    row.(
      features := if "features" in attrs then FeaturesOf(attrs["features"]) else row.features,
      metadata := if "metadata" in attrs then MetadataOf(attrs["metadata"]) else row.metadata)
  }

  /** A new row before assignment: the migration's defaults (`status` 'available', the
      three flags false, every other column null). */
  function NewRow(id: int, now: int): Property {
    Property(id, None, None, None, None, None, None, None, None, None, None, None, None, None,
             None, None, None, None, "available", None, None, None, false, false, false, None,
             None, None, Some(now), Some(now))
  }

  // ---------------------------------------------------------------------------
  // store
  // ---------------------------------------------------------------------------

  /** A body `store` accepts: the merge can divide, validation reports nothing, and no NOT
      NULL column gets null. */
  predicate StoreAccepts(payload: Payload, ctx: Context) {
    Prepare(payload).Success? && StoreErrors(payload, ctx) == {} && RequiredColumnsAccept(payload)
  }

  /** A body `update` accepts, under its own rules. */
  predicate UpdateAccepts(payload: Payload, ctx: Context) {
    Prepare(payload).Success? && UpdateErrors(payload, ctx) == {} && RequiredColumnsAccept(payload)
  }

  /** `POST /api/properties`: prepare and validate the body, create the row from the
      validated attributes, then recompute the price per square foot when the price and
      the area are truthy. `now` is the request's clock. */
  function Store(db: Db, payload: Payload, ctx: Context, now: int): (r: Outcome)
    ensures r.response.Failure? ==> r.db == db
    ensures Prepare(payload).Failure? ==> r.response == Failure(NonNumericOperand)
    ensures Prepare(payload).Success? && StoreErrors(payload, ctx) != {} ==>
      r.response == Failure(ValidationFailed(StoreErrors(payload, ctx)))
    ensures r.response.Success? <==> StoreAccepts(payload, ctx)
    ensures r.response.Success? ==>
      && r.db == Db(db.rows + [r.response.value], db.nextId + 1)
      && r.response.value.id == db.nextId
      && Carries(r.response.value, payload)
      && AgreeExcept(NewRow(db.nextId, now), r.response.value, payload.Keys + {"price_per_sqft"})
      && r.response.value.pricePerSqft == CreatedPricePerSqft(r.response.value)
  {
    match Prepare(payload)
    case Failure(e) => Outcome(db, Failure(e))
    case Success(prepared) =>
      PrepareKeepsErrors(payload, ctx);
      var errors := StoreErrors(prepared, ctx);
      if errors != {} then Outcome(db, Failure(ValidationFailed(errors)))
      else
        var rules := StoreRules(ctx.currentYear);
        MergedPricePerSqftIsDropped(payload, ctx.currentYear);
        StoreRulesKeys(ctx.currentYear);
        ValidatedColumns(rules, payload);
        Create(db, Validated(rules, prepared), now)
  }

  /** The price per square foot of a row `store` creates: the rounded quotient when the
      recompute applies, else null, since the body cannot set it. */
  function CreatedPricePerSqft(row: Property): Option<int> {
    if RecomputeApplies(row) then Some(RoundHalfUpDiv(row.price.value, row.squareFeet.value)) else None
  }

  /** `Property::create($attributes)` followed by the recompute guard of `store`. */
  function Create(db: Db, attrs: Payload, now: int): (r: Outcome)
    ensures r.response.Failure? ==> r.db == db
    ensures r.response.Success? <==> RequiredColumnsAccept(attrs)
    ensures r.response.Success? ==>
      && r.db == Db(db.rows + [r.response.value], db.nextId + 1)
      && r.response.value.id == db.nextId
      && PricePerSqftConsistent(r.response.value)
      && Carries(r.response.value, attrs)
      && AgreeExcept(NewRow(db.nextId, now), r.response.value, attrs.Keys + {"price_per_sqft"})
      && ("price_per_sqft" !in attrs ==> r.response.value.pricePerSqft == CreatedPricePerSqft(r.response.value))
  {
    match Fill(NewRow(db.nextId, now), attrs)
    case Failure(e) => Outcome(db, Failure(e))
    case Success(created) =>
      var row := RecomputeCreated(created, now);
      FillAgrees(NewRow(db.nextId, now), attrs);
      CreatedAgrees(NewRow(db.nextId, now), created, row, attrs);
      Outcome(Db(db.rows + [row], db.nextId + 1), Success(row))
  }

  /** The recompute guard of `store` on a freshly created row, stamped `now`. */
  function RecomputeCreated(created: Property, now: int): (r: Property)
    requires created.updatedAt == Some(now)
    ensures PricePerSqftConsistent(r)
    ensures r.(pricePerSqft := created.pricePerSqft) == created
    ensures r.pricePerSqft == if RecomputeApplies(created) then CreatedPricePerSqft(created) else created.pricePerSqft
  {
    if PriceIsTruthy(created.price) && SquareFeetIsTruthy(created.squareFeet)
    then CalculatePricePerSqft(created, now) else created
  }

  /** The created row differs from the defaults in the filled keys and the derived column,
      and carries the body's values. */
  lemma CreatedAgrees(initial: Property, created: Property, row: Property, attrs: Payload)
    requires AgreeExcept(initial, created, attrs.Keys) && Carries(created, attrs)
    requires row.(pricePerSqft := created.pricePerSqft) == created
    ensures AgreeExcept(initial, row, attrs.Keys + {"price_per_sqft"})
    ensures Carries(row, attrs)
  {
    assert AgreeExcept(created, row, {"price_per_sqft", "updated_at"});
    CarriesAgree(created, row, attrs);
  }

  /** The validated body and the body carry the same column values, since every column
      has rules. */
  lemma ValidatedColumns(rules: map<string, seq<Rule>>, payload: Payload)
    requires rules.Keys == FieldKinds.Keys
    ensures RequiredColumnsAccept(Validated(rules, payload)) <==> RequiredColumnsAccept(payload)
    ensures forall row :: Carries(row, Validated(rules, payload)) <==> Carries(row, payload)
  {
    ColumnsHaveKinds();
    var attrs := Validated(rules, payload);
    assert forall key :: key in rules ==> (key in attrs <==> key in payload) && (key in attrs ==> attrs[key] == payload[key]);
    forall row
      ensures Carries(row, attrs) <==> Carries(row, payload)
    {
      ValidatedTexts(row, rules, payload);
      ValidatedNumbers(row, rules, payload);
      ValidatedArrays(row, rules, payload);
      ValidatedRequired(row, rules, payload);
    }
  }

  /** Every column key has a declared kind, so rules. */
  lemma ColumnsHaveKinds()
    ensures && "title" in FieldKinds && "description" in FieldKinds && "address" in FieldKinds
            && "city" in FieldKinds && "state" in FieldKinds && "zip_code" in FieldKinds
            && "latitude" in FieldKinds && "longitude" in FieldKinds && "square_feet" in FieldKinds
            && "bedrooms" in FieldKinds && "bathrooms" in FieldKinds && "floors" in FieldKinds
            && "price" in FieldKinds && "monthly_rent" in FieldKinds && "property_taxes" in FieldKinds
            && "property_type" in FieldKinds && "status" in FieldKinds && "year_built" in FieldKinds
            && "lot_size" in FieldKinds && "garage_spaces" in FieldKinds && "has_basement" in FieldKinds
            && "has_pool" in FieldKinds && "has_garden" in FieldKinds && "features" in FieldKinds
            && "metadata" in FieldKinds && "user_id" in FieldKinds
  {
  }

  lemma ValidatedTexts(row: Property, rules: map<string, seq<Rule>>, payload: Payload)
    requires && "title" in rules && "description" in rules && "address" in rules && "city" in rules
             && "state" in rules && "zip_code" in rules && "property_type" in rules
    ensures TextColumnsCarry(row, Validated(rules, payload)) <==> TextColumnsCarry(row, payload)
  {
  }

  lemma ValidatedNumbers(row: Property, rules: map<string, seq<Rule>>, payload: Payload)
    requires && "latitude" in rules && "longitude" in rules && "square_feet" in rules
             && "bedrooms" in rules && "bathrooms" in rules && "floors" in rules && "price" in rules
             && "monthly_rent" in rules && "property_taxes" in rules && "year_built" in rules
             && "lot_size" in rules && "garage_spaces" in rules && "user_id" in rules
    ensures NumberColumnsCarry(row, Validated(rules, payload)) <==> NumberColumnsCarry(row, payload)
  {
  }

  lemma ValidatedArrays(row: Property, rules: map<string, seq<Rule>>, payload: Payload)
    requires "features" in rules && "metadata" in rules
    ensures ArrayColumnsCarry(row, Validated(rules, payload)) <==> ArrayColumnsCarry(row, payload)
  {
  }

  lemma ValidatedRequired(row: Property, rules: map<string, seq<Rule>>, payload: Payload)
    requires "status" in rules && "has_basement" in rules && "has_pool" in rules && "has_garden" in rules
    ensures RequiredColumnsCarry(row, Validated(rules, payload)) <==> RequiredColumnsCarry(row, payload)
    ensures RequiredColumnsAccept(Validated(rules, payload)) <==> RequiredColumnsAccept(payload)
  {
  }

  /** Carrying the body's values survives a change of the derived column and the stamp. */
  lemma CarriesAgree(p: Property, q: Property, attrs: Payload)
    requires Carries(p, attrs) && AgreeExcept(p, q, {"price_per_sqft", "updated_at"})
    ensures Carries(q, attrs)
  {
  }

  /** After a successful `store` the new row is found under the counter's id, holding the
      body's values over the migration's defaults and the derived price per square foot. */
  lemma StoreWritesBody(db: Db, payload: Payload, ctx: Context, now: int)
    requires Valid(db) && StoreAccepts(payload, ctx)
    ensures Valid(Store(db, payload, ctx, now).db)
    ensures Show(Store(db, payload, ctx, now).db, db.nextId).Success?
    ensures var row := Show(Store(db, payload, ctx, now).db, db.nextId).value;
      && Carries(row, payload)
      && AgreeExcept(NewRow(db.nextId, now), row, payload.Keys + {"price_per_sqft"})
      && row.pricePerSqft == CreatedPricePerSqft(row)
  {
    StoreThenShow(db, payload, ctx, now);
  }

  /** `{"user_id": "7"}` for an existing user 7 is stored with owner 7. */
  lemma NumericStringOwnerStored(db: Db, ctx: Context, now: int, n: nat)
    requires Valid(db) && n in ctx.userIds
    ensures var r := Store(db, map["user_id" := Str(NatToString(n))], ctx, now);
      r.response.Success? && r.response.value.userId == Some(n)
  {
    var payload := map["user_id" := Str(NatToString(n))];
    assert StoreAccepts(payload, ctx) by {
      assert !MergeApplies(payload);
      ErrorsOnlyForPresentKeys(payload, ctx);
      NumericStringOwnerAccepted(payload, ctx, n);
    }
    var row := Store(db, payload, ctx, now).response.value;
    assert NumberColumnsCarry(row, payload);
    NatStringLookup(n);
    StoredOwnerIsLookedUp(payload["user_id"]);
  }

  // ---------------------------------------------------------------------------
  // show and destroy
  // ---------------------------------------------------------------------------

  /** The position of the row with id `id`, if there is one. */
  function IndexOf(rows: seq<Property>, id: int): (r: Option<nat>)
    ensures r.Some? ==> r.value < |rows| && rows[r.value].id == id
    ensures r.None? ==> forall i :: 0 <= i < |rows| ==> rows[i].id != id
  {
    if rows == [] then None
    else if rows[0].id == id then Some(0)
    else match IndexOf(rows[1..], id)
      case None => None
      case Some(i) => Some(i + 1)
  }

  /** `GET /api/properties/{id}`: route-model binding, or 404. */
  function Show(db: Db, id: int): (r: Result<Property, Fault>)
    ensures r.Failure? <==> (forall i :: 0 <= i < |db.rows| ==> db.rows[i].id != id)
    ensures r.Failure? ==> r.error == NotFound(id)
    ensures r.Success? ==> r.value in db.rows && r.value.id == id
  {
    match IndexOf(db.rows, id)
    case None => Failure(NotFound(id))
    case Some(i) => Success(db.rows[i])
  }

  /** `DELETE /api/properties/{id}`: removes the bound row, or 404 with nothing changed. */
  function Destroy(db: Db, id: int): (r: Outcome)
    ensures r.response.Failure? ==> r.db == db && r.response.error == NotFound(id)
    ensures r.response.Success? ==>
      && |r.db.rows| == |db.rows| - 1
      && multiset(r.db.rows) + multiset{r.response.value} == multiset(db.rows)
      && r.response.value.id == id
      && r.db.nextId == db.nextId
  {
    match IndexOf(db.rows, id)
    case None => Outcome(db, Failure(NotFound(id)))
    case Some(i) =>
      assert db.rows == db.rows[..i] + [db.rows[i]] + db.rows[i + 1..];
      Outcome(Db(db.rows[..i] + db.rows[i + 1..], db.nextId), Success(db.rows[i]))
  }

  /** After a delete the id is no longer found, and the table stays valid. */
  lemma {:induction false} DestroyRemovesId(db: Db, id: int)
    requires Valid(db)
    requires Destroy(db, id).response.Success?
    ensures Valid(Destroy(db, id).db)
    ensures Show(Destroy(db, id).db, id) == Failure(NotFound(id))
  {
    var i := IndexOf(db.rows, id).value;
    var rest := db.rows[..i] + db.rows[i + 1..];
    assert Destroy(db, id).db.rows == rest;
    forall k | 0 <= k < |rest|
      ensures rest[k].id != id
      ensures rest[k] == db.rows[if k < i then k else k + 1]
    {
      if k < i {
        assert rest[k] == db.rows[k];
      } else {
        assert rest[k] == db.rows[k + 1];
      }
    }
    forall a, b | 0 <= a < b < |rest|
      ensures rest[a].id != rest[b].id
    {
      var a', b' := if a < i then a else a + 1, if b < i then b else b + 1;
      assert rest[a] == db.rows[a'] && rest[b] == db.rows[b'];
    }
  }

  /** A created row can be shown, and the table stays valid. */
  lemma StoreThenShow(db: Db, payload: Payload, ctx: Context, now: int)
    requires Valid(db) && StoreAccepts(payload, ctx)
    ensures Valid(Store(db, payload, ctx, now).db)
    ensures Show(Store(db, payload, ctx, now).db, db.nextId) == Store(db, payload, ctx, now).response
  {
    var row := Store(db, payload, ctx, now).response.value;
    AppendFresh(db, row);
  }

  /** Appending a row with the counter's id keeps the table valid and makes the row the
      one found under that id. */
  lemma AppendFresh(db: Db, row: Property)
    requires Valid(db) && row.id == db.nextId
    ensures Valid(Db(db.rows + [row], db.nextId + 1))
    ensures IndexOf(db.rows + [row], row.id) == Some(|db.rows|)
  {
    var rows := db.rows + [row];
    assert forall i :: 0 <= i < |db.rows| ==> rows[i] == db.rows[i];
    IndexOfAppended(db.rows, row);
  }

  lemma {:induction false} IndexOfAppended(rows: seq<Property>, row: Property)
    requires forall i :: 0 <= i < |rows| ==> rows[i].id != row.id
    ensures IndexOf(rows + [row], row.id) == Some(|rows|)
  {
    if rows != [] {
      assert (rows + [row])[1..] == rows[1..] + [row];
      IndexOfAppended(rows[1..], row);
    }
  }

  // ---------------------------------------------------------------------------
  // update
  // ---------------------------------------------------------------------------

  /** `save()` changes nothing but `updated_at`. */
  lemma SaveAgrees(before: Property, after: Property, now: int)
    ensures AgreeExcept(after, Save(before, after, now), {"updated_at"})
  {
  }

  /** The recompute guard of `update`: both keys in the request, and the updated price and
      area truthy. */
  predicate RecomputeAsWritten(payload: Payload, row: Property) {
    "price" in payload && "square_feet" in payload
    && PriceIsTruthy(row.price) && SquareFeetIsTruthy(row.squareFeet)
  }

  /** The guard the comment above it describes: either key in the request. */
  predicate RecomputeAsIntended(payload: Payload, row: Property) {
    ("price" in payload || "square_feet" in payload)
    && PriceIsTruthy(row.price) && SquareFeetIsTruthy(row.squareFeet)
  }

  /** `PUT|PATCH /api/properties/{id}`: bind the row (404), prepare and validate the body
      (422), fill and save the validated attributes, then recompute the price per square
      foot under `recompute`. */
  function UpdateWith(db: Db, id: int, payload: Payload, ctx: Context, now: int,
                      recompute: (Payload, Property) -> bool): (r: Outcome)
    ensures r.response.Failure? ==> r.db == db
    ensures r.response == Failure(NotFound(id)) <==> (forall i :: 0 <= i < |db.rows| ==> db.rows[i].id != id)
    ensures IndexOf(db.rows, id).Some? && Prepare(payload).Failure? ==> r.response == Failure(NonNumericOperand)
    ensures IndexOf(db.rows, id).Some? && Prepare(payload).Success? && UpdateErrors(payload, ctx) != {} ==>
      r.response == Failure(ValidationFailed(UpdateErrors(payload, ctx)))
    ensures r.response.Success? <==>
      IndexOf(db.rows, id).Some? && UpdateAccepts(payload, ctx)
    ensures r.response.Success? ==>
      && r.db == Db(db.rows[IndexOf(db.rows, id).value := r.response.value], db.nextId)
      && r.response.value.id == id
      && Carries(r.response.value, payload)
      && AgreeExcept(db.rows[IndexOf(db.rows, id).value], r.response.value, payload.Keys + {"price_per_sqft", "updated_at"})
      && (r.response.value != db.rows[IndexOf(db.rows, id).value] ==> r.response.value.updatedAt == Some(now))
  {
    match IndexOf(db.rows, id)
    case None => Outcome(db, Failure(NotFound(id)))
    case Some(i) => UpdateRow(db, i, payload, ctx, now, recompute)
  }

  /** `update` once the row is bound: preparation and validation, then the fill and the
      recompute. */
  function UpdateRow(db: Db, i: nat, payload: Payload, ctx: Context, now: int,
                     recompute: (Payload, Property) -> bool): (r: Outcome)
    requires i < |db.rows|
    ensures r.response.Failure? ==> r.db == db && !r.response.error.NotFound?
    ensures Prepare(payload).Failure? ==> r.response == Failure(NonNumericOperand)
    ensures Prepare(payload).Success? && UpdateErrors(payload, ctx) != {} ==>
      r.response == Failure(ValidationFailed(UpdateErrors(payload, ctx)))
    ensures r.response.Success? <==> UpdateAccepts(payload, ctx)
    ensures r.response.Success? ==>
      && r.db == Db(db.rows[i := r.response.value], db.nextId)
      && r.response.value.id == db.rows[i].id
      && Carries(r.response.value, payload)
      && AgreeExcept(db.rows[i], r.response.value, payload.Keys + {"price_per_sqft", "updated_at"})
      && (r.response.value != db.rows[i] ==> r.response.value.updatedAt == Some(now))
  {
    match Prepare(payload)
    case Failure(e) => Outcome(db, Failure(e))
    case Success(prepared) =>
      PrepareKeepsErrors(payload, ctx);
      var errors := UpdateErrors(prepared, ctx);
      if errors != {} then Outcome(db, Failure(ValidationFailed(errors)))
      else
        var rules := UpdateRules(ctx.currentYear);
        MergedPricePerSqftIsDropped(payload, ctx.currentYear);
        StoreRulesKeys(ctx.currentYear);
        UpdateRulesKeys(ctx.currentYear);
        ValidatedColumns(rules, payload);
        var attrs := Validated(rules, prepared);
        var r := Modify(db, i, attrs, payload, now, recompute);
        if r.response.Success? then
          AgreeExceptMore(db.rows[i], r.response.value, attrs.Keys + {"price_per_sqft", "updated_at"},
                          payload.Keys + {"price_per_sqft", "updated_at"});
          r
        else r
  }

  /** `$property->update($attributes)` on row `i`, then the recompute under `recompute`;
      each `save()` writes only a changed row. */
  function Modify(db: Db, i: nat, attrs: Payload, payload: Payload, now: int,
                  recompute: (Payload, Property) -> bool): (r: Outcome)
    requires i < |db.rows|
    ensures r.response.Success? <==> RequiredColumnsAccept(attrs)
    ensures r.response.Failure? ==> r.db == db && r.response.error.NullInNotNullColumn?
    ensures r.response.Success? ==>
      && r.db == Db(db.rows[i := r.response.value], db.nextId)
      && r.response.value.id == db.rows[i].id
      && Carries(r.response.value, attrs)
      && AgreeExcept(db.rows[i], r.response.value, attrs.Keys + {"price_per_sqft", "updated_at"})
      && (r.response.value != db.rows[i] ==> r.response.value.updatedAt == Some(now))
  {
    match Fill(db.rows[i], attrs)
    case Failure(e) => Outcome(db, Failure(e))
    case Success(filled) =>
      FillAgrees(db.rows[i], attrs);
      var saved := Save(db.rows[i], filled, now);
      var row := Recompute(saved, payload, now, recompute);
      SaveAgrees(db.rows[i], filled, now);
      AgreeExceptChain(db.rows[i], filled, saved, row, attrs.Keys);
      AgreeExceptChain(filled, filled, saved, row, {});
      CarriesAgree(filled, row, attrs);
      Outcome(Db(db.rows[i := row], db.nextId), Success(row))
  }

  /** The recompute step after the fill: `calculatePricePerSqft()` when `recompute` holds. */
  function Recompute(saved: Property, payload: Payload, now: int, recompute: (Payload, Property) -> bool): (r: Property)
    ensures r.(pricePerSqft := saved.pricePerSqft, updatedAt := saved.updatedAt) == saved
    ensures !recompute(payload, saved) ==> r == saved
    ensures recompute(payload, saved) ==> PricePerSqftConsistent(r)
    ensures r != saved ==> r.updatedAt == Some(now)
    ensures AgreeExcept(saved, r, {"price_per_sqft", "updated_at"})
  {
    if recompute(payload, saved) then CalculatePricePerSqft(saved, now) else saved
  }

  /** After a successful update the row is found under its id, and the table stays valid. */
  lemma UpdateWritesBody(db: Db, id: int, payload: Payload, ctx: Context, now: int,
                         recompute: (Payload, Property) -> bool)
    requires Valid(db) && IndexOf(db.rows, id).Some? && UpdateAccepts(payload, ctx)
    ensures Valid(UpdateWith(db, id, payload, ctx, now, recompute).db)
    ensures Show(UpdateWith(db, id, payload, ctx, now, recompute).db, id)
      == UpdateWith(db, id, payload, ctx, now, recompute).response
  {
    var i := IndexOf(db.rows, id).value;
    ReplaceKeepsId(db, i, UpdateWith(db, id, payload, ctx, now, recompute).response.value);
  }

  /** Replacing a row by one with the same id keeps the table valid and the row found at
      the same place. */
  lemma ReplaceKeepsId(db: Db, i: nat, row: Property)
    requires Valid(db) && i < |db.rows| && row.id == db.rows[i].id
    ensures Valid(Db(db.rows[i := row], db.nextId))
    ensures IndexOf(db.rows[i := row], row.id) == Some(i)
  {
    var rows := db.rows[i := row];
    assert forall k :: 0 <= k < |rows| ==> rows[k].id == db.rows[k].id;
    assert rows[i].id == row.id;
  }

  /** `update` as the controller writes it. */
  function Update(db: Db, id: int, payload: Payload, ctx: Context, now: int): Outcome {
    UpdateWith(db, id, payload, ctx, now, RecomputeAsWritten)
  }

  /** `update` with the recompute guard its comment describes. */
  function UpdateAsIntended(db: Db, id: int, payload: Payload, ctx: Context, now: int): Outcome {
    UpdateWith(db, id, payload, ctx, now, RecomputeAsIntended)
  }

  /** The columns of `p` and `q` agree except those named in `keys`. */
  predicate AgreeExcept(p: Property, q: Property, keys: set<string>) {
    && p.id == q.id && p.createdAt == q.createdAt
    && ("title" !in keys ==> p.title == q.title)
    && ("description" !in keys ==> p.description == q.description)
    && ("address" !in keys ==> p.address == q.address)
    && ("city" !in keys ==> p.city == q.city)
    && ("state" !in keys ==> p.state == q.state)
    && ("zip_code" !in keys ==> p.zipCode == q.zipCode)
    && ("latitude" !in keys ==> p.latitude == q.latitude)
    && ("longitude" !in keys ==> p.longitude == q.longitude)
    && ("square_feet" !in keys ==> p.squareFeet == q.squareFeet)
    && ("bedrooms" !in keys ==> p.bedrooms == q.bedrooms)
    && ("bathrooms" !in keys ==> p.bathrooms == q.bathrooms)
    && ("floors" !in keys ==> p.floors == q.floors)
    && ("price" !in keys ==> p.price == q.price)
    && ("price_per_sqft" !in keys ==> p.pricePerSqft == q.pricePerSqft)
    && ("monthly_rent" !in keys ==> p.monthlyRent == q.monthlyRent)
    && ("property_taxes" !in keys ==> p.propertyTaxes == q.propertyTaxes)
    && ("property_type" !in keys ==> p.propertyType == q.propertyType)
    && ("status" !in keys ==> p.status == q.status)
    && ("year_built" !in keys ==> p.yearBuilt == q.yearBuilt)
    && ("lot_size" !in keys ==> p.lotSize == q.lotSize)
    && ("garage_spaces" !in keys ==> p.garageSpaces == q.garageSpaces)
    && ("has_basement" !in keys ==> p.hasBasement == q.hasBasement)
    && ("has_pool" !in keys ==> p.hasPool == q.hasPool)
    && ("has_garden" !in keys ==> p.hasGarden == q.hasGarden)
    && ("features" !in keys ==> p.features == q.features)
    && ("metadata" !in keys ==> p.metadata == q.metadata)
    && ("user_id" !in keys ==> p.userId == q.userId)
    && ("updated_at" !in keys ==> p.updatedAt == q.updatedAt)
  }

  /** Filling changes only the columns of the keys it is given. */
  lemma FillAgrees(row: Property, attrs: Payload)
    requires Fill(row, attrs).Success?
    ensures AgreeExcept(row, Fill(row, attrs).value, attrs.Keys)
  {
    var filled := AssignNullable(row, attrs);
    AssignNullableAgrees(row, attrs);
    AssignRequiredAgrees(filled, attrs);
    AgreeExceptTrans(row, filled, AssignRequired(filled, attrs).value, attrs.Keys);
  }

  /** Setting the NOT NULL columns changes only the keys it is given. */
  lemma AssignRequiredAgrees(row: Property, attrs: Payload)
    requires AssignRequired(row, attrs).Success?
    ensures AgreeExcept(row, AssignRequired(row, attrs).value, attrs.Keys)
  {
    var q := AssignRequired(row, attrs).value;
    assert "status" !in attrs ==> q.status == row.status;
    assert "has_basement" !in attrs ==> q.hasBasement == row.hasBasement;
    assert "has_pool" !in attrs ==> q.hasPool == row.hasPool;
    assert "has_garden" !in attrs ==> q.hasGarden == row.hasGarden;
  }

  lemma AgreeExceptTrans(p: Property, q: Property, r: Property, keys: set<string>)
    requires AgreeExcept(p, q, keys) && AgreeExcept(q, r, keys)
    ensures AgreeExcept(p, r, keys)
  {
  }

  lemma AssignNullableAgrees(row: Property, attrs: Payload)
    ensures AgreeExcept(row, AssignNullable(row, attrs), attrs.Keys)
  {
  }

  /** Fill, save and recompute together change the filled keys, the price per square foot
      and `updated_at`. */
  lemma AgreeExceptChain(p: Property, filled: Property, saved: Property, row: Property, keys: set<string>)
    requires AgreeExcept(p, filled, keys)
    requires AgreeExcept(filled, saved, {"updated_at"})
    requires AgreeExcept(saved, row, {"price_per_sqft", "updated_at"})
    ensures AgreeExcept(p, row, keys + {"price_per_sqft", "updated_at"})
  {
  }

  lemma AgreeExceptMore(p: Property, q: Property, keys: set<string>, more: set<string>)
    requires AgreeExcept(p, q, keys) && keys <= more
    ensures AgreeExcept(p, q, more)
  {
  }

  /** Unless both `price` and `square_feet` are in the body, `update` leaves the price per
      square foot as it was, whatever else changes. */
  lemma UpdateKeepsPricePerSqft(db: Db, id: int, payload: Payload, ctx: Context, now: int)
    requires "price" !in payload || "square_feet" !in payload
    requires IndexOf(db.rows, id).Some? && UpdateAccepts(payload, ctx)
    ensures Update(db, id, payload, ctx, now).response.value.pricePerSqft == db.rows[IndexOf(db.rows, id).value].pricePerSqft
  {
    var i := IndexOf(db.rows, id).value;
    var attrs := Validated(UpdateRules(ctx.currentYear), Prepare(payload).value);
    MergedPricePerSqftIsDropped(payload, ctx.currentYear);
    var filled := Fill(db.rows[i], attrs).value;
    FillAgrees(db.rows[i], attrs);
    assert filled.pricePerSqft == db.rows[i].pricePerSqft;
  }

  /** An empty body changes nothing, not even `updated_at`. */
  lemma EmptyUpdateChangesNothing(db: Db, id: int, ctx: Context, now: int)
    requires IndexOf(db.rows, id).Some?
    ensures Update(db, id, map[], ctx, now) == Outcome(db, Success(db.rows[IndexOf(db.rows, id).value]))
  {
    var i := IndexOf(db.rows, id).value;
    NullBodyPasses(map[], ctx);
    StoreAndUpdateAgree(map[], ctx);
    assert Prepare(map[]) == Success(map[]);
    assert Validated(UpdateRules(ctx.currentYear), map[]) == map[];
    assert Fill(db.rows[i], map[]) == Success(db.rows[i]);
    assert db.rows[i := db.rows[i]] == db.rows;
  }

  /** With the intended guard, an update keeps the derived-field invariant of the row. */
  lemma UpdateAsIntendedKeepsConsistency(db: Db, id: int, payload: Payload, ctx: Context, now: int)
    requires IndexOf(db.rows, id).Some? && PricePerSqftConsistent(db.rows[IndexOf(db.rows, id).value])
    requires UpdateAccepts(payload, ctx)
    ensures PricePerSqftConsistent(UpdateAsIntended(db, id, payload, ctx, now).response.value)
  {
    var i := IndexOf(db.rows, id).value;
    var prepared := Prepare(payload).value;
    var attrs := Validated(UpdateRules(ctx.currentYear), prepared);
    MergedPricePerSqftIsDropped(payload, ctx.currentYear);
    assert UpdateAsIntended(db, id, payload, ctx, now).response
      == Modify(db, i, attrs, payload, now, RecomputeAsIntended).response;
    assert ("price" in attrs || "square_feet" in attrs) ==> ("price" in payload || "square_feet" in payload);
    ModifyKeepsConsistency(db, i, attrs, payload, now, RecomputeAsIntended);
  }

  /** The fill and recompute of row `i` keep its price per square foot consistent, when
      the recompute runs whenever a filled price or area is truthy. */
  lemma ModifyKeepsConsistency(db: Db, i: nat, attrs: Payload, payload: Payload, now: int,
                               recompute: (Payload, Property) -> bool)
    requires i < |db.rows| && PricePerSqftConsistent(db.rows[i])
    requires "price_per_sqft" !in attrs
    requires Fill(db.rows[i], attrs).Success?
    requires var saved := Save(db.rows[i], Fill(db.rows[i], attrs).value, now);
      || recompute(payload, saved)
      || ("price" !in attrs && "square_feet" !in attrs)
      || !PriceIsTruthy(saved.price) || !SquareFeetIsTruthy(saved.squareFeet)
    ensures Modify(db, i, attrs, payload, now, recompute).response.Success?
    ensures PricePerSqftConsistent(Modify(db, i, attrs, payload, now, recompute).response.value)
  {
    FillAgrees(db.rows[i], attrs);
  }

  // ---------------------------------------------------------------------------
  // the recompute guard of update, as written
  // ---------------------------------------------------------------------------

  /** A consistent row: 1000.00 for 100 square feet at 10.00 each. */
  const PricedRow: Property := NewRow(1, 0).(price := Some(100000), squareFeet := Some(100), pricePerSqft := Some(1000))

  /** A body that changes only the price, to 2000. */
  const PriceOnlyBody: Payload := map["price" := Num(Whole(2000))]

  /** The price-only body passes the update rules. */
  lemma PriceOnlyBodyIsValid(ctx: Context)
    ensures UpdateErrors(PriceOnlyBody, ctx) == {}
    ensures Prepare(PriceOnlyBody) == Success(PriceOnlyBody)
  {
    StoreAndUpdateAgree(PriceOnlyBody, ctx);
    PriceOnlyBodyPassesStore(ctx);
  }

  lemma PriceOnlyBodyPassesStore(ctx: Context)
    ensures StoreErrors(PriceOnlyBody, ctx) == {}
  {
    assert StoreErrors(PriceOnlyBody, ctx) <= {"price"} by {
      ErrorsOnlyForPresentKeys(PriceOnlyBody, ctx);
    }
    assert "price" !in StoreErrors(PriceOnlyBody, ctx) by {
      StoreFieldErrors(PriceOnlyBody, ctx, "price");
      NewPriceAcceptable(ctx);
    }
  }

  /** 2000 is an acceptable price. */
  lemma NewPriceAcceptable(ctx: Context)
    ensures Acceptable(FieldKinds["price"], Num(Whole(2000)), ctx)
  {
    assert FieldKinds["price"] == Amount;
    assert RealValue(Whole(2000)) == 2000.0;
  }

  /** Filling the price-only body changes only the price, to 2000.00. */
  lemma FillPriceOnly(currentYear: int)
    ensures Validated(UpdateRules(currentYear), PriceOnlyBody) == PriceOnlyBody
    ensures Fill(PricedRow, PriceOnlyBody) == Success(PricedRow.(price := Some(200000)))
  {
    assert ToScale(Whole(2000), 2) == 200000;
    AssignNullableAgrees(PricedRow, PriceOnlyBody);
  }

  /** As written, `update` with only a new price saves the new price and keeps the old
      price per square foot, so a consistent row becomes inconsistent; the intended guard
      recomputes it. */
  lemma UpdateLeavesStalePricePerSqft(ctx: Context, now: int)
    ensures PricePerSqftConsistent(PricedRow)
    ensures Update(Db([PricedRow], 2), 1, PriceOnlyBody, ctx, now).response.Success?
    ensures var row := Update(Db([PricedRow], 2), 1, PriceOnlyBody, ctx, now).response.value;
      row.price == Some(200000) && row.pricePerSqft == Some(1000) && !PricePerSqftConsistent(row)
    ensures UpdateAsIntended(Db([PricedRow], 2), 1, PriceOnlyBody, ctx, now).response.Success?
    ensures UpdateAsIntended(Db([PricedRow], 2), 1, PriceOnlyBody, ctx, now).response.value.pricePerSqft == Some(2000)
  {
    var saved := PricedRow.(price := Some(200000), updatedAt := Some(now));
    PriceOnlyUpdateAsWritten(ctx, now);
    PriceOnlyUpdateAsIntended(ctx, now);
    assert !PricePerSqftConsistent(saved) by {
      assert RoundHalfUpDiv(200000, 100) == 2000;
    }
  }

  /** As written, the update saves the new price beside the old price per square foot. */
  lemma PriceOnlyUpdateAsWritten(ctx: Context, now: int)
    ensures Update(Db([PricedRow], 2), 1, PriceOnlyBody, ctx, now).response
      == Success(PricedRow.(price := Some(200000), updatedAt := Some(now)))
  {
    PriceOnlyBodyIsValid(ctx);
    FillPriceOnly(ctx.currentYear);
    var db := Db([PricedRow], 2);
    assert IndexOf(db.rows, 1) == Some(0);
    var saved := PricedRow.(price := Some(200000), updatedAt := Some(now));
    assert Update(db, 1, PriceOnlyBody, ctx, now).response
      == Modify(db, 0, PriceOnlyBody, PriceOnlyBody, now, RecomputeAsWritten).response;
  }

  /** With the intended guard, the same update recomputes the price per square foot. */
  lemma PriceOnlyUpdateAsIntended(ctx: Context, now: int)
    ensures UpdateAsIntended(Db([PricedRow], 2), 1, PriceOnlyBody, ctx, now).response
      == Success(PricedRow.(price := Some(200000), pricePerSqft := Some(2000), updatedAt := Some(now)))
  {
    PriceOnlyBodyIsValid(ctx);
    FillPriceOnly(ctx.currentYear);
    var db := Db([PricedRow], 2);
    assert IndexOf(db.rows, 1) == Some(0);
    var saved := PricedRow.(price := Some(200000), updatedAt := Some(now));
    assert UpdateAsIntended(db, 1, PriceOnlyBody, ctx, now).response
      == Modify(db, 0, PriceOnlyBody, PriceOnlyBody, now, RecomputeAsIntended).response;
    assert RoundHalfUpDiv(200000, 100) == 2000;
    assert AssignPricePerSqft(saved) == saved.(pricePerSqft := Some(2000));
  }
}

=== FILE: factory.dfy ===
/** `PropertyFactory`: the rows the test suite and the seeder generate. Every random draw
    (`fake()`, `random_int`) is a parameter, constrained to the range it is drawn from, and
    the configured postal-code prefix is a parameter too. */
module Factory {
  import opened Wrappers
  import opened Numbers
  import opened Text
  import opened Json
  import opened PropertyModel
  import NumericStrings
  import Validation

  // ---------------------------------------------------------------------------
  // states and cities
  // ---------------------------------------------------------------------------

  /** The 32 federal entities `getMexicanState()` draws from. */
  const States: seq<string> := [
    "Aguascalientes", "Baja California", "Baja California Sur", "Campeche",
    "Chiapas", "Chihuahua", "Ciudad de México", "Coahuila", "Colima",
    "Durango", "Estado de México", "Guanajuato", "Guerrero", "Hidalgo",
    "Jalisco", "Michoacán", "Morelos", "Nayarit", "Nuevo León", "Oaxaca",
    "Puebla", "Querétaro", "Quintana Roo", "San Luis Potosí", "Sinaloa",
    "Sonora", "Tabasco", "Tamaulipas", "Tlaxcala", "Veracruz", "Yucatán", "Zacatecas"]

  /** The cities `getMexicanCity()` draws from: entry `i` is the list of `States[i]`, the
      table being keyed by the same 32 names in the same order. */
  const CityLists: seq<seq<string>> := [
    ["Aguascalientes", "Calvillo", "Rincón de Romos"],
    ["Tijuana", "Mexicali", "Ensenada", "Tecate", "Rosarito"],
    ["La Paz", "Los Cabos", "Loreto", "Comondú"],
    ["Campeche", "Ciudad del Carmen", "Champotón"],
    ["Tuxtla Gutiérrez", "San Cristóbal de las Casas", "Tapachula", "Comitán"],
    ["Chihuahua", "Ciudad Juárez", "Delicias", "Cuauhtémoc"],
    ["Álvaro Obregón", "Azcapotzalco", "Benito Juárez", "Coyoacán", "Cuauhtémoc", "Miguel Hidalgo", "Tlalpan", "Xochimilco"],
    ["Saltillo", "Torreón", "Monclova", "Piedras Negras"],
    ["Colima", "Manzanillo", "Tecomán", "Villa de Álvarez"],
    ["Durango", "Gómez Palacio", "Lerdo", "Santiago Papasquiaro"],
    ["Toluca", "Naucalpan", "Tlalnepantla", "Nezahualcóyotl", "Ecatepec", "Cuautitlán"],
    ["León", "Guanajuato", "Irapuato", "Celaya", "Salamanca", "Pénjamo"],
    ["Acapulco", "Chilpancingo", "Iguala", "Taxco", "Zihuatanejo"],
    ["Pachuca", "Tulancingo", "Tizayuca", "Huejutla"],
    ["Guadalajara", "Zapopan", "Tlaquepaque", "Tonalá", "Puerto Vallarta", "Tlajomulco"],
    ["Morelia", "Uruapan", "Zamora", "Lázaro Cárdenas", "Apatzingán"],
    ["Cuernavaca", "Jiutepec", "Temixco", "Cuautla"],
    ["Tepic", "Bahía de Banderas", "Xalisco", "Santiago Ixcuintla"],
    ["Monterrey", "Guadalupe", "San Nicolás de los Garza", "Apodaca", "Santa Catarina"],
    ["Oaxaca de Juárez", "Salina Cruz", "Tuxtepec", "Juchitán"],
    ["Puebla", "Tehuacán", "San Martín Texmelucan", "Atlixco"],
    ["Santiago de Querétaro", "San Juan del Río", "Corregidora", "El Marqués"],
    ["Cancún", "Chetumal", "Playa del Carmen", "Cozumel", "Tulum"],
    ["San Luis Potosí", "Soledad de Graciano Sánchez", "Ciudad Valles", "Matehuala"],
    ["Culiacán", "Mazatlán", "Los Mochis", "Guasave"],
    ["Hermosillo", "Ciudad Obregón", "Nogales", "Navojoa"],
    ["Villahermosa", "Cárdenas", "Comalcalco", "Huimanguillo"],
    ["Reynosa", "Matamoros", "Nuevo Laredo", "Tampico", "Ciudad Victoria"],
    ["Tlaxcala", "Apizaco", "Huamantla", "Zacatelco"],
    ["Veracruz", "Xalapa", "Coatzacoalcos", "Córdoba", "Orizaba", "Poza Rica"],
    ["Mérida", "Valladolid", "Progreso", "Tizimín"],
    ["Zacatecas", "Fresnillo", "Guadalupe", "Jerez"]]

  /** The position of a state name in the list, as the keyed lookups find it. */
  function StateIndex(state: string): (r: Option<nat>)
    ensures r.Some? ==> r.value < |States| && States[r.value] == state
    ensures r.None? <==> state !in States
  {
    FindIndex(States, state)
  }

  /** The first position of `name` in `names`. */
  function FindIndex(names: seq<string>, name: string): (r: Option<nat>)
    ensures r.Some? ==> r.value < |names| && names[r.value] == name
    ensures r.None? <==> name !in names
  {
    if names == [] then None
    else if names[0] == name then Some(0)
    else match FindIndex(names[1..], name)
      case None => None
      case Some(i) => Some(i + 1)
  }

  /** A name found at `i` and nowhere before it is found at `i`. */
  lemma {:induction false} FindIndexFirst(names: seq<string>, name: string, i: nat)
    requires i < |names| && names[i] == name && name !in names[..i]
    ensures FindIndex(names, name) == Some(i)
  {
    if i > 0 {
      assert names[0] != name by { assert names[0] == names[..i][0]; }
      assert names[1..][..i - 1] == names[..i][1..];
      FindIndexFirst(names[1..], name, i - 1);
    }
  }

  /** The city list for a state, with the single fallback city for an unknown state. */
  function CitiesOf(state: string): (r: seq<string>)
    ensures |r| >= 1
    ensures state !in States ==> r == ["Ciudad Ejemplo"]
  {
    match StateIndex(state)
    case Some(i) => if i < |CityLists| && |CityLists[i]| >= 1 then CityLists[i] else ["Ciudad Ejemplo"]
    case None => ["Ciudad Ejemplo"]
  }

  /** `getMexicanCity($state)` with the drawn index `pick`. */
  function City(state: string, pick: nat): (r: string)
    requires pick < |CitiesOf(state)|
    ensures r in CitiesOf(state)
    ensures state !in States ==> r == "Ciudad Ejemplo"
  {
    CitiesOf(state)[pick]
  }

  // ---------------------------------------------------------------------------
  // postal codes
  // ---------------------------------------------------------------------------

  /** How a state's two leading postal digits are drawn: a fixed code, a `random_int`
      range, or the capital's coin toss between `'0' . random_int(1, 9)` and
      `random_int(10, 16)`. */
  datatype CodeRule = Fixed(code: nat) | Between(lo: nat, hi: nat) | Capital

  /** The draws for one postal code: the capital's coin, the drawn state code and the three
      trailing digits. */
  datatype ZipDraw = ZipDraw(coin: bool, pick: nat, last: nat)

  /** The state-code table: entry `i` is the rule of `States[i]`. */
  const StateRules: seq<CodeRule> := [
    Fixed(20), Fixed(21), Fixed(23), Fixed(24), Fixed(29), Fixed(31), Capital, Fixed(25), Fixed(28), Fixed(34), Between(50, 57), Fixed(36), Fixed(39), Fixed(42), Between(44, 49), Between(58, 61), Fixed(62), Fixed(63), Between(64, 67), Between(68, 71), Between(72, 75), Fixed(76), Fixed(77), Fixed(78), Between(80, 82), Fixed(83), Fixed(86), Between(87, 89), Fixed(90), Between(91, 96), Fixed(97), Fixed(98)]

  /** The rule of a state; an unknown state gets code 99. */
  function StateRule(state: string): CodeRule {
    match StateIndex(state)
    case Some(i) => StateRules[i]
    case None => Fixed(99)
  }

  /** The draws fall in the ranges the rule draws from, and the trailing number in 0..999. */
  predicate ValidZipDraw(rule: CodeRule, d: ZipDraw) {
    && d.last <= 999
    && match rule
       case Fixed(_) => true
       case Between(lo, hi) => lo <= d.pick <= hi
       case Capital => if d.coin then 1 <= d.pick <= 9 else 10 <= d.pick <= 16
  }

  /** The state code a rule and its draws give. */
  function CodeValue(rule: CodeRule, d: ZipDraw): nat {
    match rule
    case Fixed(c) => c
    case Between(_, _) => d.pick
    case Capital => d.pick
  }

  /** The state code as the table value is written: `'0' . n` for the capital's low codes,
      the number itself otherwise. */
  function CodeText(rule: CodeRule, d: ZipDraw): string {
    match rule
    case Fixed(c) => NatToString(c)
    case Between(_, _) => NatToString(d.pick)
    case Capital => if d.coin then "0" + NatToString(d.pick) else NatToString(d.pick)
  }

  /** `str_pad($stateCode, 2, '0', STR_PAD_LEFT)` for a numeric code below 10. */
  function PadCode(s: string): string {
    if AllDigits(s) && DigitsValue(s) < 10 then ZeroPadLeft(s, 2) else s
  }

  /** `getMexicanZipCode($state)`: prefix, two-digit state code, three zero-padded digits. */
  function ZipCode(prefix: string, state: string, d: ZipDraw): string {
    prefix + PadCode(CodeText(StateRule(state), d)) + ZeroPadLeft(NatToString(d.last), 3)
  }

  /** Read a postal code back: the state code and the trailing number of `prefix` followed
      by exactly five digits, or None. */
  function ZipFields(prefix: string, zip: string): Option<(nat, nat)> {
    if |zip| == |prefix| + 5 && zip[..|prefix|] == prefix && AllDigits(zip[|prefix|..]) then
      Some((DigitsValue(zip[|prefix|..|prefix| + 2]), DigitsValue(zip[|prefix| + 2..])))
    else
      None
  }

  /** Every rule of the table draws a code between 1 and 99. */
  predicate TwoDigitRule(rule: CodeRule) {
    match rule
    case Fixed(c) => 10 <= c <= 99
    case Between(lo, hi) => 10 <= lo <= hi <= 99
    case Capital => true
  }

  lemma StateRulesAreTwoDigit(state: string)
    ensures TwoDigitRule(StateRule(state))
  {
    assert forall i :: 0 <= i < |StateRules| ==> TwoDigitRule(StateRules[i]);
  }

  /** A drawn state code is written with exactly two digits and reads back as its value. */
  lemma {:induction false} StateCodeDigits(rule: CodeRule, d: ZipDraw)
    requires TwoDigitRule(rule) && ValidZipDraw(rule, d)
    ensures var s := PadCode(CodeText(rule, d));
      |s| == 2 && AllDigits(s) && DigitsValue(s) == CodeValue(rule, d)
  {
    var v := CodeValue(rule, d);
    var t := NatToString(v);
    DigitsValueOfNatToString(v);
    if rule.Capital? && d.coin {
      var s := "0" + t;
      assert |t| == 1;
      DigitsValueLeadingZeros("0", t);
      assert CodeText(rule, d) == s;
      assert ZeroPadLeft(s, 2) == s;
    } else {
      assert CodeText(rule, d) == t;
      assert |t| == 2;
    }
  }

  /** The trailing number is written with exactly three digits and reads back. */
  lemma TrailingDigits(n: nat)
    requires n <= 999
    ensures var s := ZeroPadLeft(NatToString(n), 3); |s| == 3 && AllDigits(s) && DigitsValue(s) == n
  {
    NumericStrings.NatToStringLength(n, 3);
    ZeroPadNatRoundTrip(n, 3);
  }

  /** Every generated postal code is the prefix and five digits, and reads back as the drawn
      state code and trailing number. */
  lemma ZipCodeRoundTrip(prefix: string, state: string, d: ZipDraw)
    requires ValidZipDraw(StateRule(state), d)
    ensures |ZipCode(prefix, state, d)| == |prefix| + 5
    ensures ZipFields(prefix, ZipCode(prefix, state, d)) == Some((CodeValue(StateRule(state), d), d.last))
  {
    var rule := StateRule(state);
    StateRulesAreTwoDigit(state);
    StateCodeDigits(rule, d);
    TrailingDigits(d.last);
    ZipFieldsOfParts(prefix, PadCode(CodeText(rule, d)), ZeroPadLeft(NatToString(d.last), 3));
  }

  /** The prefix, two digits and three digits read back as the two numbers. */
  lemma ZipFieldsOfParts(prefix: string, code: string, tail: string)
    requires |code| == 2 && AllDigits(code) && |tail| == 3 && AllDigits(tail)
    ensures |prefix + code + tail| == |prefix| + 5
    ensures ZipFields(prefix, prefix + code + tail) == Some((DigitsValue(code), DigitsValue(tail)))
  {
    var z := prefix + code + tail;
    assert z[..|prefix|] == prefix;
    assert z[|prefix|..] == code + tail;
    assert z[|prefix|..|prefix| + 2] == code;
    assert z[|prefix| + 2..] == tail;
  }

  lemma JaliscoIndex()
    ensures StateIndex("Jalisco") == Some(14)
  {
    var prior := States[..14];
    forall k | 0 <= k < 14 ensures prior[k] != "Jalisco" {
      assert prior[k][0] != 'J';
    }
    FindIndexFirst(States, "Jalisco", 14);
  }

  /** A Jalisco postal code starts with the drawn code, 44 to 49. */
  lemma JaliscoZipCode(prefix: string, d: ZipDraw)
    requires ValidZipDraw(StateRule("Jalisco"), d)
    ensures 44 <= d.pick <= 49
    ensures ZipFields(prefix, ZipCode(prefix, "Jalisco", d)) == Some((d.pick, d.last))
  {
    JaliscoRule("Jalisco");
    ZipOfRule(prefix, "Jalisco", d, Between(44, 49));
  }

  /** Jalisco draws its state code from 44 to 49. */
  lemma JaliscoRule(state: string)
    requires state == "Jalisco"
    ensures StateRule(state) == Between(44, 49)
  {
    JaliscoIndex();
    RuleAt(state, 14);
    Rule14();
  }

  /** The rule at Jalisco's position in the table. */
  lemma Rule14()
    ensures StateRules[14] == Between(44, 49)
  {
  }

  /** The rule of a state found at position `i` of the list. */
  lemma RuleAt(state: string, i: nat)
    requires StateIndex(state) == Some(i)
    ensures StateRule(state) == StateRules[i]
  {
  }

  /** The postal code of a state whose rule is known. */
  lemma ZipOfRule(prefix: string, state: string, d: ZipDraw, rule: CodeRule)
    requires StateRule(state) == rule && ValidZipDraw(rule, d)
    ensures ZipFields(prefix, ZipCode(prefix, state, d)) == Some((CodeValue(rule, d), d.last))
  {
    ZipCodeRoundTrip(prefix, state, d);
  }

  /** A state outside the table gets state code 99 and the fallback city. */
  lemma UnknownStateFallbacks(prefix: string, state: string, d: ZipDraw)
    requires state !in States && d.last <= 999
    ensures ZipFields(prefix, ZipCode(prefix, state, d)) == Some((99, d.last))
    ensures CitiesOf(state) == ["Ciudad Ejemplo"]
  {
    ZipCodeRoundTrip(prefix, state, d);
  }

  /** Every state of the list has its own city list. */
  lemma EveryStateHasCities(state: string)
    requires state in States
    ensures CitiesOf(state) == CityLists[StateIndex(state).value]
  {
    CityListsNonEmpty();
  }

  lemma CityListsNonEmpty()
    ensures |CityLists| == |States|
    ensures forall i :: 0 <= i < |CityLists| ==> |CityLists[i]| >= 1
  {
  }

  /** Every state of the list has its own state-code rule. */
  lemma EveryStateHasCode(state: string)
    requires state in States
    ensures StateRule(state) == StateRules[StateIndex(state).value] != Fixed(99)
  {
    assert forall i :: 0 <= i < |StateRules| ==> StateRules[i] != Fixed(99);
  }

  // ---------------------------------------------------------------------------
  // street addresses
  // ---------------------------------------------------------------------------

  const StreetTypes: seq<string> := ["Calle", "Avenida", "Boulevard", "Privada", "Cerrada", "Callejón"]

  const StreetNames: seq<string> := [
    "Benito Juárez", "Miguel Hidalgo", "Francisco I. Madero", "Emiliano Zapata",
    "Morelos", "Insurgentes", "Reforma", "Revolución", "16 de Septiembre",
    "Independencia", "Constitución", "Libertad", "Progreso", "Juárez",
    "Las Flores", "Los Pinos", "del Sol", "de la Paz", "Principal",
    "Centro", "Norte", "Sur", "Oriente", "Poniente"]

  /** `getMexicanStreetAddress()`: "Type Name #n" for the drawn type, name and number. */
  function StreetAddress(streetType: nat, streetName: nat, number: nat): (r: string)
    requires streetType < |StreetTypes| && streetName < |StreetNames| && 1 <= number <= 9999
    ensures |StreetTypes[streetType]| <= |r| && r[..|StreetTypes[streetType]|] == StreetTypes[streetType]
  {
    var t := StreetTypes[streetType];
    var r := t + " " + StreetNames[streetName] + " #" + NatToString(number);
    assert r[..|t|] == t;
    r
  }

  /** The text after the last `c` in `s`, or None when `c` does not occur. */
  function AfterLast(s: string, c: char): (r: Option<string>)
    ensures r.Some? ==> c !in r.value
  {
    if s == [] then None
    else if s[|s| - 1] == c then Some([])
    else match AfterLast(s[..|s| - 1], c)
      case None => None
      case Some(t) => Some(t + [s[|s| - 1]])
  }

  /** The street number of an address: the digits after its last `#`. */
  function StreetNumber(address: string): Option<nat> {
    match AfterLast(address, '#')
    case Some(d) => if |d| > 0 && AllDigits(d) then Some(DigitsValue(d)) else None
    case None => None
  }

  lemma {:induction false} AfterLastOfSuffix(a: string, c: char, d: string)
    requires c !in d
    ensures AfterLast(a + [c] + d, c) == Some(d)
    decreases |d|
  {
    var s := a + [c] + d;
    if d != [] {
      var d' := d[..|d| - 1];
      assert s[..|s| - 1] == a + [c] + d';
      AfterLastOfSuffix(a, c, d');
      assert d == d' + [d[|d| - 1]];
    } else {
      assert s[|s| - 1] == c;
    }
  }

  /** The digits after the last `#` of a generated street address read back as the drawn
      number, and there are one to four of them. */
  lemma StreetNumberRoundTrip(streetType: nat, streetName: nat, number: nat)
    requires streetType < |StreetTypes| && streetName < |StreetNames| && 1 <= number <= 9999
    ensures StreetNumber(StreetAddress(streetType, streetName, number)) == Some(number)
    ensures var d := AfterLast(StreetAddress(streetType, streetName, number), '#');
      d == Some(NatToString(number)) && 1 <= |d.value| <= 4
  {
    var digits := NatToString(number);
    var a := StreetTypes[streetType] + " " + StreetNames[streetName] + " ";
    assert StreetAddress(streetType, streetName, number) == a + ['#'] + digits;
    assert forall i :: 0 <= i < |digits| ==> digits[i] != '#';
    AfterLastOfSuffix(a, '#', digits);
    DigitsValueOfNatToString(number);
  }

  // ---------------------------------------------------------------------------
  // definition() and the states
  // ---------------------------------------------------------------------------

  /** The features `definition()` draws from. */
  const FeatureChoices: seq<string> := [
    "hardwood_floors", "granite_countertops", "stainless_steel_appliances", "walk_in_closet",
    "fireplace", "balcony", "patio", "air_conditioning", "dishwasher", "laundry_in_unit",
    "pet_friendly", "parking"]

  /** The fixed feature list of `luxury()`. */
  const LuxuryFeatures: seq<string> := [
    "hardwood_floors", "granite_countertops", "stainless_steel_appliances", "walk_in_closet",
    "fireplace", "master_suite", "gourmet_kitchen", "wine_cellar", "home_theater", "smart_home"]

  /** The draws of one `definition()`. Money is drawn in whole pesos, `lotSize` in
      hundredths and the coordinates in units of 1e-8 degree; `features` are distinct
      positions in `FeatureChoices`, in the order drawn. */
  datatype Draws = Draws(
    title: string, description: string,
    stateIndex: nat, cityPick: nat, zip: ZipDraw,
    streetType: nat, streetName: nat, streetNumber: nat,
    latitude: int, longitude: int,
    squareFeet: int, bedrooms: int, bathrooms: int, floors: int, price: int,
    monthlyRent: Option<int>, propertyTaxes: int, typeIndex: nat, statusIndex: nat,
    yearBuilt: int, lotSize: int, garageSpaces: int,
    hasBasement: bool, hasPool: bool, hasGarden: bool,
    features: seq<nat>, mlsNumber: nat, listingAgent: string, lastRenovated: Option<string>)

  /** Each draw lies in the range `definition()` draws it from. */
  predicate InRange(d: Draws) {
    && d.stateIndex < |States|
    && d.cityPick < |CitiesOf(States[d.stateIndex])|
    && ValidZipDraw(StateRule(States[d.stateIndex]), d.zip)
    && d.streetType < |StreetTypes| && d.streetName < |StreetNames| && 1 <= d.streetNumber <= 9999
    && 1450000000 <= d.latitude <= 3270000000 && -11840000000 <= d.longitude <= -8670000000
    && 500 <= d.squareFeet <= 5000 && 1 <= d.bedrooms <= 6 && 1 <= d.bathrooms <= 4 && 1 <= d.floors <= 3
    && 100000 <= d.price <= 2000000
    && (d.monthlyRent.Some? ==> 1500 <= d.monthlyRent.value <= 100000)
    && 2000 <= d.propertyTaxes <= 15000
    && d.typeIndex < |Validation.PropertyTypes| && d.statusIndex < |Validation.Statuses|
    && 1950 <= d.yearBuilt <= 2024 && 10 <= d.lotSize <= 200 && 0 <= d.garageSpaces <= 3
    && 2 <= |d.features| <= 6
    && (forall i :: 0 <= i < |d.features| ==> d.features[i] < |FeatureChoices|)
    && (forall i, j :: 0 <= i < j < |d.features| ==> d.features[i] != d.features[j])
    && d.mlsNumber <= 99999999
  }

  /** Whole pesos as hundredths. */
  function Pesos(n: int): int {
    n * 100
  }

  /** `round($price / $squareFeet, 2)` in hundredths, computed exactly. */
  function FactoryPricePerSqft(price: int, squareFeet: int): (r: int)
    requires squareFeet > 0
    ensures IsRoundedQuotient(r, Pesos(price), squareFeet)
  {
    RoundHalfUpDiv(Pesos(price), squareFeet)
  }

  /** The `metadata` array of `definition()`. */
  function FactoryMetadata(d: Draws): Value {
    Obj([("mls_number", Num(Decimal(d.mlsNumber, 0))), ("listing_agent", Str(d.listingAgent)),
         ("last_renovated", if d.lastRenovated.Some? then Str(d.lastRenovated.value) else Null)])
  }

  /** The row `create()` stores for `definition()`, with the id and the clock of the
      insert; `user_id` is null. */
  function Definition(d: Draws, prefix: string, id: int, now: int): Property
    requires InRange(d)
  {
    var state := States[d.stateIndex];
    Property(
      id, Some(d.title), Some(d.description),
      Some(StreetAddress(d.streetType, d.streetName, d.streetNumber)),
      Some(City(state, d.cityPick)), Some(state), Some(ZipCode(prefix, state, d.zip)),
      Some(d.latitude), Some(d.longitude),
      Some(d.squareFeet), Some(d.bedrooms), Some(d.bathrooms), Some(d.floors),
      Some(Pesos(d.price)), Some(FactoryPricePerSqft(d.price, d.squareFeet)),
      if d.monthlyRent.Some? then Some(Pesos(d.monthlyRent.value)) else None,
      Some(Pesos(d.propertyTaxes)),
      Some(Validation.PropertyTypes[d.typeIndex]), Validation.Statuses[d.statusIndex],
      Some(d.yearBuilt), Some(d.lotSize), Some(d.garageSpaces),
      d.hasBasement, d.hasPool, d.hasGarden,
      Some(FeatureNames(d.features)),
      Some(FactoryMetadata(d)),
      None, Some(now), Some(now))
  }

  /** A generated price per square foot is the one `calculatePricePerSqft()` computes, so
      the generated row already satisfies the model's invariant. */
  lemma DefinitionPricePerSqft(d: Draws, prefix: string, id: int, now: int)
    requires InRange(d)
    ensures PricePerSqftConsistent(Definition(d, prefix, id, now))
    ensures CalculatePricePerSqft(Definition(d, prefix, id, now), now) == Definition(d, prefix, id, now)
    ensures Definition(d, prefix, id, now).squareFeet.value >= 500
  {
    var p := Definition(d, prefix, id, now);
    assert p.price == Some(Pesos(d.price)) && p.squareFeet == Some(d.squareFeet);
    assert p.pricePerSqft == Some(FactoryPricePerSqft(d.price, d.squareFeet));
    CalculatePricePerSqftFixesConsistent(p, now);
  }

  /** The address of a generated row: a street of the lists, a city of the drawn state and
      a postal code of its state code. */
  lemma DefinitionAddress(d: Draws, prefix: string, id: int, now: int)
    requires InRange(d)
    ensures var p := Definition(d, prefix, id, now);
      && p.state == Some(States[d.stateIndex])
      && p.city.value in CitiesOf(States[d.stateIndex])
      && StreetNumber(p.address.value) == Some(d.streetNumber)
      && ZipFields(prefix, p.zipCode.value) == Some((CodeValue(StateRule(States[d.stateIndex]), d.zip), d.zip.last))
  {
    var state := States[d.stateIndex];
    StreetNumberRoundTrip(d.streetType, d.streetName, d.streetNumber);
    ZipCodeRoundTrip(prefix, state, d.zip);
  }

  /** The feature names at the drawn positions, in draw order. */
  function FeatureNames(picks: seq<nat>): (r: seq<string>)
    requires forall i :: 0 <= i < |picks| ==> picks[i] < |FeatureChoices|
    ensures |r| == |picks|
    ensures forall i :: 0 <= i < |picks| ==> r[i] == FeatureChoices[picks[i]]
  {
    seq(|picks|, i requires 0 <= i < |picks| && picks[i] < |FeatureChoices| => FeatureChoices[picks[i]])
  }

  /** Distinct positions give distinct names, as `randomElements` promises. */
  lemma FeatureNamesDistinct(picks: seq<nat>)
    requires forall i :: 0 <= i < |picks| ==> picks[i] < |FeatureChoices|
    requires forall i, j :: 0 <= i < j < |picks| ==> picks[i] != picks[j]
    ensures NoDuplicates(FeatureNames(picks))
    ensures forall f :: f in FeatureNames(picks) ==> f in FeatureChoices
  {
    var names := FeatureNames(picks);
    FeatureChoicesDistinct();
    forall i, j | 0 <= i < j < |names| ensures names[i] != names[j] {
      assert names[i] == FeatureChoices[picks[i]] && names[j] == FeatureChoices[picks[j]];
    }
  }

  /** A generated type and status are among those the validators accept, and the feature
      list holds distinct names of the feature choices. */
  lemma DefinitionChoices(d: Draws, prefix: string, id: int, now: int)
    requires InRange(d)
    ensures var p := Definition(d, prefix, id, now);
      && p.propertyType.value in Validation.PropertyTypes
      && p.status in Validation.Statuses
      && p.features == Some(FeatureNames(d.features))
      && NoDuplicates(p.features.value)
  {
    FeatureNamesDistinct(d.features);
  }

  lemma FeatureChoicesDistinct()
    ensures NoDuplicates(FeatureChoices)
  {
  }

  /** `forSale()`: available, no monthly rent. */
  function ForSale(p: Property): (r: Property)
    ensures r.status == "available" && r.monthlyRent.None?
    ensures r.(status := p.status, monthlyRent := p.monthlyRent) == p
  {
    p.(status := "available", monthlyRent := None)
  }

  /** `forRent()` with the drawn rent in whole pesos: available, no price and no price per
      square foot. */
  function ForRent(p: Property, rent: int): (r: Property)
    requires 800 <= rent <= 5000
    ensures r.status == "available" && r.price.None? && r.pricePerSqft.None?
    ensures r.monthlyRent == Some(Pesos(rent))
    ensures r.(status := p.status, price := p.price, pricePerSqft := p.pricePerSqft, monthlyRent := p.monthlyRent) == p
  {
    p.(status := "available", price := None, pricePerSqft := None, monthlyRent := Some(Pesos(rent)))
  }

  /** A row for rent has neither price nor price per square foot, which the model's
      invariant accepts and the recompute leaves alone. */
  lemma ForRentConsistent(p: Property, rent: int, now: int)
    requires 800 <= rent <= 5000
    ensures PricePerSqftConsistent(ForRent(p, rent))
    ensures CalculatePricePerSqft(ForRent(p, rent), now) == ForRent(p, rent)
  {
  }

  /** `sold()`: the status the validators accept for a sold listing. */
  function Sold(p: Property): (r: Property)
    ensures r.status in Validation.Statuses
    ensures r.(status := p.status) == p
  {
    p.(status := "vendida")
  }

  /** The draws of `luxury()`, in whole pesos and hundredths like `Draws`. */
  datatype LuxuryDraws = LuxuryDraws(
    squareFeet: int, bedrooms: int, bathrooms: int, floors: int, price: int, lotSize: int,
    garageSpaces: int, hasBasement: bool, hasPool: bool, hasGarden: bool)

  predicate LuxuryInRange(l: LuxuryDraws) {
    && 3000 <= l.squareFeet <= 8000 && 4 <= l.bedrooms <= 8 && 3 <= l.bathrooms <= 6
    && 2 <= l.floors <= 4 && 800000 <= l.price <= 5000000 && 50 <= l.lotSize <= 300
    && 2 <= l.garageSpaces <= 4
  }

  /** `luxury()`: a larger, dearer row with its own price per square foot and the fixed
      luxury features. */
  function Luxury(p: Property, l: LuxuryDraws): (r: Property)
    requires LuxuryInRange(l)
    ensures r.squareFeet.Some? && r.squareFeet.value >= 3000
    ensures r.features == Some(LuxuryFeatures)
  {
    p.(squareFeet := Some(l.squareFeet), bedrooms := Some(l.bedrooms), bathrooms := Some(l.bathrooms),
       floors := Some(l.floors), price := Some(Pesos(l.price)),
       pricePerSqft := Some(FactoryPricePerSqft(l.price, l.squareFeet)), lotSize := Some(l.lotSize),
       garageSpaces := Some(l.garageSpaces), hasBasement := l.hasBasement, hasPool := l.hasPool,
       hasGarden := l.hasGarden, features := Some(LuxuryFeatures))
  }

  /** A luxury row satisfies the model's invariant, whatever row it started from. */
  lemma LuxuryConsistent(p: Property, l: LuxuryDraws, now: int)
    requires LuxuryInRange(l)
    ensures PricePerSqftConsistent(Luxury(p, l))
    ensures CalculatePricePerSqft(Luxury(p, l), now) == Luxury(p, l)
  {
    CalculatePricePerSqftFixesConsistent(Luxury(p, l), now);
  }

  /** `inState($state)`: the state with a city and postal code drawn for it. */
  function InState(p: Property, prefix: string, state: string, cityPick: nat, zip: ZipDraw): (r: Property)
    requires cityPick < |CitiesOf(state)| && ValidZipDraw(StateRule(state), zip)
    ensures r.state == Some(state) && r.city.Some? && r.city.value in CitiesOf(state)
    ensures r.(state := p.state, city := p.city, zipCode := p.zipCode) == p
  {
    p.(state := Some(state), city := Some(City(state, cityPick)), zipCode := Some(ZipCode(prefix, state, zip)))
  }

  /** The postal code `inState` draws reads back as a code of the state. */
  lemma InStateZipCode(p: Property, prefix: string, state: string, cityPick: nat, zip: ZipDraw)
    requires cityPick < |CitiesOf(state)| && ValidZipDraw(StateRule(state), zip)
    ensures ZipFields(prefix, InState(p, prefix, state, cityPick, zip).zipCode.value)
      == Some((CodeValue(StateRule(state), zip), zip.last))
  {
    ZipCodeRoundTrip(prefix, state, zip);
  }
}

=== FILE: faults.dfy ===
/** Why a request ends without its normal response. */
module Faults {

  datatype Fault =
    | ValidationFailed(fields: set<string>)   // the validator's 422, naming the failing fields
    | NotFound(id: int)                       // route-model binding found no row: 404
    | InvalidPriceBound(key: string)          // a price bound PHP cannot pass as `?float`
    | InvalidSortDirection(direction: string) // the query builder rejects an order direction
    | NullInNotNullColumn(column: string)     // the database refuses NULL in a NOT NULL column
    | NonNumericOperand                       // PHP's arithmetic met an operand that is not a number
}

=== FILE: json.dfy ===
/** Decoded JSON values as the PHP side sees them after `json_decode($body, true)`. */
module Json {
  import opened Numbers

  /** A JSON value. Objects keep their key order, as PHP arrays do; numbers are exact. */
  datatype Value =
    | Null
    | Bool(b: bool)
    | Num(n: Decimal)
    | Str(s: string)
    | List(items: seq<Value>)
    | Obj(fields: seq<(string, Value)>)
  {
    /** PHP `is_array`: both JSON lists and JSON objects decode to arrays. */
    predicate IsArray() {
      List? || Obj?
    }

    /** PHP `array_values`: the elements of an array in order, keys dropped. */
    function Elements(): (r: seq<Value>)
      requires IsArray()
      ensures |r| == if List? then |items| else |fields|
    {
      if List? then items else seq(|fields|, i requires 0 <= i < |fields| => fields[i].1)
    }
  }

  /** PHP's `[]`, which JSON-encodes as an empty list. */
  const EmptyArray: Value := List([])
}

=== FILE: listing.dfy ===
/** The read side of the controller: `index` (filters and sort order), `search` (query
    validation, text search and geographic activation), as functions from the table and the
    query string to the rows returned (app/Http/Controllers/Api/PropertyController.php). */
module Listing {
  import opened Wrappers
  import opened Numbers
  import opened Text
  import opened NumericStrings
  import opened PropertyModel
  import opened Faults

  /** The query string as the middleware leaves it (see `Middleware.CleanQuery`):
      parameter name to its trimmed value, with "" standing for the null that an empty
      value becomes. */
  type Query = map<string, string>

  /** `$request->filled($key)`: present and not blank. */
  predicate Filled(q: Query, key: string) {
    key in q && !IsBlank(q[key])
  }

  /** The value of a parameter, "" when absent. */
  function Param(q: Query, key: string): string {
    if key in q then q[key] else ""
  }

  /** `$request->input($key)`: null when the parameter is absent or null. */
  function Input(q: Query, key: string): (r: Option<string>)
    ensures r.None? <==> key !in q || q[key] == ""
    ensures r.Some? ==> r.value == q[key]
  {
    if key in q && q[key] != "" then Some(q[key]) else None
  }

  /** A bounding box in units of 1e-8 degree, as the database compares it. */
  datatype Box = Box(latLow: int, latHigh: int, lngLow: int, lngHigh: int)

  /** One `where` clause the controller adds to the query. */
  datatype Filter =
    | CityContains(city: string)                                  // scopeInCity
    | TypeIs(propertyType: string)                                // scopeOfType
    | StatusIs(status: string)                                    // scopeWithStatus
    | MinBedrooms(bedrooms: int)                                  // scopeWithBedrooms
    | MinBathrooms(bathrooms: int)                                // scopeWithBathrooms
    | PriceBetween(minPrice: Option<Decimal>, maxPrice: Option<Decimal>) // scopeInPriceRange
    | TextMatches(term: string)                                   // the grouped OR of LIKEs
    | WithinBox(box: Box)                                         // the two whereBetween

  /** The four text columns the search looks in, NULLs left out. */
  function TextFields(p: Property): seq<Option<string>> {
    [p.title, p.description, p.address, p.city]
  }

  /** `column LIKE '%term%'`; a NULL column never matches. */
  predicate LikeMatch(column: Option<string>, term: string) {
    column.Some? && ContainsIgnoreCase(column.value, term)
  }

  /** `whereBetween`: inclusive at both ends; a NULL never matches. */
  predicate InClosedRange(v: Option<int>, low: int, high: int) {
    v.Some? && low <= v.value <= high
  }

  predicate Holds(f: Filter, p: Property) {
    match f
    case CityContains(city) => InCity(p, city)
    case TypeIs(t) => OfType(p, t)
    case StatusIs(s) => WithStatus(p, s)
    case MinBedrooms(n) => WithBedrooms(p, n)
    case MinBathrooms(n) => WithBathrooms(p, n)
    case PriceBetween(lo, hi) => InPriceRange(p, lo, hi)
    case TextMatches(term) =>
      LikeMatch(p.title, term) || LikeMatch(p.description, term)
      || LikeMatch(p.address, term) || LikeMatch(p.city, term)
    case WithinBox(b) =>
      InClosedRange(p.latitude, b.latLow, b.latHigh) && InClosedRange(p.longitude, b.lngLow, b.lngHigh)
  }

  /** The query builder ANDs its `where` clauses. */
  predicate HoldsAll(filters: seq<Filter>, p: Property) {
    forall i :: 0 <= i < |filters| ==> Holds(filters[i], p)
  }

  /** A clause added only under a condition. */
  function Guard(condition: bool, f: Filter): (r: seq<Filter>)
    ensures forall g :: g in r <==> condition && g == f
  {
    if condition then [f] else []
  }

  /** The rows of `rows` that pass every filter, in table order. */
  function Select(rows: seq<Property>, filters: seq<Filter>): (r: seq<Property>)
    ensures |r| <= |rows|
    ensures forall p :: multiset(r)[p] == if HoldsAll(filters, p) then multiset(rows)[p] else 0
  {
    if rows == [] then []
    else
      assert rows == [rows[0]] + rows[1..];
      (if HoldsAll(filters, rows[0]) then [rows[0]] else []) + Select(rows[1..], filters)
  }

  // ---------------------------------------------------------------------------
  // index: filters
  // ---------------------------------------------------------------------------

  /** A price bound as the scope receives it: a null input stays null; a string must be
      numeric, or PHP refuses to pass it as `?float`. */
  function PriceBound(q: Query, key: string): (r: Result<Option<Decimal>, Fault>)
    ensures r.Failure? <==> BadBound(q, key)
    ensures r.Failure? ==> r.error == InvalidPriceBound(key)
    ensures r.Success? && (key !in q || q[key] == "") ==> r.value == None
    ensures r.Success? && key in q && q[key] != "" ==> r.value == ParseDecimal(q[key]) && r.value.Some?
  {
    match Input(q, key)
    case None => Success(None)
    case Some(s) =>
      match ParseDecimal(s)
      case None => Failure(InvalidPriceBound(key))
      case Some(d) => Success(Some(d))
  }

  /** A price input that is a string but not a number. */
  predicate BadBound(q: Query, key: string) {
    key in q && q[key] != "" && ParseDecimal(q[key]).None?
  }

  /** The price clause, added when either bound is filled. */
  function PriceFilter(q: Query): Result<seq<Filter>, Fault> {
    if Filled(q, "min_price") || Filled(q, "max_price") then
      var lo :- PriceBound(q, "min_price");
      var hi :- PriceBound(q, "max_price");
      Success([PriceBetween(lo, hi)])
    else
      Success([])
  }

  /** The clauses `index` adds before the price clause, in the order the controller adds
      them. */
  function FieldFilters(q: Query): (r: seq<Filter>)
    ensures forall f :: f in r ==> !f.PriceBetween?
  {
    Guard(Filled(q, "city"), CityContains(Param(q, "city")))
    + Guard(Filled(q, "property_type"), TypeIs(Param(q, "property_type")))
    + Guard(Filled(q, "status"), StatusIs(Param(q, "status")))
    + Guard(Filled(q, "bedrooms"), MinBedrooms(IntVal(Param(q, "bedrooms"))))
    + Guard(Filled(q, "bathrooms"), MinBathrooms(IntVal(Param(q, "bathrooms"))))
  }

  /** The clauses `index` adds, in the order the controller adds them. */
  function IndexFilters(q: Query): Result<seq<Filter>, Fault> {
    var price :- PriceFilter(q);
    Success(FieldFilters(q) + price)
  }

  /** The price clause is added and one of its two inputs is a string that is not a
      number. */
  predicate HasBadPriceBound(q: Query) {
    (Filled(q, "min_price") || Filled(q, "max_price"))
    && (BadBound(q, "min_price") || BadBound(q, "max_price"))
  }

  /** The bound a price parameter denotes; null when its input is null. */
  function Bound(q: Query, key: string): Option<Decimal> {
    if key in q && q[key] != "" then ParseDecimal(q[key]) else None
  }

  /** The reference reading of the `index` filters: one condition per filled parameter,
      ANDed; an unfilled parameter adds nothing. */
  predicate Admits(q: Query, p: Property) {
    && (Filled(q, "city") ==> InCity(p, Param(q, "city")))
    && (Filled(q, "property_type") ==> OfType(p, Param(q, "property_type")))
    && (Filled(q, "status") ==> WithStatus(p, Param(q, "status")))
    && (Filled(q, "bedrooms") ==> WithBedrooms(p, IntVal(Param(q, "bedrooms"))))
    && (Filled(q, "bathrooms") ==> WithBathrooms(p, IntVal(Param(q, "bathrooms"))))
    && (Filled(q, "min_price") || Filled(q, "max_price") ==>
          InPriceRange(p, Bound(q, "min_price"), Bound(q, "max_price")))
  }

  lemma HoldsAllAppend(a: seq<Filter>, b: seq<Filter>, p: Property)
    ensures HoldsAll(a + b, p) <==> HoldsAll(a, p) && HoldsAll(b, p)
  {
    if HoldsAll(a, p) && HoldsAll(b, p) {
      forall i | 0 <= i < |a + b|
        ensures Holds((a + b)[i], p)
      {
        if i >= |a| {
          assert (a + b)[i] == b[i - |a|];
        }
      }
    }
    if HoldsAll(a + b, p) {
      forall i | 0 <= i < |a|
        ensures Holds(a[i], p)
      {
        assert (a + b)[i] == a[i];
      }
      forall i | 0 <= i < |b|
        ensures Holds(b[i], p)
      {
        assert (a + b)[|a| + i] == b[i];
      }
    }
  }

  lemma HoldsAllGuard(c: bool, f: Filter, p: Property)
    ensures HoldsAll(Guard(c, f), p) <==> (c ==> Holds(f, p))
  {
    if c {
      assert Guard(c, f)[0] == f;
    }
  }

  /** `index` fails on the filters exactly when the price clause is added and one of its
      inputs is a string that is not a number. */
  lemma IndexFiltersFailIff(q: Query)
    ensures IndexFilters(q).Failure? <==> HasBadPriceBound(q)
  {
  }

  /** The clauses `index` adds are the reference conjunction: a row passes them all exactly
      when every filled parameter's condition holds for it. */
  lemma {:induction false} IndexFiltersMeaning(q: Query, p: Property)
    requires !HasBadPriceBound(q)
    ensures IndexFilters(q).Success?
    ensures HoldsAll(IndexFilters(q).value, p) <==> Admits(q, p)
  {
    assert HoldsAll(IndexFilters(q).value, p) <==> ClausesHold(q, p) by {
      PriceFilterMeaning(q, p);
      IndexFiltersShape(q);
      FiveGuards(Filled(q, "city"), CityContains(Param(q, "city")),
                 Filled(q, "property_type"), TypeIs(Param(q, "property_type")),
                 Filled(q, "status"), StatusIs(Param(q, "status")),
                 Filled(q, "bedrooms"), MinBedrooms(IntVal(Param(q, "bedrooms"))),
                 Filled(q, "bathrooms"), MinBathrooms(IntVal(Param(q, "bathrooms"))),
                 PriceFilter(q).value, p);
    }
    ClausesHoldMeaning(q, p);
  }

  /** Each `index` clause, guarded by its parameter being filled, holds for `p`. */
  predicate ClausesHold(q: Query, p: Property)
    requires !HasBadPriceBound(q)
  {
    && (Filled(q, "city") ==> Holds(CityContains(Param(q, "city")), p))
    && (Filled(q, "property_type") ==> Holds(TypeIs(Param(q, "property_type")), p))
    && (Filled(q, "status") ==> Holds(StatusIs(Param(q, "status")), p))
    && (Filled(q, "bedrooms") ==> Holds(MinBedrooms(IntVal(Param(q, "bedrooms"))), p))
    && (Filled(q, "bathrooms") ==> Holds(MinBathrooms(IntVal(Param(q, "bathrooms"))), p))
    && HoldsAll(PriceFilter(q).value, p)
  }

  lemma ClausesHoldMeaning(q: Query, p: Property)
    requires !HasBadPriceBound(q)
    ensures ClausesHold(q, p) <==> Admits(q, p)
  {
    var city, kind, status := Param(q, "city"), Param(q, "property_type"), Param(q, "status");
    var beds, baths := IntVal(Param(q, "bedrooms")), IntVal(Param(q, "bathrooms"));
    assert Holds(CityContains(city), p) == InCity(p, city);
    assert Holds(TypeIs(kind), p) == OfType(p, kind);
    assert Holds(StatusIs(status), p) == WithStatus(p, status);
    assert Holds(MinBedrooms(beds), p) == WithBedrooms(p, beds);
    assert Holds(MinBathrooms(baths), p) == WithBathrooms(p, baths);
    PriceFilterMeaning(q, p);
  }

  /** The clauses of `index`: five guarded scopes, then the price clause. */
  lemma IndexFiltersShape(q: Query)
    requires !HasBadPriceBound(q)
    ensures PriceFilter(q).Success? && IndexFilters(q).Success?
    ensures IndexFilters(q).value ==
      Guard(Filled(q, "city"), CityContains(Param(q, "city")))
      + Guard(Filled(q, "property_type"), TypeIs(Param(q, "property_type")))
      + Guard(Filled(q, "status"), StatusIs(Param(q, "status")))
      + Guard(Filled(q, "bedrooms"), MinBedrooms(IntVal(Param(q, "bedrooms"))))
      + Guard(Filled(q, "bathrooms"), MinBathrooms(IntVal(Param(q, "bathrooms"))))
      + PriceFilter(q).value
  {
  }

  /** The price clause holds when no bound is filled, and is the price scope otherwise. */
  lemma PriceFilterMeaning(q: Query, p: Property)
    requires !HasBadPriceBound(q)
    ensures PriceFilter(q).Success?
    ensures HoldsAll(PriceFilter(q).value, p) <==>
      (Filled(q, "min_price") || Filled(q, "max_price") ==>
         InPriceRange(p, Bound(q, "min_price"), Bound(q, "max_price")))
  {
    var price := PriceFilter(q).value;
    if Filled(q, "min_price") || Filled(q, "max_price") {
      assert price == [PriceBetween(Bound(q, "min_price"), Bound(q, "max_price"))];
      assert price[0] == PriceBetween(Bound(q, "min_price"), Bound(q, "max_price"));
    } else {
      assert price == [];
    }
  }

  /** Five guarded clauses followed by more: the conjunction of the guarded implications. */
  lemma FiveGuards(c1: bool, f1: Filter, c2: bool, f2: Filter, c3: bool, f3: Filter,
                   c4: bool, f4: Filter, c5: bool, f5: Filter, more: seq<Filter>, p: Property)
    ensures HoldsAll(Guard(c1, f1) + Guard(c2, f2) + Guard(c3, f3) + Guard(c4, f4) + Guard(c5, f5) + more, p)
      <==> ((c1 ==> Holds(f1, p)) && (c2 ==> Holds(f2, p)) && (c3 ==> Holds(f3, p))
            && (c4 ==> Holds(f4, p)) && (c5 ==> Holds(f5, p)) && HoldsAll(more, p))
  {
    var g1, g2, g3, g4, g5 := Guard(c1, f1), Guard(c2, f2), Guard(c3, f3), Guard(c4, f4), Guard(c5, f5);
    HoldsAllAppend(g1 + g2 + g3 + g4 + g5, more, p);
    HoldsAllAppend(g1 + g2 + g3 + g4, g5, p);
    HoldsAllAppend(g1 + g2 + g3, g4, p);
    HoldsAllAppend(g1 + g2, g3, p);
    HoldsAllAppend(g1, g2, p);
    HoldsAllGuard(c1, f1, p);
    HoldsAllGuard(c2, f2, p);
    HoldsAllGuard(c3, f3, p);
    HoldsAllGuard(c4, f4, p);
    HoldsAllGuard(c5, f5, p);
  }

  /** The price clause is added exactly when `min_price` or `max_price` is filled. */
  lemma PriceFilterAddedIff(q: Query)
    requires !HasBadPriceBound(q)
    ensures IndexFilters(q).Success?
    ensures (exists f: Filter :: f in IndexFilters(q).value && f.PriceBetween?)
      <==> Filled(q, "min_price") || Filled(q, "max_price")
  {
    var price := PriceFilter(q).value;
    var rest := FieldFilters(q);
    assert IndexFilters(q).value == rest + price;
    if Filled(q, "min_price") || Filled(q, "max_price") {
      assert price[0] in rest + price;
    } else {
      assert price == [];
    }
  }

  /** None of the parameters `index` filters on is filled. */
  predicate NoFilterFilled(q: Query) {
    && !Filled(q, "city") && !Filled(q, "property_type") && !Filled(q, "status")
    && !Filled(q, "bedrooms") && !Filled(q, "bathrooms")
    && !Filled(q, "min_price") && !Filled(q, "max_price")
  }

  /** With no filter parameter filled, `index` adds no clause and keeps every row. */
  lemma UnfilteredQueryAdmitsAll(q: Query, p: Property)
    requires NoFilterFilled(q)
    ensures IndexFilters(q).Success? && IndexFilters(q).value == []
    ensures Admits(q, p)
  {
  }



  // ---------------------------------------------------------------------------
  // index: sort order
  // ---------------------------------------------------------------------------

  datatype Direction = Asc | Desc

  /** The `orderBy` clause, if any. */
  datatype Ordering = Unordered | OrderBy(column: string, direction: Direction)

  /** The columns `index` lets a client sort by. */
  const SortColumns: seq<string> :=
    ["created_at", "updated_at", "price", "square_feet", "bedrooms", "bathrooms"]

  /** `$request->input('sort_by', 'created_at')`. */
  function SortBy(q: Query): string {
    if "sort_by" in q then q["sort_by"] else "created_at"
  }

  /** `$request->input('sort_direction', 'desc')`. */
  function SortDirection(q: Query): string {
    if "sort_direction" in q then q["sort_direction"] else "desc"
  }

  /** The order `index` asks for. A column outside the whitelist adds no ordering at all;
      for a whitelisted one the builder lower-cases the direction and refuses anything but
      `asc` and `desc`. */
  function OrderClause(q: Query): (r: Result<Ordering, Fault>)
    ensures r.Success? && r.value.OrderBy? ==> r.value.column == SortBy(q) && r.value.column in SortColumns
  {
    var column := SortBy(q);
    var direction := Lower(SortDirection(q));
    if column !in SortColumns then Success(Unordered)
    else if direction == "asc" then Success(OrderBy(column, Asc))
    else if direction == "desc" then Success(OrderBy(column, Desc))
    else Failure(InvalidSortDirection(SortDirection(q)))
  }

  /** Without sort parameters the newest rows come first. */
  lemma DefaultOrderIsNewestFirst(q: Query)
    requires "sort_by" !in q && "sort_direction" !in q
    ensures OrderClause(q) == Success(OrderBy("created_at", Desc))
  {
    assert Lower("desc") == "desc";
  }

  /** A sort column outside the whitelist adds no ordering, whatever the direction; it
      does not fall back to `created_at`. */
  lemma UnknownSortAddsNoOrdering(q: Query)
    requires "sort_by" in q && q["sort_by"] !in SortColumns
    ensures OrderClause(q) == Success(Unordered)
  {
  }

  /** The direction is read case-insensitively, and the sort column is kept. */
  lemma SortDirectionIgnoresCase(q: Query, column: string)
    requires column in SortColumns && q == map["sort_by" := column, "sort_direction" := "ASC"]
    ensures OrderClause(q) == Success(OrderBy(column, Asc))
  {
    assert Lower("ASC") == "asc";
  }

  /** A whitelisted column with a direction other than asc/desc is an error. */
  lemma BadDirectionRejected(q: Query)
    requires SortBy(q) in SortColumns
    requires Lower(SortDirection(q)) != "asc" && Lower(SortDirection(q)) != "desc"
    ensures OrderClause(q) == Failure(InvalidSortDirection(SortDirection(q)))
  {
  }

  /** The value of a sort column; NULL when the row has none. */
  function SortKey(p: Property, column: string): Option<int> {
    if column == "created_at" then p.createdAt
    else if column == "updated_at" then p.updatedAt
    else if column == "price" then p.price
    else if column == "square_feet" then p.squareFeet
    else if column == "bedrooms" then p.bedrooms
    else if column == "bathrooms" then p.bathrooms
    else None
  }

  /** Ascending order of nullable keys: NULL sorts before every value. */
  predicate KeyLe(a: Option<int>, b: Option<int>) {
    a.None? || (b.Some? && a.value <= b.value)
  }

  /** `x` may come before `y` in the requested order. */
  predicate Before(x: Property, y: Property, column: string, direction: Direction) {
    if direction == Asc then KeyLe(SortKey(x, column), SortKey(y, column))
    else KeyLe(SortKey(y, column), SortKey(x, column))
  }

  predicate IsOrdered(rows: seq<Property>, column: string, direction: Direction) {
    forall i, j :: 0 <= i < j < |rows| ==> Before(rows[i], rows[j], column, direction)
  }

  /** `x` placed into an ordered sequence ahead of the first row it may precede. */
  function Insert(x: Property, rows: seq<Property>, column: string, direction: Direction): (r: seq<Property>)
    requires IsOrdered(rows, column, direction)
    ensures IsOrdered(r, column, direction)
    ensures multiset(r) == multiset(rows) + multiset{x}
  {
    if rows == [] then [x]
    else if Before(x, rows[0], column, direction) then
      BeforeAllOfOrdered(x, rows, column, direction);
      ConsOrdered(x, rows, column, direction);
      [x] + rows
    else
      assert rows == [rows[0]] + rows[1..];
      var tail := Insert(x, rows[1..], column, direction);
      HeadBeforeInserted(rows[0], x, rows[1..], tail, column, direction);
      ConsOrdered(rows[0], tail, column, direction);
      [rows[0]] + tail
  }

  /** The order is total: of two rows, one may precede the other. */
  lemma BeforeTotal(x: Property, y: Property, column: string, direction: Direction)
    ensures Before(x, y, column, direction) || Before(y, x, column, direction)
  {
  }

  lemma BeforeTransitive(x: Property, y: Property, z: Property, column: string, direction: Direction)
    requires Before(x, y, column, direction) && Before(y, z, column, direction)
    ensures Before(x, z, column, direction)
  {
  }

  /** A row that may precede the head of an ordered sequence may precede all of it. */
  lemma BeforeAllOfOrdered(x: Property, rows: seq<Property>, column: string, direction: Direction)
    requires IsOrdered(rows, column, direction) && |rows| > 0 && Before(x, rows[0], column, direction)
    ensures forall j :: 0 <= j < |rows| ==> Before(x, rows[j], column, direction)
  {
    forall j | 0 < j < |rows|
      ensures Before(x, rows[j], column, direction)
    {
      BeforeTransitive(x, rows[0], rows[j], column, direction);
    }
  }

  /** A row that may precede every row of an ordered sequence can head it. */
  lemma ConsOrdered(h: Property, rows: seq<Property>, column: string, direction: Direction)
    requires IsOrdered(rows, column, direction)
    requires forall j :: 0 <= j < |rows| ==> Before(h, rows[j], column, direction)
    ensures IsOrdered([h] + rows, column, direction)
  {
    var s := [h] + rows;
    forall i, j | 0 <= i < j < |s|
      ensures Before(s[i], s[j], column, direction)
    {
      assert s[j] == rows[j - 1];
      if i > 0 {
        assert s[i] == rows[i - 1];
      }
    }
  }

  /** The head of an ordered sequence may precede what is left after inserting a row it
      does not precede into the rest. */
  lemma HeadBeforeInserted(h: Property, x: Property, rest: seq<Property>, tail: seq<Property>,
                           column: string, direction: Direction)
    requires IsOrdered([h] + rest, column, direction) && !Before(x, h, column, direction)
    requires multiset(tail) == multiset(rest) + multiset{x}
    ensures forall j :: 0 <= j < |tail| ==> Before(h, tail[j], column, direction)
  {
    BeforeTotal(x, h, column, direction);
    forall j | 0 <= j < |tail|
      ensures Before(h, tail[j], column, direction)
    {
      assert tail[j] in multiset(tail);
      if tail[j] != x {
        assert tail[j] in multiset(rest);
        var k :| 0 <= k < |rest| && rest[k] == tail[j];
        assert ([h] + rest)[0] == h && ([h] + rest)[k + 1] == rest[k];
        assert Before(([h] + rest)[0], ([h] + rest)[k + 1], column, direction);
      }
    }
  }

  /** A stable sort: rows with equal keys keep their table order. */
  function Sort(rows: seq<Property>, column: string, direction: Direction): (r: seq<Property>)
    ensures IsOrdered(r, column, direction)
    ensures multiset(r) == multiset(rows)
  {
    if rows == [] then []
    else
      assert rows == [rows[0]] + rows[1..];
      Insert(rows[0], Sort(rows[1..], column, direction), column, direction)
  }

  /** The rows in the requested order; unordered rows come in table order. */
  function Arrange(rows: seq<Property>, ordering: Ordering): (r: seq<Property>)
    ensures multiset(r) == multiset(rows)
    ensures ordering.OrderBy? ==> IsOrdered(r, ordering.column, ordering.direction)
  {
    match ordering
    case Unordered => rows
    case OrderBy(column, direction) => Sort(rows, column, direction)
  }

  /** `index` before pagination: the filtered rows in the requested order, or the fault
      that stops the request. */
  function Index(table: seq<Property>, q: Query): Result<seq<Property>, Fault> {
    var filters :- IndexFilters(q);
    var ordering :- OrderClause(q);
    Success(Arrange(Select(table, filters), ordering))
  }

  /** `index` returns exactly the rows of the table that satisfy every filled filter, each
      as often as it is stored, in the requested order. */
  lemma IndexReturnsAdmittedRows(table: seq<Property>, q: Query, p: Property)
    requires !HasBadPriceBound(q) && OrderClause(q).Success?
    ensures Index(table, q).Success?
    ensures multiset(Index(table, q).value)[p] == if Admits(q, p) then multiset(table)[p] else 0
    ensures OrderClause(q).value.OrderBy? ==>
      IsOrdered(Index(table, q).value, OrderClause(q).value.column, OrderClause(q).value.direction)
  {
    IndexFiltersMeaning(q, p);
  }

  // ---------------------------------------------------------------------------
  // search
  // ---------------------------------------------------------------------------

  /** A numeric query parameter inside `[low, high]`. */
  predicate NumberWithin(s: string, low: Decimal, high: Decimal) {
    ParseDecimal(s).Some? && Le(low, ParseDecimal(s).value) && Le(ParseDecimal(s).value, high)
  }

  /** The fields `search` validates that fail: `q` longer than 255 characters, or a radius,
      latitude or longitude that is not a number in its range. Blank values are skipped. */
  function SearchErrors(q: Query): (r: set<string>)
    ensures r <= {"q", "radius", "latitude", "longitude"}
  {
    (if Filled(q, "q") && |q["q"]| > 255 then {"q"} else {})
    + RangeError(q, "radius", Decimal(1, 1), Decimal(100, 0))
    + RangeError(q, "latitude", Decimal(-90, 0), Decimal(90, 0))
    + RangeError(q, "longitude", Decimal(-180, 0), Decimal(180, 0))
  }

  /** `{key}` when the parameter is filled and is not a number in `[low, high]`. */
  function RangeError(q: Query, key: string, low: Decimal, high: Decimal): (r: set<string>)
    ensures r <= {key}
  {
    if Filled(q, key) && !NumberWithin(q[key], low, high) then {key} else {}
  }

  /** A numeric parameter fails its range rule exactly when it is not a number or its value
      lies outside the range. */
  lemma NumberWithinMeaning(s: string, low: Decimal, high: Decimal)
    ensures NumberWithin(s, low, high) <==>
      ParseDecimal(s).Some? && RealValue(low) <= RealValue(ParseDecimal(s).value) <= RealValue(high)
  {
    if ParseDecimal(s).Some? {
      LeIsValueOrder(low, ParseDecimal(s).value);
      LeIsValueOrder(ParseDecimal(s).value, high);
    }
  }

  /** The search radius is rejected exactly when it is filled and is not a number between
      0.1 and 100 km. */
  lemma RadiusRule(q: Query)
    ensures "radius" in SearchErrors(q) <==>
      Filled(q, "radius") &&
      (ParseDecimal(q["radius"]).None? || !(0.1 <= RealValue(ParseDecimal(q["radius"]).value) <= 100.0))
  {
    RadiusErrorIsRangeError(q);
    RangeErrorMeaning(q, "radius", Decimal(1, 1), Decimal(100, 0));
    assert RealValue(Decimal(1, 1)) == 0.1 && RealValue(Decimal(100, 0)) == 100.0;
  }

  lemma RadiusErrorIsRangeError(q: Query)
    ensures "radius" in SearchErrors(q) <==> "radius" in RangeError(q, "radius", Decimal(1, 1), Decimal(100, 0))
  {
    assert "radius" !in RangeError(q, "latitude", Decimal(-90, 0), Decimal(90, 0));
    assert "radius" !in RangeError(q, "longitude", Decimal(-180, 0), Decimal(180, 0));
  }

  /** A range rule fails exactly when the parameter is filled and is not a number whose
      value lies in the range. */
  lemma RangeErrorMeaning(q: Query, key: string, low: Decimal, high: Decimal)
    ensures key in RangeError(q, key, low, high) <==>
      Filled(q, key) &&
      (ParseDecimal(q[key]).None? || !(RealValue(low) <= RealValue(ParseDecimal(q[key]).value) <= RealValue(high)))
  {
    if Filled(q, key) {
      NumberWithinMeaning(q[key], low, high);
    }
  }

  /** The geographic clause is added only when latitude, longitude and radius are all
      filled. */
  predicate GeoActive(q: Query) {
    Filled(q, "latitude") && Filled(q, "longitude") && Filled(q, "radius")
  }

  /** `$request->input('radius', 10)`. */
  function RadiusInput(q: Query): string {
    if "radius" in q then q["radius"] else "10"
  }

  /** Whenever the geographic clause is added the radius is present, so its default of
      10 km is never used. */
  lemma RadiusDefaultUnreachable(q: Query)
    requires GeoActive(q)
    ensures RadiusInput(q) == q["radius"] && !IsBlank(RadiusInput(q))
  {
  }

  /** The clauses `search` adds. The box itself comes from floating-point arithmetic on the
      coordinates and is supplied by the caller. */
  function SearchFilters(q: Query, box: Box): seq<Filter> {
    Guard(Filled(q, "q"), TextMatches(Param(q, "q"))) + Guard(GeoActive(q), WithinBox(box))
  }

  /** `search` before pagination: a validation failure, or the matching rows in table
      order. */
  function Search(table: seq<Property>, q: Query, box: Box): (r: Result<seq<Property>, Fault>)
    ensures r.Failure? <==> SearchErrors(q) != {}
    ensures r.Failure? ==> r.error == ValidationFailed(SearchErrors(q))
  {
    var errors := SearchErrors(q);
    if errors != {} then Failure(ValidationFailed(errors))
    else Success(Select(table, SearchFilters(q, box)))
  }

  /** A row matches the text search exactly when the term occurs, ignoring case, in its
      title, description, address or city. */
  lemma TextMatchesMeaning(p: Property, term: string)
    ensures Holds(TextMatches(term), p) <==>
      exists k :: 0 <= k < 4 && TextFields(p)[k].Some? && Occurs(TextFields(p)[k].value, term)
  {
    var fields := TextFields(p);
    forall k | 0 <= k < 4 && fields[k].Some?
      ensures LikeMatch(fields[k], term) <==> Occurs(fields[k].value, term)
    {
      ContainsIffOccurs(Lower(fields[k].value), Lower(term));
    }
    if LikeMatch(p.title, term) {
      assert fields[0] == p.title;
    } else if LikeMatch(p.description, term) {
      assert fields[1] == p.description;
    } else if LikeMatch(p.address, term) {
      assert fields[2] == p.address;
    } else if LikeMatch(p.city, term) {
      assert fields[3] == p.city;
    }
  }

  /** `term` occurs in `hay` once both are lower-cased. */
  ghost predicate Occurs(hay: string, term: string) {
    exists i :: OccursAt(Lower(hay), Lower(term), i)
  }

  /** `search` returns exactly the stored rows that match the text term when one is filled
      and lie in the box when the geographic clause is active. */
  lemma SearchReturnsMatchingRows(table: seq<Property>, q: Query, box: Box, p: Property)
    requires SearchErrors(q) == {}
    ensures Search(table, q, box).Success?
    ensures multiset(Search(table, q, box).value)[p] ==
      if (Filled(q, "q") ==> Holds(TextMatches(Param(q, "q")), p)) && (GeoActive(q) ==> Holds(WithinBox(box), p))
      then multiset(table)[p] else 0
  {
    var g1 := Guard(Filled(q, "q"), TextMatches(Param(q, "q")));
    var g2 := Guard(GeoActive(q), WithinBox(box));
    HoldsAllAppend(g1, g2, p);
    HoldsAllGuard(Filled(q, "q"), TextMatches(Param(q, "q")), p);
    HoldsAllGuard(GeoActive(q), WithinBox(box), p);
  }

  /** Leaving out any one of latitude, longitude and radius disables the geographic clause. */
  lemma GeoNeedsAllThree(q: Query, box: Box)
    requires !Filled(q, "latitude") || !Filled(q, "longitude") || !Filled(q, "radius")
    ensures forall f: Filter :: f in SearchFilters(q, box) ==> !f.WithinBox?
  {
  }
}

=== FILE: middleware.dfy ===
/** The two global middleware every API request passes before it reaches validation and
    the controller: `TrimStrings`, then `ConvertEmptyStringsToNull`. Both walk the JSON body
    and the query string recursively. */
module Middleware {
  import opened Json
  import opened Validation

  /** The characters `Str::trim` strips at either end: Unicode white space (tab, line feed,
      vertical tab, form feed, carriage return, the space separators and the line and
      paragraph separators) and the byte-order mark, zero-width space and left-to-right
      mark. NUL is not among them. */
  predicate IsTrimSpace(c: char) {
    || c == '\t' || c == '\n' || c == '\U{B}' || c == '\U{C}' || c == '\r' || c == ' '
    || c == '\U{A0}' || c == '\U{1680}' || ('\U{2000}' <= c <= '\U{200B}') || c == '\U{200E}'
    || c == '\U{2028}' || c == '\U{2029}' || c == '\U{202F}' || c == '\U{205F}' || c == '\U{3000}'
    || c == '\U{FEFF}'
  }

  /** Neither end of `s` is a character `Str::trim` strips. */
  predicate IsTrimmedString(s: string) {
    s == [] || (!IsTrimSpace(s[0]) && !IsTrimSpace(s[|s| - 1]))
  }

  /** `s` without its leading trim characters. */
  function TrimStart(s: string): (r: string)
    ensures |r| <= |s| && r == s[|s| - |r|..]
    ensures forall i :: 0 <= i < |s| - |r| ==> IsTrimSpace(s[i])
    ensures r == [] || !IsTrimSpace(r[0])
  {
    if s != [] && IsTrimSpace(s[0]) then TrimStart(s[1..]) else s
  }

  /** `s` without its trailing trim characters. */
  function TrimEnd(s: string): (r: string)
    ensures |r| <= |s| && r == s[..|r|]
    ensures forall i :: |r| <= i < |s| ==> IsTrimSpace(s[i])
    ensures r == [] || !IsTrimSpace(r[|r| - 1])
  {
    if s != [] && IsTrimSpace(s[|s| - 1]) then TrimEnd(s[..|s| - 1]) else s
  }

  /** `Str::trim`: the middle of `s` between a run of trim characters at each end. */
  function Trim(s: string): (r: string)
    ensures IsTrimmedString(r)
    ensures exists a, b :: 0 <= a <= b <= |s| && r == s[a..b]
                           && (forall i :: 0 <= i < a ==> IsTrimSpace(s[i]))
                           && (forall i :: b <= i < |s| ==> IsTrimSpace(s[i]))
    ensures r == [] <==> forall i :: 0 <= i < |s| ==> IsTrimSpace(s[i])
  {
    var t := TrimStart(s);
    var r := TrimEnd(t);
    SuffixPrefix(s, t, r);
    TrimEmptyIff(s, t, r);
    r
  }

  /** A prefix `r` of a suffix `t` of `s` is a slice of `s`, and `t` beyond `r` is `s` beyond it. */
  lemma SuffixPrefix(s: string, t: string, r: string)
    requires |t| <= |s| && t == s[|s| - |t|..]
    requires |r| <= |t| && r == t[..|r|]
    requires forall i :: |r| <= i < |t| ==> IsTrimSpace(t[i])
    ensures r == s[|s| - |t|..|s| - |t| + |r|]
    ensures forall i :: |s| - |t| + |r| <= i < |s| ==> IsTrimSpace(s[i])
  {
    var a := |s| - |t|;
    forall i | a + |r| <= i < |s|
      ensures IsTrimSpace(s[i])
    {
      assert s[i] == t[i - a];
    }
  }

  /** The trimmed string has nothing left to strip, and is empty exactly when every
      character of `s` is one to strip. */
  lemma TrimEmptyIff(s: string, t: string, r: string)
    requires t == TrimStart(s) && r == TrimEnd(t)
    ensures IsTrimmedString(r)
    ensures r == [] <==> forall i :: 0 <= i < |s| ==> IsTrimSpace(s[i])
  {
    if r != [] {
      assert r[0] == t[0];
      assert s[|s| - |t|] == t[0];
    }
  }

  /** A string with nothing to strip is its own trim. */
  lemma TrimOfTrimmed(s: string)
    requires IsTrimmedString(s)
    ensures Trim(s) == s
  {
  }

  /** Trimming twice is trimming once. */
  lemma TrimIdempotent(s: string)
    ensures Trim(Trim(s)) == Trim(s)
  {
    TrimOfTrimmed(Trim(s));
  }

  /** One string after both middleware: trimmed, and null if nothing is left. */
  function CleanString(s: string): (r: Value)
    ensures r == Null <==> Trim(s) == []
    ensures r != Null ==> r == Str(Trim(s))
  {
    var t := Trim(s);
    if t == [] then Null else Str(t)
  }

  /** A value both middleware leave as it is: every string in it, at any depth, is
      non-empty and has nothing to strip. */
  predicate Clean(v: Value)
    decreases v
  {
    match v
    case Str(s) => s != [] && IsTrimmedString(s)
    case List(items) => forall i :: 0 <= i < |items| ==> Clean(items[i])
    case Obj(fields) => forall i :: 0 <= i < |fields| ==> Clean(fields[i].1)
    case _ => true
  }

  /** Both middleware applied to one value: strings are cleaned, arrays element by element
      under the same keys, and every other value is left alone. */
  function CleanValue(v: Value): (r: Value)
    decreases v
    ensures Clean(r)
    ensures v.Str? ==> r == CleanString(v.s)
    ensures v.Null? || v.Bool? || v.Num? ==> r == v
    ensures v.List? ==> r.List? && |r.items| == |v.items|
                        && forall i :: 0 <= i < |v.items| ==> r.items[i] == CleanValue(v.items[i])
    ensures v.Obj? ==> r.Obj? && |r.fields| == |v.fields|
                       && forall i :: 0 <= i < |v.fields| ==>
                            r.fields[i].0 == v.fields[i].0 && r.fields[i].1 == CleanValue(v.fields[i].1)
  {
    match v
    case Str(s) => CleanString(s)
    case List(items) =>
      List(seq(|items|, i requires 0 <= i < |items| => CleanValue(items[i])))
    case Obj(fields) =>
      Obj(seq(|fields|, i requires 0 <= i < |fields| => (fields[i].0, CleanValue(fields[i].1))))
    case _ => v
  }

  /** A clean value passes both middleware unchanged. */
  lemma {:induction false} CleanFixesClean(v: Value)
    requires Clean(v)
    ensures CleanValue(v) == v
    decreases v
  {
    match v
    case Str(s) =>
      TrimOfTrimmed(s);
    case List(items) =>
      forall i | 0 <= i < |items|
        ensures CleanValue(items[i]) == items[i]
      {
        CleanFixesClean(items[i]);
      }
      assert CleanValue(v).items == items;
    case Obj(fields) =>
      forall i | 0 <= i < |fields|
        ensures CleanValue(fields[i].1) == fields[i].1
      {
        CleanFixesClean(fields[i].1);
      }
      assert CleanValue(v).fields == fields;
    case _ =>
  }

  /** Running the middleware twice is running them once. */
  lemma CleanValueIdempotent(v: Value)
    ensures CleanValue(CleanValue(v)) == CleanValue(v)
  {
    CleanFixesClean(CleanValue(v));
  }

  /** The JSON body after both middleware: the same keys, every value cleaned. */
  function CleanBody(body: Payload): (r: Payload)
    ensures r.Keys == body.Keys
    ensures forall key :: key in r ==> r[key] == CleanValue(body[key])
  {
    map key | key in body :: CleanValue(body[key])
  }

  /** Every value of the body is clean. */
  predicate CleanPayload(body: Payload) {
    forall key :: key in body ==> Clean(body[key])
  }

  /** The cleaned body is clean, and a clean body passes unchanged. */
  lemma CleanBodyMeaning(body: Payload)
    ensures CleanPayload(CleanBody(body))
    ensures CleanPayload(body) ==> CleanBody(body) == body
  {
    if CleanPayload(body) {
      forall key | key in body
        ensures CleanValue(body[key]) == body[key]
      {
        CleanFixesClean(body[key]);
      }
    }
  }

  /** The query string after both middleware, with "" standing for null: every value is
      trimmed, and one that trims to nothing becomes null. */
  function CleanQuery(q: map<string, string>): (r: map<string, string>)
    ensures r.Keys == q.Keys
    ensures forall key :: key in r ==> r[key] == Trim(q[key])
  {
    map key | key in q :: Trim(q[key])
  }

  /** Every value of the cleaned query is null or trimmed, and cleaning it again changes
      nothing. */
  lemma CleanQueryIdempotent(q: map<string, string>)
    ensures forall key :: key in CleanQuery(q) ==> IsTrimmedString(CleanQuery(q)[key])
    ensures CleanQuery(CleanQuery(q)) == CleanQuery(q)
  {
    forall key | key in q
      ensures Trim(Trim(q[key])) == Trim(q[key])
    {
      TrimIdempotent(q[key]);
    }
  }

  /** A string of trim characters only becomes null. */
  lemma BlankCleansToNull(s: string)
    requires forall i :: 0 <= i < |s| ==> IsTrimSpace(s[i])
    ensures CleanValue(Str(s)) == Null
  {
  }

  /** A one-item array is cleaned item by item. */
  lemma CleanSingletonList(v: Value)
    ensures CleanValue(List([v])) == List([CleanValue(v)])
  {
    assert CleanValue(List([v])).items == [CleanValue(v)];
  }

  /** A one-key body is cleaned at its key. */
  lemma CleanSingletonBody(key: string, v: Value)
    ensures CleanBody(map[key := v]) == map[key := CleanValue(v)]
  {
    var m := map[key := v];
    assert CleanBody(m).Keys == {key};
    assert CleanBody(m)[key] == CleanValue(v);
  }
}

=== FILE: numbers.dfy ===
/** Exact decimal numbers and the rounding the application applies to them.

    Prices are kept as integer cents and coordinates as integer units of 1e-8 degree, which
    is what the `decimal(12,2)` and `decimal(10,8)` columns and the `decimal:N` casts hold.
    Numbers arriving in a request are exact decimals `mantissa / 10^exp`. */
module Numbers {

  /** The exact decimal `mantissa / 10^exp`. */
  datatype Decimal = Decimal(mantissa: int, exp: nat)

  function Pow10(n: nat): (r: nat)
    ensures r >= 1
  {
    if n == 0 then 1 else 10 * Pow10(n - 1)
  }

  /** The mathematical value of a decimal. */
  ghost function RealValue(x: Decimal): real {
    x.mantissa as real / Pow10(x.exp) as real
  }

  /** `x <= y`, decided on integers by cross-multiplying with the powers of ten. */
  predicate Le(x: Decimal, y: Decimal) {
    x.mantissa * Pow10(y.exp) <= y.mantissa * Pow10(x.exp)
  }

  predicate IsZero(x: Decimal) {
    x.mantissa == 0
  }

  /** True when the decimal denotes a whole number, as `3` or `3.0` do. */
  predicate IsIntegral(x: Decimal) {
    x.mantissa % Pow10(x.exp) == 0
  }

  /** The whole number an integral decimal denotes. */
  function IntegralValue(x: Decimal): (r: int)
    requires IsIntegral(x)
    ensures r * Pow10(x.exp) == x.mantissa
  {
    x.mantissa / Pow10(x.exp)
  }

  /** The decimal that a scaled integer denotes: `Scaled(1999, 2)` is 19.99. */
  function Scaled(v: int, places: nat): Decimal {
    Decimal(v, places)
  }

  /** The integer cross-multiplication decides the order of the values. */
  lemma {:induction false} LeIsValueOrder(x: Decimal, y: Decimal)
    ensures Le(x, y) <==> RealValue(x) <= RealValue(y)
  {
    var a, b := x.mantissa as real, y.mantissa as real;
    var p, q := Pow10(x.exp) as real, Pow10(y.exp) as real;
    assert (x.mantissa * Pow10(y.exp)) as real == a * q;
    assert (y.mantissa * Pow10(x.exp)) as real == b * p;
    CrossMultiply(a, p, b, q);
  }

  lemma CrossMultiply(a: real, p: real, b: real, q: real)
    requires p > 0.0 && q > 0.0
    ensures a / p <= b / q <==> a * q <= b * p
  {
    var u, v := a / p, b / q;
    assert a == u * p;
    assert b == v * q;
    assert a * q == u * (p * q);
    assert b * p == v * (p * q);
    if u <= v {
      assert u * (p * q) <= v * (p * q);
    } else {
      assert u * (p * q) > v * (p * q);
    }
  }

  /** `r` is `n / d` rounded to the nearest integer, ties away from zero: `r` lies within
      half a unit of `n / d`, and at a tie it is the one farther from zero. */
  predicate IsRoundedQuotient(r: int, n: int, d: int) {
    && d > 0
    && (n >= 0 ==> (2 * r - 1) * d <= 2 * n < (2 * r + 1) * d)
    && (n < 0 ==> (2 * r - 1) * d < 2 * n <= (2 * r + 1) * d)
  }

  /** `n / d` rounded to the nearest integer, ties away from zero. This is PHP's `round()`
      and the half-up rounding of Laravel's `decimal:2` cast, applied to exact operands. */
  function RoundHalfUpDiv(n: int, d: int): (r: int)
    requires d > 0
    ensures IsRoundedQuotient(r, n, d)
    ensures n >= 0 ==> r >= 0
    ensures n < 0 ==> r <= 0
  {
    if n >= 0 then
      var q := (2 * n + d) / (2 * d);
      RoundUpBracket(n, d, q);
      q
    else
      var q := (-2 * n + d) / (2 * d);
      RoundUpBracket(-n, d, q);
      -q
  }

  /** Half-up rounding of a non-negative quotient, the bracket it keeps. */
  lemma RoundUpBracket(m: int, d: int, q: int)
    requires m >= 0 && d > 0 && q == (2 * m + d) / (2 * d)
    ensures q >= 0 && (2 * q - 1) * d <= 2 * m < (2 * q + 1) * d
  {
    DivBracket(2 * m + d, 2 * d);
  }

  /** Euclidean division brackets its dividend. */
  lemma DivBracket(a: int, b: int)
    requires a >= 0 && b > 0
    ensures (a / b) * b <= a < (a / b) * b + b
    ensures a / b >= 0
  {
  }

  /** The bracket of `RoundHalfUpDiv` determines the rounded value: no other integer lies
      within half a unit of `n / d` on the side the tie rule allows. */
  lemma {:induction false} RoundHalfUpDivUnique(n: int, d: int, r: int)
    requires IsRoundedQuotient(r, n, d)
    ensures r == RoundHalfUpDiv(n, d)
  {
    var s := RoundHalfUpDiv(n, d);
    if r < s {
      MulMonotone(2 * r + 1, 2 * s - 1, d);
    } else if r > s {
      MulMonotone(2 * s + 1, 2 * r - 1, d);
    }
  }

  lemma MulMonotone(a: int, b: int, d: int)
    requires a <= b && d > 0
    ensures a * d <= b * d
  {
  }

  /** A decimal rounded to `places` fractional digits and scaled to an integer: what a
      `decimal(_, places)` column stores for it. */
  function ToScale(x: Decimal, places: nat): (r: int)
    ensures (2 * r - 1) * Pow10(x.exp) <= 2 * (x.mantissa * Pow10(places)) <= (2 * r + 1) * Pow10(x.exp)
  {
    var n, d := x.mantissa * Pow10(places), Pow10(x.exp);
    RoundHalfUpDiv(n, d)
  }
}

=== FILE: numeric_strings.dfy ===
/** Decimal numbers written as strings: how PHP reads a numeric query-string value such as
    `min_price=150000.50` or `radius=2.5`, and the canonical notation that reads back to
    the same number. */
module NumericStrings {
  import opened Wrappers
  import opened Numbers
  import opened Text

  /** `s` without the whitespace PHP allows after a number. */
  function DropTrailingSpace(s: string): (r: string)
    ensures |r| <= |s| && r == s[..|r|]
    ensures |r| > 0 ==> !IsLeadingSpace(r[|r| - 1])
  {
    if |s| > 0 && IsLeadingSpace(s[|s| - 1]) then DropTrailingSpace(s[..|s| - 1]) else s
  }

  /** Digits with an optional fractional part (`12`, `12.5`, `.5`, `12.`), at least one
      digit in all. */
  function ParseUnsigned(s: string): (r: Option<Decimal>)
    ensures r.Some? ==> r.value.mantissa >= 0
  {
    var whole := LeadingDigits(s);
    var rest := s[|whole|..];
    if rest == [] then
      if |whole| > 0 then Some(Decimal(DigitsValue(whole), 0)) else None
    else if rest[0] == '.' && AllDigits(rest[1..]) && |whole| + |rest| > 1 then
      Some(Decimal(DigitsValue(whole + rest[1..]), |rest| - 1))
    else
      None
  }

  /** The number a numeric string denotes (`is_numeric`, then the string-to-number
      conversion), or None for a string PHP does not take as a number. Surrounding
      whitespace and a sign are allowed. */
  function ParseDecimal(s: string): Option<Decimal> {
    ParseSigned(DropTrailingSpace(SkipLeadingSpace(s)))
  }

  /** A trimmed numeric string: an optional sign, then an unsigned number. */
  function ParseSigned(t: string): Option<Decimal> {
    if |t| > 0 && t[0] == '-' then
      match ParseUnsigned(t[1..])
      case Some(d) => Some(Decimal(-d.mantissa, d.exp))
      case None => None
    else if |t| > 0 && t[0] == '+' then ParseUnsigned(t[1..])
    else ParseUnsigned(t)
  }

  function Abs(m: int): nat {
    if m < 0 then -m else m
  }

  /** The whole part and the remainder of `m` divided by `p`. */
  function DivMod(m: nat, p: nat): (r: (nat, nat))
    requires p >= 1
    ensures r.0 * p + r.1 == m && r.1 < p
  {
    DivBracket(m, p);
    (m / p, m - (m / p) * p)
  }

  /** The notation `q.r` of `m / 10^e` with exactly `e` fractional digits. */
  function FormatUnsigned(m: nat, e: nat): string {
    var (q, r) := DivMod(m, Pow10(e));
    NatToString(q) + (if e == 0 then "" else "." + ZeroPadLeft(NatToString(r), e))
  }

  /** The canonical notation of a decimal: a minus sign for a negative one, the whole part
      without leading zeros and exactly `exp` fractional digits. */
  function FormatDecimal(d: Decimal): string {
    (if d.mantissa < 0 then "-" else "") + FormatUnsigned(Abs(d.mantissa), d.exp)
  }

  /** Appending digits shifts the value of a digit string. */
  lemma {:induction false} DigitsValueAppend(a: string, b: string)
    requires AllDigits(a) && AllDigits(b)
    ensures AllDigits(a + b)
    ensures DigitsValue(a + b) == DigitsValue(a) * Pow10(|b|) + DigitsValue(b)
    decreases |b|
  {
    assert AllDigits(a + b);
    if |b| > 0 {
      var b' := b[..|b| - 1];
      assert (a + b)[..|a + b| - 1] == a + b';
      DigitsValueAppend(a, b');
      var d := DigitValue(b[|b| - 1]);
      assert (a + b)[|a + b| - 1] == b[|b| - 1];
      assert DigitsValue(a + b) == DigitsValue(a + b') * 10 + d;
      assert DigitsValue(b) == DigitsValue(b') * 10 + d;
      assert Pow10(|b|) == Pow10(|b'|) * 10;
      ShiftDigit(DigitsValue(a + b), DigitsValue(a + b'), DigitsValue(a), Pow10(|b'|), DigitsValue(b'), d,
                 DigitsValue(b), Pow10(|b|));
    } else {
      assert a + b == a;
    }
  }

  /** One more digit on the right multiplies the left part's weight by ten. */
  lemma ShiftDigit(whole: int, prefix: int, x: int, p: int, y: int, d: int, tail: int, weight: int)
    requires whole == prefix * 10 + d && prefix == x * p + y
    requires tail == y * 10 + d && weight == p * 10
    ensures whole == x * weight + tail
  {
  }

  /** The notation of `n` has at most `k` digits exactly when `n` is below `10^k`: the
      length grows by one at each power of ten. */
  lemma {:induction false} NatToStringLength(n: nat, k: nat)
    requires k >= 1
    ensures n < Pow10(k) <==> |NatToString(n)| <= k
  {
    assert Pow10(k) == 10 * Pow10(k - 1);
    if n >= 10 && k >= 2 {
      assert Pow10(k - 1) == 10 * Pow10(k - 2);
      assert n < Pow10(k) <==> n / 10 < Pow10(k - 1);
      NatToStringLength(n / 10, k - 1);
    }
  }

  /** The digits of a digit string followed by a non-digit are the digit string. */
  lemma {:induction false} LeadingDigitsAppend(a: string, b: string)
    requires AllDigits(a) && (b == [] || !IsDigit(b[0]))
    ensures LeadingDigits(a + b) == a
  {
    if |a| > 0 {
      assert (a + b)[1..] == a[1..] + b;
      LeadingDigitsAppend(a[1..], b);
    }
  }

  /** A whole number's notation reads back as that number. */
  lemma ParseUnsignedWhole(n: nat)
    ensures ParseUnsigned(NatToString(n)) == Some(Decimal(n, 0))
  {
    var whole := NatToString(n);
    LeadingDigitsOfDigits(whole);
    DigitsValueOfNatToString(n);
    assert whole[|whole|..] == [];
  }

  /** A whole part, a point and `e` padded fractional digits read back as `q + r / 10^e`. */
  lemma {:induction false} ParseUnsignedFraction(q: nat, r: nat, e: nat, m: nat)
    requires e >= 1 && r < Pow10(e) && m == q * Pow10(e) + r
    ensures ParseUnsigned(NatToString(q) + ("." + ZeroPadLeft(NatToString(r), e))) == Some(Decimal(m, e))
  {
    var whole := NatToString(q);
    var pad := ZeroPadLeft(NatToString(r), e);
    assert AllDigits(whole) && |whole| >= 1 && DigitsValue(whole) == q by {
      DigitsValueOfNatToString(q);
    }
    assert AllDigits(pad) && |pad| == e && DigitsValue(pad) == r by {
      NatToStringLength(r, e);
      ZeroPadNatRoundTrip(r, e);
    }
    var v := DigitsValue(whole + pad) by { DigitsValueAppend(whole, pad); }
    assert ParseUnsigned(whole + ("." + pad)) == Some(Decimal(v, e)) by {
      ParseUnsignedPointed(whole, pad);
    }
    assert v == m by {
      DigitsValueAppend(whole, pad);
    }
  }

  /** Digits, a point and more digits read as the digits run together, scaled. */
  lemma ParseUnsignedPointed(whole: string, frac: string)
    requires AllDigits(whole) && AllDigits(frac) && |whole| >= 1
    ensures AllDigits(whole + frac)
    ensures ParseUnsigned(whole + ("." + frac)) == Some(Decimal(DigitsValue(whole + frac), |frac|))
  {
    var rest := "." + frac;
    var s := whole + rest;
    LeadingDigitsAppend(whole, rest);
    assert s[|whole|..] == rest;
    assert rest[1..] == frac;
    assert AllDigits(whole + frac);
  }

  /** Reading the notation of an unsigned decimal gives the decimal back. */
  lemma ParseUnsignedOfFormat(m: nat, e: nat)
    ensures ParseUnsigned(FormatUnsigned(m, e)) == Some(Decimal(m, e))
  {
    var (q, r) := DivMod(m, Pow10(e));
    if e == 0 {
      assert q == m;
      assert FormatUnsigned(m, e) == NatToString(m);
      ParseUnsignedWhole(m);
    } else {
      ParseUnsignedFraction(q, r, e, m);
    }
  }

  /** Reading the canonical notation of a decimal gives the decimal back. */
  lemma ParseFormatRoundTrip(d: Decimal)
    ensures ParseDecimal(FormatDecimal(d)) == Some(d)
  {
    if d.mantissa < 0 {
      RoundTripNegative(d);
    } else {
      RoundTripNonNegative(d);
    }
  }

  /** A whole number's notation is read as that whole number. */
  lemma ParseNatToString(n: nat)
    ensures ParseDecimal(NatToString(n)) == Some(Decimal(n, 0))
  {
    WholeNotation(n);
    ParseFormatRoundTrip(Decimal(n, 0));
  }

  lemma WholeNotation(n: nat)
    ensures FormatDecimal(Decimal(n, 0)) == NatToString(n)
  {
    assert DivMod(n, Pow10(0)) == (n, 0);
    assert FormatUnsigned(n, 0) == NatToString(n);
  }

  lemma RoundTripNegative(d: Decimal)
    requires d.mantissa < 0
    ensures ParseDecimal(FormatDecimal(d)) == Some(d)
  {
    var x := Decimal(-d.mantissa, d.exp);
    var u := FormatUnsigned(x.mantissa, x.exp);
    assert FormatDecimal(d) == "-" + u;
    UnsignedNotation(x.mantissa, x.exp);
    ParseNegative(u, x);
    var y := Decimal(-x.mantissa, x.exp);
    assert ParseDecimal("-" + u) == Some(y);
    assert y == d;
  }

  lemma RoundTripNonNegative(d: Decimal)
    requires d.mantissa >= 0
    ensures ParseDecimal(FormatDecimal(d)) == Some(d)
  {
    var m: nat := d.mantissa;
    var u := FormatUnsigned(m, d.exp);
    assert FormatDecimal(d) == u by {
      assert "" + u == u;
    }
    assert ParseDecimal(u) == Some(d) by {
      UnsignedNotation(m, d.exp);
      ParsePositive(u, Decimal(m, d.exp));
    }
  }

  /** The notation of an unsigned decimal is digit-led, digit-ended and reads back. */
  lemma UnsignedNotation(m: nat, e: nat)
    ensures var u := FormatUnsigned(m, e);
      |u| >= 1 && IsDigit(u[0]) && IsDigit(u[|u| - 1]) && ParseUnsigned(u) == Some(Decimal(m, e))
  {
    UnsignedNotationEnds(m, e);
    ParseUnsignedOfFormat(m, e);
  }

  /** A digit-led, digit-ended unsigned notation parses to its value. */
  lemma ParsePositive(u: string, x: Decimal)
    requires |u| >= 1 && IsDigit(u[0]) && IsDigit(u[|u| - 1])
    requires ParseUnsigned(u) == Some(x)
    ensures ParseDecimal(u) == Some(x)
  {
    assert DropTrailingSpace(SkipLeadingSpace(u)) == u by {
      Untrimmed(u);
    }
  }

  /** The same notation after a minus sign parses to its negation. */
  lemma ParseNegative(u: string, x: Decimal)
    requires |u| >= 1 && IsDigit(u[0]) && IsDigit(u[|u| - 1])
    requires ParseUnsigned(u) == Some(x)
    ensures ParseDecimal("-" + u) == Some(Decimal(-x.mantissa, x.exp))
  {
    MinusUntrimmed(u);
    ParseSignedMinus(u, x);
  }

  lemma ParseSignedMinus(u: string, x: Decimal)
    requires ParseUnsigned(u) == Some(x)
    ensures ParseSigned("-" + u) == Some(Decimal(-x.mantissa, x.exp))
  {
    assert ("-" + u)[1..] == u;
  }

  lemma MinusUntrimmed(u: string)
    requires |u| >= 1 && IsDigit(u[|u| - 1])
    ensures DropTrailingSpace(SkipLeadingSpace("-" + u)) == "-" + u
  {
    MinusEnds(u);
    Untrimmed("-" + u);
  }

  lemma MinusEnds(u: string)
    requires |u| >= 1 && IsDigit(u[|u| - 1])
    ensures var f := "-" + u; |f| >= 1 && !IsLeadingSpace(f[0]) && !IsLeadingSpace(f[|f| - 1])
  {
    LastAfterPrefix("-", u);
    DigitIsNotSpace(u[|u| - 1]);
  }

  lemma LastAfterPrefix(p: string, u: string)
    requires |u| >= 1
    ensures (p + u)[|p + u| - 1] == u[|u| - 1]
  {
  }

  lemma DigitIsNotSpace(c: char)
    requires IsDigit(c)
    ensures !IsLeadingSpace(c)
  {
  }

  /** A string that neither starts nor ends with whitespace is left as it is. */
  lemma Untrimmed(f: string)
    requires |f| >= 1 && !IsLeadingSpace(f[0]) && !IsLeadingSpace(f[|f| - 1])
    ensures DropTrailingSpace(SkipLeadingSpace(f)) == f
  {
  }

  /** The notation of an unsigned decimal starts and ends with a digit. */
  lemma UnsignedNotationEnds(m: nat, e: nat)
    ensures var u := FormatUnsigned(m, e); |u| >= 1 && IsDigit(u[0]) && IsDigit(u[|u| - 1])
  {
    var (q, r) := DivMod(m, Pow10(e));
    if e > 0 {
      ZeroPadNatRoundTrip(r, e);
      NatToStringLength(r, e);
    }
  }
}

=== FILE: property.dfy ===
/** The `Property` model: one stored listing, its derived price per square foot, the query
    scopes, the address accessors and the feature-list helpers (app/Models/Property.php). */
module PropertyModel {
  import opened Wrappers
  import opened Numbers
  import opened Text
  import opened Json

  /** One row of the `properties` table as the model reads it back.

      Money (`price`, `pricePerSqft`, `monthlyRent`, `propertyTaxes`, `lotSize`) is integer
      hundredths, the scale of the `decimal(_, 2)` columns; `latitude` and `longitude` are
      integer units of 1e-8 degree. `status` and the three flags are NOT NULL columns with
      defaults; every other column is nullable. Timestamps are opaque instants. */
  datatype Property = Property(
    id: int,
    title: Option<string>,
    description: Option<string>,
    address: Option<string>,
    city: Option<string>,
    state: Option<string>,
    zipCode: Option<string>,
    latitude: Option<int>,
    longitude: Option<int>,
    squareFeet: Option<int>,
    bedrooms: Option<int>,
    bathrooms: Option<int>,
    floors: Option<int>,
    price: Option<int>,
    pricePerSqft: Option<int>,
    monthlyRent: Option<int>,
    propertyTaxes: Option<int>,
    propertyType: Option<string>,
    status: string,
    yearBuilt: Option<int>,
    lotSize: Option<int>,
    garageSpaces: Option<int>,
    hasBasement: bool,
    hasPool: bool,
    hasGarden: bool,
    features: Option<seq<string>>,
    metadata: Option<Value>,
    userId: Option<int>,
    createdAt: Option<int>,
    updatedAt: Option<int>)

  // ---------------------------------------------------------------------------
  // Derived field: price per square foot
  // ---------------------------------------------------------------------------

  /** How PHP judges `$this->price` in a condition. The `decimal:2` cast reads every
      non-null price back as a string with two decimals ("0.00" for zero), and PHP treats
      such a string as true, so a stored price is truthy exactly when it is not null. */
  predicate PriceIsTruthy(price: Option<int>) {
    price.Some?
  }

  /** How PHP judges `$this->square_feet` (an uncast integer) in a condition. */
  predicate SquareFeetIsTruthy(squareFeet: Option<int>) {
    squareFeet.Some? && squareFeet.value != 0
  }

  /** The derived-field invariant: when the price is set and the area is positive, the
      stored price per square foot is their quotient rounded half-up to the cent. */
  predicate PricePerSqftConsistent(p: Property) {
    p.price.Some? && p.squareFeet.Some? && p.squareFeet.value > 0 ==>
      p.pricePerSqft.Some? && IsRoundedQuotient(p.pricePerSqft.value, p.price.value, p.squareFeet.value)
  }

  /** `save()`: a row whose attributes changed is written and its `updated_at` moves to
      `now`; an unchanged row is not written at all. */
  function Save(before: Property, after: Property, now: int): (r: Property)
    ensures r.(updatedAt := after.updatedAt) == after
    ensures after == before ==> r == before
    ensures after != before ==> r.updatedAt == Some(now)
  {
    if after == before then before else after.(updatedAt := Some(now))
  }

  /** Whether `calculatePricePerSqft()` assigns: a truthy price and a truthy, positive area. */
  predicate RecomputeApplies(p: Property) {
    PriceIsTruthy(p.price) && SquareFeetIsTruthy(p.squareFeet) && p.squareFeet.value > 0
  }

  /** The assignment inside `calculatePricePerSqft()`, before the save. The quotient is
      computed exactly and rounded to the cent, as the `decimal:2` cast and column do. */
  function AssignPricePerSqft(p: Property): (r: Property)
    requires RecomputeApplies(p)
    ensures PricePerSqftConsistent(r)
    ensures r.(pricePerSqft := p.pricePerSqft) == p
  {
    p.(pricePerSqft := Some(RoundHalfUpDiv(p.price.value, p.squareFeet.value)))
  }

  /** `calculatePricePerSqft()`: sets the price per square foot from a truthy price and a
      positive area and saves the row, which stamps `updated_at` when the value changed;
      otherwise the row is left as it is. */
  function CalculatePricePerSqft(p: Property, now: int): (r: Property)
    ensures PricePerSqftConsistent(r)
    ensures r.(pricePerSqft := p.pricePerSqft, updatedAt := p.updatedAt) == p
    ensures !RecomputeApplies(p) ==> r == p
    ensures r.pricePerSqft == p.pricePerSqft ==> r == p
    ensures r != p ==> r.updatedAt == Some(now)
  {
    if RecomputeApplies(p) then Save(p, AssignPricePerSqft(p), now) else p
  }

  /** Recomputing twice changes nothing more than recomputing once, even at a later
      instant. */
  lemma {:induction false} CalculatePricePerSqftIdempotent(p: Property, now: int, later: int)
    ensures CalculatePricePerSqft(CalculatePricePerSqft(p, now), later) == CalculatePricePerSqft(p, now)
  {
    CalculatePricePerSqftFixesConsistent(CalculatePricePerSqft(p, now), later);
  }

  /** A row that already satisfies the invariant is a fixed point of the recompute: the
      rounded quotient is unique, so the row is not dirty and `save()` writes nothing. */
  lemma {:induction false} CalculatePricePerSqftFixesConsistent(p: Property, now: int)
    requires PricePerSqftConsistent(p)
    ensures CalculatePricePerSqft(p, now) == p
  {
    if RecomputeApplies(p) {
      RoundHalfUpDivUnique(p.price.value, p.squareFeet.value, p.pricePerSqft.value);
      assert AssignPricePerSqft(p) == p;
    }
  }

  // ---------------------------------------------------------------------------
  // Query scopes, as row predicates
  // ---------------------------------------------------------------------------

  /** `scopeOfType`: `property_type = $type`; a NULL type never matches. */
  predicate OfType(p: Property, propertyType: string) {
    p.propertyType == Some(propertyType)
  }

  /** `scopeWithStatus`: `status = $status`. */
  predicate WithStatus(p: Property, status: string) {
    p.status == status
  }

  /** `scopeWithBedrooms`: a minimum, `bedrooms >= $n`; a NULL count never matches. */
  predicate WithBedrooms(p: Property, n: int) {
    p.bedrooms.Some? && p.bedrooms.value >= n
  }

  /** `scopeWithBathrooms`: a minimum, `bathrooms >= $n`; a NULL count never matches. */
  predicate WithBathrooms(p: Property, n: int) {
    p.bathrooms.Some? && p.bathrooms.value >= n
  }

  /** A `?float` bound is applied only when PHP finds it truthy: present and non-zero. */
  predicate BoundIsTruthy(bound: Option<Decimal>) {
    bound.Some? && !IsZero(bound.value)
  }

  /** `scopeInPriceRange`: `price >= $min` when `$min` is truthy and `price <= $max` when
      `$max` is truthy; a NULL price fails any bound that is applied. */
  predicate InPriceRange(p: Property, minPrice: Option<Decimal>, maxPrice: Option<Decimal>) {
    && (BoundIsTruthy(minPrice) ==> p.price.Some? && Le(minPrice.value, Scaled(p.price.value, 2)))
    && (BoundIsTruthy(maxPrice) ==> p.price.Some? && Le(Scaled(p.price.value, 2), maxPrice.value))
  }

  /** `scopeInCity`: `city LIKE '%$city%'`, case-insensitive; a NULL city never matches. */
  predicate InCity(p: Property, city: string) {
    p.city.Some? && ContainsIgnoreCase(p.city.value, city)
  }

  /** With two truthy bounds the price scope is the closed interval between them, read as
      values rather than as scaled integers. */
  lemma InPriceRangeBetween(p: Property, minPrice: Decimal, maxPrice: Decimal)
    requires !IsZero(minPrice) && !IsZero(maxPrice)
    ensures InPriceRange(p, Some(minPrice), Some(maxPrice)) <==>
      p.price.Some? && RealValue(minPrice) <= RealValue(Scaled(p.price.value, 2)) <= RealValue(maxPrice)
  {
    if p.price.Some? {
      LeIsValueOrder(minPrice, Scaled(p.price.value, 2));
      LeIsValueOrder(Scaled(p.price.value, 2), maxPrice);
    }
  }

  // ---------------------------------------------------------------------------
  // Address accessors
  // ---------------------------------------------------------------------------

  /** What `array_filter` drops: null, "" and "0". */
  predicate IsFalsy(part: Option<string>) {
    part.None? || part.value == "" || part.value == "0"
  }

  /** The four address parts in the order the accessor lists them. */
  function AddressParts(p: Property): seq<Option<string>> {
    [p.address, p.city, p.state, p.zipCode]
  }

  /** `array_filter` over the parts: the non-falsy ones, in order. */
  function KeptParts(parts: seq<Option<string>>): (r: seq<string>)
    ensures |r| <= |parts|
    ensures forall i :: 0 <= i < |r| ==> r[i] != "" && r[i] != "0"
    ensures forall i :: 0 <= i < |parts| && !IsFalsy(parts[i]) ==> parts[i].value in r
    ensures forall s :: s in r ==> Some(s) in parts
    ensures |r| == 0 <==> forall i :: 0 <= i < |parts| ==> IsFalsy(parts[i])
  {
    if |parts| == 0 then []
    else if IsFalsy(parts[0]) then KeptParts(parts[1..])
    else [parts[0].value] + KeptParts(parts[1..])
  }

  /** `getFullAddressAttribute()`: the non-falsy parts joined with ", ". */
  function FullAddress(p: Property): string {
    Join(KeptParts(AddressParts(p)), ", ")
  }

  lemma {:induction false} JoinNonEmpty(parts: seq<string>, sep: string)
    requires |parts| >= 1 && parts[0] != ""
    ensures Join(parts, sep) != ""
  {
    if |parts| > 1 {
      assert Join(parts, sep)[0] == parts[0][0];
    }
  }

  /** The full address is empty exactly when every part is falsy. */
  lemma FullAddressEmptyIff(p: Property)
    ensures FullAddress(p) == "" <==> forall i :: 0 <= i < 4 ==> IsFalsy(AddressParts(p)[i])
  {
    var kept := KeptParts(AddressParts(p));
    if |kept| > 0 {
      JoinNonEmpty(kept, ", ");
    }
  }

  /** Splitting the full address at ", " gives back exactly the non-falsy parts, in order,
      as long as no part itself contains a comma: no separator is leading, trailing or
      doubled. */
  lemma FullAddressSplits(p: Property)
    requires exists i :: 0 <= i < 4 && !IsFalsy(AddressParts(p)[i])
    requires forall i :: 0 <= i < 4 && AddressParts(p)[i].Some? ==> ',' !in AddressParts(p)[i].value
    ensures SplitCommaSpace(FullAddress(p)) == KeptParts(AddressParts(p))
  {
    var kept := KeptParts(AddressParts(p));
    forall i | 0 <= i < |kept|
      ensures ',' !in kept[i]
    {
      assert Some(kept[i]) in AddressParts(p);
    }
    SplitJoinRoundTrip(kept);
  }

  /** `getFormattedZipCodeAttribute()`: "" for a falsy zip code, the zip code itself when
      it already contains '-', and otherwise the configured prefix in front of it. */
  function FormattedZipCode(zipCode: Option<string>, prefix: string): (r: string)
    ensures IsFalsy(zipCode) ==> r == ""
    ensures !IsFalsy(zipCode) ==> |zipCode.value| <= |r| && r[|r| - |zipCode.value|..] == zipCode.value
    ensures !IsFalsy(zipCode) && '-' in prefix ==> '-' in r
    ensures !IsFalsy(zipCode) && '-' in zipCode.value ==> r == zipCode.value
    ensures !IsFalsy(zipCode) && '-' !in zipCode.value ==> r == prefix + zipCode.value
  {
    if IsFalsy(zipCode) then ""
    else if '-' in zipCode.value then zipCode.value
    else prefix + zipCode.value
  }

  /** Formatting is idempotent once the prefix carries the '-' marker: a formatted zip code
      is returned as it is. */
  lemma FormattedZipCodeIdempotent(zipCode: Option<string>, prefix: string)
    requires '-' in prefix
    requires !IsFalsy(zipCode)
    ensures FormattedZipCode(Some(FormattedZipCode(zipCode, prefix)), prefix) == FormattedZipCode(zipCode, prefix)
  {
    var r := FormattedZipCode(zipCode, prefix);
    if '-' !in zipCode.value {
      var k :| 0 <= k < |prefix| && prefix[k] == '-';
      assert r[k] == '-';
    }
  }

  // ---------------------------------------------------------------------------
  // Feature list
  // ---------------------------------------------------------------------------

  /** `$this->features ?? []`. */
  function FeatureList(p: Property): seq<string> {
    p.features.GetOr([])
  }

  predicate NoDuplicates(s: seq<string>) {
    forall i, j :: 0 <= i < j < |s| ==> s[i] != s[j]
  }

  /** `hasFeature($feature)`: membership in the list, a null list being empty. */
  predicate HasFeature(p: Property, feature: string) {
    feature in FeatureList(p)
  }

  /** `addFeature($feature)`: appends an absent feature at the end and saves, which stamps
      `updated_at`; a present one leaves the row unchanged. Nothing but the feature list
      and the stamp changes. */
  function AddFeature(p: Property, feature: string, now: int): (r: Property)
    ensures HasFeature(r, feature)
    ensures HasFeature(p, feature) ==> r == p
    ensures !HasFeature(p, feature) ==> FeatureList(r) == FeatureList(p) + [feature] && r.updatedAt == Some(now)
    ensures r.(features := p.features, updatedAt := p.updatedAt) == p
    ensures NoDuplicates(FeatureList(p)) ==> NoDuplicates(FeatureList(r))
  {
    if HasFeature(p, feature) then p
    else Save(p, p.(features := Some(FeatureList(p) + [feature])), now)
  }

  /** Adding the same feature again is a no-op. */
  lemma AddFeatureIdempotent(p: Property, feature: string, now: int, later: int)
    ensures AddFeature(AddFeature(p, feature, now), feature, later) == AddFeature(p, feature, now)
  {
  }

  /** The position of the first occurrence (`array_search`). */
  function FirstIndex(s: seq<string>, x: string): (i: nat)
    requires x in s
    ensures i < |s| && s[i] == x
    ensures forall j :: 0 <= j < i ==> s[j] != x
  {
    if s[0] == x then 0 else 1 + FirstIndex(s[1..], x)
  }

  /** Deleting position `i` of a list removes one copy of its element and, in a list
      without duplicates, every copy. */
  lemma DeleteAtFacts(s: seq<string>, i: nat)
    requires i < |s|
    ensures multiset(s[..i] + s[i + 1..]) == multiset(s) - multiset{s[i]}
    ensures NoDuplicates(s) ==> s[i] !in s[..i] + s[i + 1..] && NoDuplicates(s[..i] + s[i + 1..])
  {
    DeleteAtMultiset(s, i);
    if NoDuplicates(s) {
      DeleteAtNoDuplicates(s, i);
    }
  }

  lemma DeleteAtMultiset(s: seq<string>, i: nat)
    requires i < |s|
    ensures multiset(s[..i] + s[i + 1..]) == multiset(s) - multiset{s[i]}
  {
    assert s == s[..i] + [s[i]] + s[i + 1..];
  }

  lemma DeleteAtNoDuplicates(s: seq<string>, i: nat)
    requires i < |s| && NoDuplicates(s)
    ensures s[i] !in s[..i] + s[i + 1..] && NoDuplicates(s[..i] + s[i + 1..])
  {
    var t := s[..i] + s[i + 1..];
    assert forall k :: 0 <= k < |t| ==> t[k] == if k < i then s[k] else s[k + 1];
  }

  /** `removeFeature($feature)`: deletes the first occurrence, re-indexes the rest in order
      and saves, which stamps `updated_at`; an absent feature (or a null list) leaves the
      row unchanged. */
  function RemoveFeature(p: Property, feature: string, now: int): (r: Property)
    ensures !HasFeature(p, feature) ==> r == p
    ensures HasFeature(p, feature) ==>
      var s := FeatureList(p);
      var i := FirstIndex(s, feature);
      r.features == Some(s[..i] + s[i + 1..]) && r.updatedAt == Some(now)
    ensures multiset(FeatureList(r)) == multiset(FeatureList(p)) - multiset{feature}
    ensures r.(features := p.features, updatedAt := p.updatedAt) == p
    ensures NoDuplicates(FeatureList(p)) ==> !HasFeature(r, feature) && NoDuplicates(FeatureList(r))
  {
    if !HasFeature(p, feature) then p
    else
      var s := FeatureList(p);
      var i := FirstIndex(s, feature);
      DeleteAtFacts(s, i);
      Save(p, p.(features := Some(s[..i] + s[i + 1..])), now)
  }

  /** The first occurrence of an element appended to a list that lacked it is the end. */
  lemma FirstIndexOfAppended(s: seq<string>, x: string)
    requires x !in s
    ensures FirstIndex(s + [x], x) == |s|
  {
    assert (s + [x])[|s|] == x;
  }

  /** Removing a feature just added restores the previous list (a null list comes back as
      an empty one, the form `array_values` leaves behind); the row keeps the later stamp. */
  lemma {:induction false} RemoveAfterAdd(p: Property, feature: string, now: int, later: int)
    requires !HasFeature(p, feature)
    ensures RemoveFeature(AddFeature(p, feature, now), feature, later)
      == p.(features := Some(FeatureList(p)), updatedAt := Some(later))
  {
    var s := FeatureList(p);
    FirstIndexOfAppended(s, feature);
    assert (s + [feature])[..|s|] + (s + [feature])[|s| + 1..] == s;
  }
}

=== FILE: resource.dfy ===
/** `PropertyResource` and `PropertyCollection`: how a stored row is regrouped for the JSON
    response, and the envelope of a listing page.

    Values keep the model's representation: money stays in hundredths, coordinates in units
    of 1e-8 degree and timestamps are opaque instants (their decimal-string and ISO-8601
    renderings are not modelled). */
module Resource {
  import opened Wrappers
  import opened Json
  import opened PropertyModel
  import Listing

  /** The `address` group; `fullAddress` is the model's `full_address` accessor. */
  datatype AddressView = AddressView(
    street: Option<string>, city: Option<string>, state: Option<string>,
    zipCode: Option<string>, fullAddress: string)

  /** The `coordinates` group. */
  datatype CoordinatesView = CoordinatesView(latitude: Option<int>, longitude: Option<int>)

  /** The `property_details` group. */
  datatype DetailsView = DetailsView(
    squareFeet: Option<int>, bedrooms: Option<int>, bathrooms: Option<int>, floors: Option<int>,
    propertyType: Option<string>, yearBuilt: Option<int>, lotSize: Option<int>, garageSpaces: Option<int>)

  /** The `amenities` group; a null feature list is shown as `[]`. */
  datatype AmenitiesView = AmenitiesView(hasBasement: bool, hasPool: bool, hasGarden: bool, features: seq<string>)

  /** The `financial` group. */
  datatype FinancialView = FinancialView(
    price: Option<int>, pricePerSqft: Option<int>, monthlyRent: Option<int>, propertyTaxes: Option<int>)

  /** The columns of `users` the resource shows. */
  datatype User = User(id: int, name: string, email: string)

  /** The `user` relation of a row: not loaded, or loaded with the owner or with null. */
  datatype Relation = NotLoaded | Loaded(user: Option<User>)

  /** `whenLoaded('user', ...)`: the key is left out when the relation is not loaded, is
      null when the loaded owner is null, and otherwise holds the owner's id, name and
      email. */
  datatype OwnerField = Omitted | Present(owner: Option<User>)

  /** `PropertyResource::toArray`. */
  datatype PropertyView = PropertyView(
    id: int,
    title: Option<string>,
    description: Option<string>,
    address: AddressView,
    coordinates: CoordinatesView,
    details: DetailsView,
    amenities: AmenitiesView,
    financial: FinancialView,
    status: string,
    metadata: Value,
    owner: OwnerField,
    createdAt: Option<int>,
    updatedAt: Option<int>)

  /** The owner field for a relation. */
  function OwnerOf(relation: Relation): (r: OwnerField)
    ensures r.Omitted? <==> relation.NotLoaded?
    ensures relation.Loaded? ==> r == Present(relation.user)
  {
    match relation
    case NotLoaded => Omitted
    case Loaded(user) => Present(user)
  }

  /** Regroup a row for the response. */
  function Shape(p: Property, relation: Relation): (r: PropertyView)
    ensures r.address.fullAddress == FullAddress(p)
    ensures r.amenities.features == (if p.features.Some? then p.features.value else [])
    ensures r.metadata == (if p.metadata.Some? then p.metadata.value else EmptyArray)
    ensures r.owner.Omitted? <==> relation.NotLoaded?
    ensures relation.Loaded? ==> r.owner == Present(relation.user)
    ensures p.createdAt.None? ==> r.createdAt.None?
    ensures p.updatedAt.None? ==> r.updatedAt.None?
  {
    PropertyView(
      p.id, p.title, p.description,
      AddressView(p.address, p.city, p.state, p.zipCode, FullAddress(p)),
      CoordinatesView(p.latitude, p.longitude),
      DetailsView(p.squareFeet, p.bedrooms, p.bathrooms, p.floors, p.propertyType, p.yearBuilt,
                  p.lotSize, p.garageSpaces),
      AmenitiesView(p.hasBasement, p.hasPool, p.hasGarden, FeatureList(p)),
      FinancialView(p.price, p.pricePerSqft, p.monthlyRent, p.propertyTaxes),
      p.status,
      p.metadata.GetOr(EmptyArray),
      OwnerOf(relation),
      p.createdAt, p.updatedAt)
  }

  /** The row a view was shaped from, read back group by group. The user id is not part of
      the view, so it is taken as a parameter. */
  function Unshape(v: PropertyView, userId: Option<int>): Property {
    Property(
      v.id, v.title, v.description,
      v.address.street, v.address.city, v.address.state, v.address.zipCode,
      v.coordinates.latitude, v.coordinates.longitude,
      v.details.squareFeet, v.details.bedrooms, v.details.bathrooms, v.details.floors,
      v.financial.price, v.financial.pricePerSqft, v.financial.monthlyRent, v.financial.propertyTaxes,
      v.details.propertyType, v.status, v.details.yearBuilt, v.details.lotSize, v.details.garageSpaces,
      v.amenities.hasBasement, v.amenities.hasPool, v.amenities.hasGarden,
      Some(v.amenities.features), Some(v.metadata),
      userId, v.createdAt, v.updatedAt)
  }

  /** A row with a null feature list and null metadata replaced by the empty values the
      resource shows for them. */
  function Normalized(p: Property): (r: Property)
    ensures r.features.Some? && r.metadata.Some?
    ensures p.features.Some? && p.metadata.Some? ==> r == p
    ensures r.(features := p.features, metadata := p.metadata) == p
  {
    p.(features := Some(FeatureList(p)), metadata := Some(p.metadata.GetOr(EmptyArray)))
  }

  /** Shaping is a pure regrouping: reading the view back gives the row, up to the empty
      value shown for a null feature list or null metadata. */
  lemma ShapeRoundTrip(p: Property, relation: Relation)
    ensures Unshape(Shape(p, relation), p.userId) == Normalized(p)
  {
  }

  /** Replacing null features or metadata with their empty values does not change the
      view. */
  lemma ShapeOfNormalized(p: Property, relation: Relation)
    ensures Shape(Normalized(p), relation) == Shape(p, relation)
  {
    assert FullAddress(Normalized(p)) == FullAddress(p) by {
      assert AddressParts(Normalized(p)) == AddressParts(p);
    }
  }

  /** Two rows with the same owner column have the same view exactly when they agree after
      normalization: no column is lost or merged by the regrouping. */
  lemma ShapeInjective(p: Property, q: Property, relation: Relation)
    requires p.userId == q.userId
    ensures Shape(p, relation) == Shape(q, relation) <==> Normalized(p) == Normalized(q)
  {
    ShapeRoundTrip(p, relation);
    ShapeRoundTrip(q, relation);
    if Normalized(p) == Normalized(q) {
      ShapeOfNormalized(p, relation);
      ShapeOfNormalized(q, relation);
    }
  }

  // ---------------------------------------------------------------------------
  // PropertyCollection
  // ---------------------------------------------------------------------------

  /** The request keys echoed back under `meta.filters`. */
  const FilterNames: seq<string> := ["city", "property_type", "status", "min_price", "max_price", "bedrooms", "bathrooms"]

  /** `$request->only($keys)`: the listed keys present in the request, values unchanged. */
  function Only(q: Listing.Query, keys: seq<string>): (r: Listing.Query)
    ensures r.Keys <= q.Keys
    ensures forall k :: k in r <==> k in q && k in keys
    ensures forall k :: k in r ==> r[k] == q[k]
  {
    map k | k in q.Keys && k in keys :: q[k]
  }

  /** The `meta` of a page. */
  datatype Meta = Meta(total: nat, filters: Listing.Query)

  /** A listing page: `data`, `meta`, and `links.self` from `with()`. */
  datatype CollectionView = CollectionView(data: seq<PropertyView>, meta: Meta, selfLink: string)

  /** `route('api.properties.index')` on the application's base URL. */
  function IndexRoute(appUrl: string): string {
    appUrl + "/api/properties"
  }

  /** `PropertyCollection::toArray` with `with()`, for a page of rows and their loaded
      relations. */
  function Collection(page: seq<Property>, relations: seq<Relation>, q: Listing.Query, appUrl: string): (r: CollectionView)
    requires |relations| == |page|
    ensures |r.data| == |page| == r.meta.total
    ensures forall i :: 0 <= i < |page| ==> r.data[i] == Shape(page[i], relations[i])
    ensures r.meta.filters == Only(q, FilterNames)
  {
    CollectionView(
      seq(|page|, i requires 0 <= i < |page| => Shape(page[i], relations[i])),
      Meta(|page|, Only(q, FilterNames)),
      IndexRoute(appUrl))
  }

  /** Every item of a page reads back as its row, in page order. */
  lemma CollectionRoundTrip(page: seq<Property>, relations: seq<Relation>, q: Listing.Query, appUrl: string)
    requires |relations| == |page|
    ensures var data := Collection(page, relations, q, appUrl).data;
      forall i :: 0 <= i < |page| ==> Unshape(data[i], page[i].userId) == Normalized(page[i])
  {
    var data := Collection(page, relations, q, appUrl).data;
    forall i | 0 <= i < |page|
      ensures Unshape(data[i], page[i].userId) == Normalized(page[i])
    {
      ShapeRoundTrip(page[i], relations[i]);
    }
  }

  /** `meta.filters` echoes exactly the filter names the request carries. */
  lemma FiltersEchoRequest(page: seq<Property>, relations: seq<Relation>, q: Listing.Query, appUrl: string, key: string)
    requires |relations| == |page|
    ensures var f := Collection(page, relations, q, appUrl).meta.filters;
      (key in f <==> key in q && key in FilterNames) && (key in f ==> f[key] == q[key])
  {
  }

  /** `links.self` depends on neither the page nor the request. */
  lemma SelfLinkIsFixed(page: seq<Property>, relations: seq<Relation>, q: Listing.Query,
                        page': seq<Property>, relations': seq<Relation>, q': Listing.Query, appUrl: string)
    requires |relations| == |page| && |relations'| == |page'|
    ensures Collection(page, relations, q, appUrl).selfLink == Collection(page', relations', q', appUrl).selfLink
    ensures Collection(page, relations, q, appUrl).selfLink == appUrl + "/api/properties"
  {
  }
}

=== FILE: stats.dfy ===
/** `GET /api/properties/stats`: the row count, the rows in three statuses, and the number
    of rows per property type. The three averages (SQL `avg`) are not modelled. */
module Stats {
  import opened Wrappers
  import opened PropertyModel
  import Validation
  import Crud

  /** `Property::withStatus($status)->count()`. */
  function CountStatus(rows: seq<Property>, status: string): (r: nat)
    ensures r <= |rows|
  {
    if rows == [] then 0
    else CountStatus(rows[..|rows| - 1], status) + (if WithStatus(rows[|rows| - 1], status) then 1 else 0)
  }

  /** The rows whose status is one of `statuses`. */
  function CountAmong(rows: seq<Property>, statuses: set<string>): (r: nat)
    ensures r <= |rows|
  {
    if rows == [] then 0
    else CountAmong(rows[..|rows| - 1], statuses) + (if rows[|rows| - 1].status in statuses then 1 else 0)
  }

  /** `Property::ofType($type)->count()`. */
  function CountType(rows: seq<Property>, propertyType: string): (r: nat)
    ensures r <= |rows|
  {
    if rows == [] then 0
    else CountType(rows[..|rows| - 1], propertyType) + (if OfType(rows[|rows| - 1], propertyType) then 1 else 0)
  }

  /** `Property::whereNotNull('property_type')->count()`. */
  function CountTyped(rows: seq<Property>): (r: nat)
    ensures r <= |rows|
  {
    if rows == [] then 0
    else CountTyped(rows[..|rows| - 1]) + (if rows[|rows| - 1].propertyType.Some? then 1 else 0)
  }

  /** The statuses of the rows, in row order. */
  function StatusList(rows: seq<Property>): seq<string> {
    seq(|rows|, i requires 0 <= i < |rows| => rows[i].status)
  }

  /** A status count is the number of occurrences of that status among the rows. */
  lemma {:induction false} CountStatusIsOccurrences(rows: seq<Property>, status: string)
    ensures CountStatus(rows, status) == multiset(StatusList(rows))[status]
  {
    if rows != [] {
      var init := rows[..|rows| - 1];
      CountStatusIsOccurrences(init, status);
      assert StatusList(rows) == StatusList(init) + [rows[|rows| - 1].status];
    }
  }

  /** Counting a status over two tables is counting it over each. */
  lemma CountStatusAppend(a: seq<Property>, b: seq<Property>, status: string)
    ensures CountStatus(a + b, status) == CountStatus(a, status) + CountStatus(b, status)
  {
    CountStatusIsOccurrences(a + b, status);
    CountStatusIsOccurrences(a, status);
    CountStatusIsOccurrences(b, status);
    assert StatusList(a + b) == StatusList(a) + StatusList(b);
  }

  /** A status no row has is counted zero times. */
  lemma {:induction false} CountStatusAbsent(rows: seq<Property>, status: string)
    requires forall i :: 0 <= i < |rows| ==> rows[i].status != status
    ensures CountStatus(rows, status) == 0
  {
    if rows != [] {
      CountStatusAbsent(rows[..|rows| - 1], status);
    }
  }

  /** A status whose every row has it is counted once per row. */
  lemma {:induction false} CountStatusAll(rows: seq<Property>, status: string)
    requires forall i :: 0 <= i < |rows| ==> rows[i].status == status
    ensures CountStatus(rows, status) == |rows|
  {
    if rows != [] {
      CountStatusAll(rows[..|rows| - 1], status);
    }
  }

  /** Adding one more status to a set adds its own count. */
  lemma {:induction false} CountAmongAdd(rows: seq<Property>, statuses: set<string>, status: string)
    requires status !in statuses
    ensures CountAmong(rows, statuses + {status}) == CountAmong(rows, statuses) + CountStatus(rows, status)
  {
    if rows != [] {
      CountAmongAdd(rows[..|rows| - 1], statuses, status);
    }
  }

  /** No status counts nothing; a set holding every row's status counts every row. */
  lemma {:induction false} CountAmongBounds(rows: seq<Property>, statuses: set<string>)
    ensures CountAmong(rows, {}) == 0
    ensures (forall i :: 0 <= i < |rows| ==> rows[i].status in statuses) ==> CountAmong(rows, statuses) == |rows|
  {
    if rows != [] {
      CountAmongBounds(rows[..|rows| - 1], statuses);
    }
  }

  /** The counts of distinct statuses add up to the rows in any of them. */
  lemma DistinctStatusCounts(rows: seq<Property>, a: string, b: string, c: string)
    requires a != b && b != c && a != c
    ensures CountStatus(rows, a) + CountStatus(rows, b) + CountStatus(rows, c) == CountAmong(rows, {a, b, c})
  {
    CountAmongBounds(rows, {});
    CountAmongAdd(rows, {}, a);
    assert {} + {a} == {a};
    CountAmongAdd(rows, {a}, b);
    assert {a} + {b} == {a, b};
    CountAmongAdd(rows, {a, b}, c);
    assert {a, b} + {c} == {a, b, c};
  }

  // ---------------------------------------------------------------------------
  // per-type counts: `selectRaw(property_type, COUNT(*))->groupBy(property_type)`
  // ---------------------------------------------------------------------------

  /** A grouped count: each key with its number of rows. */
  type Tally = seq<(string, nat)>

  /** The keys listed. */
  function KeySet(t: Tally): set<string> {
    if t == [] then {} else {t[0].0} + KeySet(t[1..])
  }

  /** No key is listed twice. */
  predicate DistinctKeys(t: Tally) {
    t == [] || (t[0].0 !in KeySet(t[1..]) && DistinctKeys(t[1..]))
  }

  /** Every listed count is at least one: a group exists only for a key that occurs. */
  predicate PositiveCounts(t: Tally) {
    forall i :: 0 <= i < |t| ==> t[i].1 >= 1
  }

  /** The count listed for `key`, or 0 when it is not listed (`pluck` keyed by type). */
  function CountOf(t: Tally, key: string): nat {
    if t == [] then 0 else if t[0].0 == key then t[0].1 else CountOf(t[1..], key)
  }

  /** The sum of the listed counts. */
  function Total(t: Tally): nat {
    if t == [] then 0 else t[0].1 + Total(t[1..])
  }

  /** One more row with `key`: its count goes up by one, or it is listed last with 1. */
  function Bump(t: Tally, key: string): (r: Tally)
    ensures forall k :: CountOf(r, k) == CountOf(t, k) + (if k == key then 1 else 0)
    ensures Total(r) == Total(t) + 1
    ensures KeySet(r) == KeySet(t) + {key}
    ensures DistinctKeys(t) ==> DistinctKeys(r)
    ensures PositiveCounts(t) ==> PositiveCounts(r)
  {
    if t == [] then [(key, 1)]
    else if t[0].0 == key then
      var r := [(key, t[0].1 + 1)] + t[1..];
      assert r[1..] == t[1..];
      r
    else
      var rest := Bump(t[1..], key);
      var r := [t[0]] + rest;
      assert r[1..] == rest;
      r
  }

  /** The grouped count of a list of keys, each key listed once, in order of first
      appearance. */
  function TallyOf(keys: seq<string>): (r: Tally)
    ensures DistinctKeys(r) && PositiveCounts(r)
    ensures forall k :: CountOf(r, k) == multiset(keys)[k]
    ensures KeySet(r) == set k | k in keys
    ensures Total(r) == |keys|
  {
    if keys == [] then []
    else
      var init := keys[..|keys| - 1];
      assert keys == init + [keys[|keys| - 1]];
      Bump(TallyOf(init), keys[|keys| - 1])
  }

  /** The non-null property types of the rows, in row order. */
  function TypeList(rows: seq<Property>): (r: seq<string>)
    ensures forall t :: multiset(r)[t] == CountType(rows, t)
    ensures |r| == CountTyped(rows)
  {
    if rows == [] then []
    else
      var last := rows[|rows| - 1];
      var init := TypeList(rows[..|rows| - 1]);
      if last.propertyType.Some? then init + [last.propertyType.value] else init
  }

  // ---------------------------------------------------------------------------
  // the response
  // ---------------------------------------------------------------------------

  /** The counts of the `stats` response. */
  datatype Summary = Summary(total: nat, available: nat, sold: nat, rented: nat, propertyTypes: Tally)

  /** `stats` counting the three given status tokens. */
  function StatsWith(rows: seq<Property>, available: string, sold: string, rented: string): (r: Summary)
    ensures r.total == |rows|
    ensures r.available == CountStatus(rows, available) && r.sold == CountStatus(rows, sold)
    ensures r.rented == CountStatus(rows, rented)
    ensures forall t :: CountOf(r.propertyTypes, t) == CountType(rows, t)
    ensures DistinctKeys(r.propertyTypes) && PositiveCounts(r.propertyTypes)
    ensures Total(r.propertyTypes) == CountTyped(rows)
  {
    var types := TypeList(rows);
    Summary(|rows|, CountStatus(rows, available), CountStatus(rows, sold), CountStatus(rows, rented),
            TallyOf(types))
  }

  /** A type is counted at least once exactly when some row has it. */
  lemma {:induction false} TypeCountPositive(rows: seq<Property>, t: string)
    ensures CountType(rows, t) > 0 <==> exists i :: 0 <= i < |rows| && OfType(rows[i], t)
  {
    if rows != [] {
      var init := rows[..|rows| - 1];
      TypeCountPositive(init, t);
      if exists i :: 0 <= i < |init| && OfType(init[i], t) {
        var i :| 0 <= i < |init| && OfType(init[i], t);
        assert OfType(rows[i], t);
      }
      if exists i :: 0 <= i < |rows| && OfType(rows[i], t) {
        var i :| 0 <= i < |rows| && OfType(rows[i], t);
        if i < |init| { assert OfType(init[i], t); }
      }
    }
  }

  /** `stats` as written: the English tokens of the migration default. */
  function StatsAsWritten(rows: seq<Property>): Summary {
    StatsWith(rows, "available", "sold", "rented")
  }

  /** `stats` counting the tokens the validators accept for the same three states. */
  function StatsAsIntended(rows: seq<Property>): Summary {
    StatsWith(rows, "disponible", "vendida", "rentada")
  }

  /** The three status counts never exceed the total. */
  lemma StatusCountsBounded(rows: seq<Property>)
    ensures var s := StatsAsWritten(rows); s.available + s.sold + s.rented <= s.total
    ensures var s := StatsAsIntended(rows); s.available + s.sold + s.rented <= s.total
  {
    DistinctStatusCounts(rows, "available", "sold", "rented");
    DistinctStatusCounts(rows, "disponible", "vendida", "rentada");
  }

  /** The rows of the stats feature test: rows created available, then sold, then rented
      are counted in their groups. */
  lemma StatsOfGroupedRows(a: seq<Property>, b: seq<Property>, c: seq<Property>)
    requires forall i :: 0 <= i < |a| ==> a[i].status == "available"
    requires forall i :: 0 <= i < |b| ==> b[i].status == "sold"
    requires forall i :: 0 <= i < |c| ==> c[i].status == "rented"
    ensures var s := StatsAsWritten(a + b + c);
      s.total == |a| + |b| + |c| && s.available == |a| && s.sold == |b| && s.rented == |c|
  {
    GroupCount(a, b, c, "available");
    GroupCount(a, b, c, "sold");
    GroupCount(a, b, c, "rented");
    CountStatusAll(a, "available");
    CountStatusAll(b, "sold");
    CountStatusAll(c, "rented");
  }

  lemma GroupCount(a: seq<Property>, b: seq<Property>, c: seq<Property>, status: string)
    requires forall i :: 0 <= i < |a| ==> (a[i].status == status <==> status == "available")
    requires forall i :: 0 <= i < |b| ==> (b[i].status == status <==> status == "sold")
    requires forall i :: 0 <= i < |c| ==> (c[i].status == status <==> status == "rented")
    ensures CountStatus(a + b + c, status) == CountStatus(a, status) + CountStatus(b, status) + CountStatus(c, status)
    ensures status != "available" ==> CountStatus(a, status) == 0
    ensures status != "sold" ==> CountStatus(b, status) == 0
    ensures status != "rented" ==> CountStatus(c, status) == 0
  {
    CountStatusAppend(a + b, c, status);
    CountStatusAppend(a, b, status);
    if status != "available" { CountStatusAbsent(a, status); }
    if status != "sold" { CountStatusAbsent(b, status); }
    if status != "rented" { CountStatusAbsent(c, status); }
  }

  /** Rows whose statuses all passed validation count zero in each of the three groups as
      written. */
  lemma ValidatedStatusesUncounted(rows: seq<Property>)
    requires forall i :: 0 <= i < |rows| ==> rows[i].status in Validation.Statuses
    ensures var s := StatsAsWritten(rows); s.available == 0 && s.sold == 0 && s.rented == 0
  {
    CountStatusAbsent(rows, "available");
    CountStatusAbsent(rows, "sold");
    CountStatusAbsent(rows, "rented");
  }

  /** A single listing stored through the API as sold. */
  const SoldRow: Property := Crud.NewRow(1, 0).(status := "vendida")

  /** As written, the sold listing is not counted as sold; counted as intended, it is. */
  lemma SoldListingUncounted()
    ensures "vendida" in Validation.Statuses
    ensures StatsAsWritten([SoldRow]).sold == 0
    ensures StatsAsIntended([SoldRow]).sold == 1
  {
    CountStatusAbsent([SoldRow], "sold");
    CountStatusAll([SoldRow], "vendida");
  }

  /** Counted as intended, the three groups and the pending rows partition rows whose
      statuses passed validation. */
  lemma IntendedCountsPartition(rows: seq<Property>)
    requires forall i :: 0 <= i < |rows| ==> rows[i].status in Validation.Statuses
    ensures var s := StatsAsIntended(rows);
      s.available + s.sold + s.rented + CountStatus(rows, "pendiente") == s.total
  {
    ValidatedStatusesPartition(rows);
  }

  lemma ValidatedStatusesPartition(rows: seq<Property>)
    requires forall i :: 0 <= i < |rows| ==> rows[i].status in Validation.Statuses
    ensures CountStatus(rows, "disponible") + CountStatus(rows, "vendida") + CountStatus(rows, "rentada")
      + CountStatus(rows, "pendiente") == |rows|
  {
    FourWayPartition(rows, "disponible", "pendiente", "vendida", "rentada");
  }

  /** Rows whose statuses all lie among four distinct values are counted once each by the
      four per-status counts. */
  lemma FourWayPartition(rows: seq<Property>, a: string, b: string, c: string, d: string)
    requires a != b && a != c && a != d && b != c && b != d && c != d
    requires forall i :: 0 <= i < |rows| ==> rows[i].status in [a, b, c, d]
    ensures CountStatus(rows, a) + CountStatus(rows, b) + CountStatus(rows, c) + CountStatus(rows, d) == |rows|
  {
    assert CountAmong(rows, {a, b, c} + {d}) == CountAmong(rows, {a, b, c}) + CountStatus(rows, d) by {
      CountAmongAdd(rows, {a, b, c}, d);
    }
    assert CountAmong(rows, {a, b, c} + {d}) == |rows| by {
      assert forall i :: 0 <= i < |rows| ==> rows[i].status in {a, b, c} + {d};
      CountAmongBounds(rows, {a, b, c} + {d});
    }
    DistinctStatusCounts(rows, a, b, c);
  }
}

=== FILE: text.dfy ===
/** String operations the application relies on from PHP and SQL: `LIKE '%term%'`
    matching, `implode`, `str_pad`, integer-to-string conversion and `intval`. */
module Text {

  // ---------------------------------------------------------------------------
  // Digits and decimal notation
  // ---------------------------------------------------------------------------

  predicate IsDigit(c: char) {
    '0' <= c <= '9'
  }

  predicate AllDigits(s: string) {
    forall i :: 0 <= i < |s| ==> IsDigit(s[i])
  }

  function DigitChar(d: nat): (c: char)
    requires d < 10
    ensures IsDigit(c)
  {
    ('0' as int + d) as char
  }

  function DigitValue(c: char): (d: nat)
    requires IsDigit(c)
    ensures d < 10
  {
    c as int - '0' as int
  }

  /** The decimal notation of `n` without leading zeros (PHP's `(string) $n`). */
  function NatToString(n: nat): (s: string)
    ensures 1 <= |s| && AllDigits(s)
    ensures n < 10 <==> |s| == 1
    ensures n < 100 <==> |s| <= 2
    ensures n < 1000 <==> |s| <= 3
    ensures n < 10000 <==> |s| <= 4
  {
    if n < 10 then [DigitChar(n)] else NatToString(n / 10) + [DigitChar(n % 10)]
  }

  /** The number a string of decimal digits denotes; leading zeros do not count. */
  function DigitsValue(s: string): nat
    requires AllDigits(s)
  {
    if |s| == 0 then 0 else DigitsValue(s[..|s| - 1]) * 10 + DigitValue(s[|s| - 1])
  }

  /** Reading back the notation of a number gives the number. */
  lemma {:induction false} DigitsValueOfNatToString(n: nat)
    ensures DigitsValue(NatToString(n)) == n
  {
    if n >= 10 {
      var s := NatToString(n);
      assert s[..|s| - 1] == NatToString(n / 10);
      DigitsValueOfNatToString(n / 10);
    }
  }

  /** Leading zeros do not change the value of a digit string. */
  lemma {:induction false} DigitsValueLeadingZeros(z: string, s: string)
    requires forall i :: 0 <= i < |z| ==> z[i] == '0'
    requires AllDigits(s)
    ensures AllDigits(z + s) && DigitsValue(z + s) == DigitsValue(s)
    decreases |s|, |z|
  {
    assert AllDigits(z + s);
    if |s| == 0 {
      if |z| > 0 {
        assert (z + s)[..|z + s| - 1] == z[..|z| - 1] + s;
        DigitsValueLeadingZeros(z[..|z| - 1], s);
      }
    } else {
      assert (z + s)[..|z + s| - 1] == z + s[..|s| - 1];
      DigitsValueLeadingZeros(z, s[..|s| - 1]);
    }
  }

  /** `c` repeated `n` times. */
  function Repeat(c: char, n: nat): (r: string)
    ensures |r| == n && forall i :: 0 <= i < n ==> r[i] == c
  {
    if n == 0 then [] else [c] + Repeat(c, n - 1)
  }

  /** PHP's `str_pad($s, $width, '0', STR_PAD_LEFT)`. */
  function ZeroPadLeft(s: string, width: nat): (r: string)
    ensures |r| == if |s| >= width then |s| else width
    ensures |s| <= |r| && r[|r| - |s|..] == s
    ensures forall i :: 0 <= i < |r| - |s| ==> r[i] == '0'
  {
    if |s| >= width then s else Repeat('0', width - |s|) + s
  }

  /** Zero-padding a number's notation keeps its value: the padded string reads back as `n`. */
  lemma ZeroPadNatRoundTrip(n: nat, width: nat)
    ensures AllDigits(ZeroPadLeft(NatToString(n), width))
    ensures DigitsValue(ZeroPadLeft(NatToString(n), width)) == n
  {
    var s := NatToString(n);
    var r := ZeroPadLeft(s, width);
    assert r == r[..|r| - |s|] + s;
    DigitsValueLeadingZeros(r[..|r| - |s|], s);
    DigitsValueOfNatToString(n);
  }

  // ---------------------------------------------------------------------------
  // PHP intval
  // ---------------------------------------------------------------------------

  /** Whitespace PHP skips before a number in a numeric string. */
  predicate IsLeadingSpace(c: char) {
    c == ' ' || c == '\t' || c == '\n' || c == '\r' || c == '\U{B}' || c == '\U{C}'
  }

  function SkipLeadingSpace(s: string): (r: string)
    ensures |r| <= |s| && r == s[|s| - |r|..]
    ensures |r| > 0 ==> !IsLeadingSpace(r[0])
  {
    if |s| > 0 && IsLeadingSpace(s[0]) then SkipLeadingSpace(s[1..]) else s
  }

  /** The longest prefix of `s` made of digits. */
  function LeadingDigits(s: string): (r: string)
    ensures AllDigits(r) && |r| <= |s| && r == s[..|r|]
    ensures |r| < |s| ==> !IsDigit(s[|r|])
  {
    if |s| > 0 && IsDigit(s[0]) then [s[0]] + LeadingDigits(s[1..]) else []
  }

  lemma LeadingDigitsOfDigits(s: string)
    requires AllDigits(s)
    ensures LeadingDigits(s) == s
  {
  }

  /** PHP's `intval` of a string, as `$request->integer()` applies it: leading whitespace,
      an optional sign, then as many digits as follow; a string with no leading number
      gives 0. */
  function IntVal(s: string): int {
    var t := SkipLeadingSpace(s);
    if |t| > 0 && t[0] == '-' then -(DigitsValue(LeadingDigits(t[1..])) as int)
    else if |t| > 0 && t[0] == '+' then DigitsValue(LeadingDigits(t[1..]))
    else DigitsValue(LeadingDigits(t))
  }

  /** `intval` inverts the notation of integers, negative ones included. */
  lemma IntValRoundTrip(n: nat)
    ensures IntVal(NatToString(n)) == n
    ensures IntVal("-" + NatToString(n)) == -(n as int)
  {
    DigitsValueOfNatToString(n);
    IntValOfDigits(NatToString(n));
  }

  /** `intval` of a digit string, with or without a minus sign, is its value. */
  lemma IntValOfDigits(s: string)
    requires |s| >= 1 && AllDigits(s)
    ensures IntVal(s) == DigitsValue(s)
    ensures IntVal("-" + s) == -(DigitsValue(s) as int)
  {
    LeadingDigitsOfDigits(s);
    IntValUnsigned(s);
    IntValNegated(s);
  }

  lemma IntValUnsigned(s: string)
    requires |s| >= 1 && AllDigits(s) && LeadingDigits(s) == s
    ensures IntVal(s) == DigitsValue(s)
  {
    NoLeadingSpace(s);
    assert s[0] != '-' && s[0] != '+';
  }

  lemma IntValNegated(s: string)
    requires |s| >= 1 && AllDigits(s) && LeadingDigits(s) == s
    ensures IntVal("-" + s) == -(DigitsValue(s) as int)
  {
    var t := "-" + s;
    NoLeadingSpace(t);
    assert t[1..] == s;
  }

  /** A string that does not start with whitespace is not changed by skipping it. */
  lemma NoLeadingSpace(t: string)
    requires |t| >= 1 && !IsLeadingSpace(t[0])
    ensures SkipLeadingSpace(t) == t
  {
  }

  /** A string that starts with a letter has no leading number, so `intval` gives 0. */
  lemma IntValOfWord(s: string)
    requires |s| > 0 && ('a' <= s[0] <= 'z' || 'A' <= s[0] <= 'Z')
    ensures IntVal(s) == 0
  {
  }

  // ---------------------------------------------------------------------------
  // Blank strings and case folding
  // ---------------------------------------------------------------------------

  /** The characters PHP's `trim` removes. */
  predicate IsTrimmed(c: char) {
    c == ' ' || c == '\t' || c == '\n' || c == '\r' || c == '\0' || c == '\U{B}'
  }

  /** A string that trims to "": what Laravel calls blank. */
  predicate IsBlank(s: string) {
    forall i :: 0 <= i < |s| ==> IsTrimmed(s[i])
  }

  function LowerChar(c: char): char {
    if 'A' <= c <= 'Z' then (c as int + 32) as char else c
  }

  /** ASCII lower-casing, the case folding of a case-insensitive `LIKE`. */
  function Lower(s: string): (r: string)
    ensures |r| == |s| && forall i :: 0 <= i < |s| ==> r[i] == LowerChar(s[i])
  {
    seq(|s|, i requires 0 <= i < |s| => LowerChar(s[i]))
  }

  // ---------------------------------------------------------------------------
  // Substring search: LIKE '%needle%'
  // ---------------------------------------------------------------------------

  /** `needle` occurs in `hay` starting at position `i`. */
  ghost predicate OccursAt(hay: string, needle: string, i: int) {
    0 <= i && i + |needle| <= |hay| && hay[i..i + |needle|] == needle
  }

  /** Substring test by scanning `hay` from the left. */
  function Contains(hay: string, needle: string): bool
    decreases |hay|
  {
    if |needle| > |hay| then false
    else if hay[..|needle|] == needle then true
    else Contains(hay[1..], needle)
  }

  /** The scan finds `needle` exactly when it occurs somewhere in `hay`. */
  lemma {:induction false} ContainsIffOccurs(hay: string, needle: string)
    ensures Contains(hay, needle) <==> exists i :: OccursAt(hay, needle, i)
    decreases |hay|
  {
    if |needle| > |hay| {
    } else if hay[..|needle|] == needle {
      assert OccursAt(hay, needle, 0);
    } else {
      ContainsIffOccurs(hay[1..], needle);
      if exists i :: OccursAt(hay, needle, i) {
        var i :| OccursAt(hay, needle, i);
        assert i != 0;
        assert hay[1..][i - 1..i - 1 + |needle|] == hay[i..i + |needle|];
        assert OccursAt(hay[1..], needle, i - 1);
      }
      if exists j :: OccursAt(hay[1..], needle, j) {
        var j :| OccursAt(hay[1..], needle, j);
        assert hay[j + 1..j + 1 + |needle|] == hay[1..][j..j + |needle|];
        assert OccursAt(hay, needle, j + 1);
      }
    }
  }

  /** The empty pattern `LIKE '%%'` matches every string. */
  lemma ContainsEmpty(hay: string)
    ensures Contains(hay, "")
  {
    assert hay[..0] == "";
  }

  /** A string contains itself. */
  lemma ContainsSelf(hay: string)
    ensures Contains(hay, hay)
  {
    assert hay[..|hay|] == hay;
  }

  /** `LIKE '%needle%'` under an ASCII case-insensitive collation. */
  function ContainsIgnoreCase(hay: string, needle: string): bool {
    Contains(Lower(hay), Lower(needle))
  }

  // ---------------------------------------------------------------------------
  // implode and its inverse
  // ---------------------------------------------------------------------------

  /** PHP's `implode($sep, $parts)`. */
  function Join(parts: seq<string>, sep: string): (r: string)
    ensures |parts| == 0 ==> r == ""
    ensures |parts| == 1 ==> r == parts[0]
  {
    if |parts| == 0 then ""
    else if |parts| == 1 then parts[0]
    else parts[0] + sep + Join(parts[1..], sep)
  }

  /** Splits a string at every ", ", the separator the full address is joined with. */
  function SplitCommaSpace(s: string): (r: seq<string>)
    ensures |r| >= 1
  {
    if |s| < 2 then [s]
    else if s[0] == ',' && s[1] == ' ' then [""] + SplitCommaSpace(s[2..])
    else
      var rest := SplitCommaSpace(s[1..]);
      [[s[0]] + rest[0]] + rest[1..]
  }

  /** A first field without commas is read off before the rest is split. */
  lemma {:induction false} SplitCommaSpacePrefix(a: string, t: string)
    requires ',' !in a
    requires |t| >= 2 && t[0] == ',' && t[1] == ' '
    ensures SplitCommaSpace(a + t) == [a + SplitCommaSpace(t)[0]] + SplitCommaSpace(t)[1..]
    decreases |a|
  {
    if |a| == 0 {
      assert a + t == t;
    } else {
      assert (a + t)[1..] == a[1..] + t;
      SplitCommaSpacePrefix(a[1..], t);
      assert [a[0]] + (a[1..] + SplitCommaSpace(t)[0]) == a + SplitCommaSpace(t)[0];
    }
  }

  /** A string without commas is a single field. */
  lemma {:induction false} SplitCommaSpaceNoComma(a: string)
    requires ',' !in a
    ensures SplitCommaSpace(a) == [a]
    decreases |a|
  {
    if |a| >= 2 {
      SplitCommaSpaceNoComma(a[1..]);
      assert [a[0]] + a[1..] == a;
    }
  }

  /** Splitting at ", " undoes joining with ", " when no part contains a comma. */
  lemma {:induction false} SplitJoinRoundTrip(parts: seq<string>)
    requires |parts| >= 1
    requires forall i :: 0 <= i < |parts| ==> ',' !in parts[i]
    ensures SplitCommaSpace(Join(parts, ", ")) == parts
  {
    if |parts| == 1 {
      SplitCommaSpaceNoComma(parts[0]);
    } else {
      var rest := Join(parts[1..], ", ");
      var t := ", " + rest;
      assert Join(parts, ", ") == parts[0] + t;
      SplitCommaSpacePrefix(parts[0], t);
      assert t[2..] == rest;
      SplitJoinRoundTrip(parts[1..]);
      assert SplitCommaSpace(t) == [""] + parts[1..];
      assert SplitCommaSpace(t)[0] == "" && SplitCommaSpace(t)[1..] == parts[1..];
      assert parts[0] + "" == parts[0];
      assert parts == [parts[0]] + parts[1..];
    }
  }
}

=== FILE: validation.dfy ===
/** The two form requests (app/Http/Requests/StorePropertyRequest.php and
    UpdatePropertyRequest.php): their rule tables, how Laravel's validator applies them to a
    JSON body, the `prepareForValidation` merge, and the `validated()` payload. */
module Validation {
  import opened Wrappers
  import opened Numbers
  import opened Text
  import opened Json
  import opened NumericStrings
  import opened Faults

  /** A decoded JSON request body: top-level key to value. */
  type Payload = map<string, Value>

  /** The validation rules the two requests use. Size rules are split by the type they are
      used with: `max:255` next to `string` bounds a length, `min:1` next to `integer`
      bounds a value. */
  datatype Rule =
    | Sometimes                            // 'sometimes'
    | Nullable                             // 'nullable'
    | StringRule                           // 'string'
    | MaxLength(limit: nat)                // 'max:n' on a string
    | Numeric                              // 'numeric'
    | IntegerRule                          // 'integer'
    | MinValue(bound: Decimal)             // 'min:n' on a number
    | MaxValue(bound: Decimal)             // 'max:n' on a number
    | Between(low: Decimal, high: Decimal) // 'between:lo,hi'
    | In(options: seq<string>)             // 'in:a,b,...'
    | BooleanRule                          // 'boolean'
    | ArrayRule                            // 'array'
    | ExistsUser                           // 'exists:users,id'

  /** What the rules read from outside the request: `date('Y')` and the ids in `users`. */
  datatype Context = Context(currentYear: int, userIds: set<int>)

  function Whole(n: int): Decimal {
    Decimal(n, 0)
  }

  const PropertyTypes: seq<string> := ["casa", "condominio", "departamento", "townhouse", "duplex"]
  const Statuses: seq<string> := ["disponible", "pendiente", "vendida", "rentada"]

  /** `StorePropertyRequest::rules()`, top-level keys. */
  function StoreRules(currentYear: int): map<string, seq<Rule>> {
    map[
      "title" := [Nullable, StringRule, MaxLength(255)],
      "description" := [Nullable, StringRule],
      "address" := [Nullable, StringRule, MaxLength(255)],
      "city" := [Nullable, StringRule, MaxLength(100)],
      "state" := [Nullable, StringRule, MaxLength(50)],
      "zip_code" := [Nullable, StringRule, MaxLength(20)],
      "latitude" := [Nullable, Numeric, Between(Whole(-90), Whole(90))],
      "longitude" := [Nullable, Numeric, Between(Whole(-180), Whole(180))],
      "square_feet" := [Nullable, IntegerRule, MinValue(Whole(1))],
      "bedrooms" := [Nullable, IntegerRule, MinValue(Whole(0))],
      "bathrooms" := [Nullable, IntegerRule, MinValue(Whole(0))],
      "floors" := [Nullable, IntegerRule, MinValue(Whole(1))],
      "price" := [Nullable, Numeric, MinValue(Whole(0))],
      "monthly_rent" := [Nullable, Numeric, MinValue(Whole(0))],
      "property_taxes" := [Nullable, Numeric, MinValue(Whole(0))],
      "property_type" := [Nullable, StringRule, In(PropertyTypes)],
      "status" := [Nullable, StringRule, In(Statuses)],
      "year_built" := [Nullable, IntegerRule, MinValue(Whole(1800)), MaxValue(Whole(currentYear))],
      "lot_size" := [Nullable, Numeric, MinValue(Whole(0))],
      "garage_spaces" := [Nullable, IntegerRule, MinValue(Whole(0))],
      "has_basement" := [Nullable, BooleanRule],
      "has_pool" := [Nullable, BooleanRule],
      "has_garden" := [Nullable, BooleanRule],
      "features" := [Nullable, ArrayRule],
      "metadata" := [Nullable, ArrayRule],
      "user_id" := [Nullable, ExistsUser]
    ]
  }

  /** `UpdatePropertyRequest::rules()`, top-level keys. */
  function UpdateRules(currentYear: int): map<string, seq<Rule>> {
    map[
      "title" := [Sometimes, Nullable, StringRule, MaxLength(255)],
      "description" := [Sometimes, Nullable, StringRule],
      "address" := [Sometimes, Nullable, StringRule, MaxLength(255)],
      "city" := [Sometimes, Nullable, StringRule, MaxLength(100)],
      "state" := [Sometimes, Nullable, StringRule, MaxLength(50)],
      "zip_code" := [Sometimes, Nullable, StringRule, MaxLength(20)],
      "latitude" := [Sometimes, Nullable, Numeric, Between(Whole(-90), Whole(90))],
      "longitude" := [Sometimes, Nullable, Numeric, Between(Whole(-180), Whole(180))],
      "square_feet" := [Sometimes, Nullable, IntegerRule, MinValue(Whole(1))],
      "bedrooms" := [Sometimes, Nullable, IntegerRule, MinValue(Whole(0))],
      "bathrooms" := [Sometimes, Nullable, IntegerRule, MinValue(Whole(0))],
      "floors" := [Sometimes, Nullable, IntegerRule, MinValue(Whole(1))],
      "price" := [Sometimes, Nullable, Numeric, MinValue(Whole(0))],
      "monthly_rent" := [Sometimes, Nullable, Numeric, MinValue(Whole(0))],
      "property_taxes" := [Sometimes, Nullable, Numeric, MinValue(Whole(0))],
      "property_type" := [Sometimes, Nullable, StringRule, In(PropertyTypes)],
      "status" := [Sometimes, Nullable, StringRule, In(Statuses)],
      "year_built" := [Sometimes, Nullable, IntegerRule, MinValue(Whole(1800)), MaxValue(Whole(currentYear))],
      "lot_size" := [Sometimes, Nullable, Numeric, MinValue(Whole(0))],
      "garage_spaces" := [Sometimes, Nullable, IntegerRule, MinValue(Whole(0))],
      "has_basement" := [Sometimes, Nullable, BooleanRule],
      "has_pool" := [Sometimes, Nullable, BooleanRule],
      "has_garden" := [Sometimes, Nullable, BooleanRule],
      "features" := [Sometimes, Nullable, ArrayRule],
      "metadata" := [Sometimes, Nullable, ArrayRule],
      "user_id" := [Sometimes, Nullable, ExistsUser]
    ]
  }

  /** The update request is the store request with `sometimes` in front of every field. */
  lemma UpdateRulesAreStoreRulesWithSometimes(currentYear: int)
    ensures UpdateRules(currentYear).Keys == StoreRules(currentYear).Keys
    ensures forall key :: key in StoreRules(currentYear) ==>
      UpdateRules(currentYear)[key] == [Sometimes] + StoreRules(currentYear)[key]
  {
    UpdateRulesKeys(currentYear);
    UpdateRulesValues(currentYear);
  }

  lemma UpdateRulesKeys(currentYear: int)
    ensures UpdateRules(currentYear).Keys == StoreRules(currentYear).Keys
  {
  }

  lemma UpdateRulesValues(currentYear: int)
    ensures forall key :: key in StoreRules(currentYear) && key in UpdateRules(currentYear) ==>
      UpdateRules(currentYear)[key] == [Sometimes] + StoreRules(currentYear)[key]
  {
  }

  /** The wildcard rules of both requests: `features.*` applies to every element. */
  const ElementRules: map<string, seq<Rule>> := map["features" := [StringRule, MaxLength(100)]]

  /** What a size rule next to `numeric` or `integer` measures: a number its value, and a
      boolean (which is not numeric) the length of its string form, 1 for true and 0 for
      false. Other values have no size here. */
  function NumericSize(v: Value): Option<Decimal> {
    match v
    case Num(n) => Some(n)
    case Bool(b) => Some(Whole(if b then 1 else 0))
    case _ => None
  }

  /** The id an `exists:users,id` lookup compares with: a whole number; a boolean, which
      the database reads as 1 or 0; or a numeric string such as "1", which the database
      converts to the number it denotes (no `integer` rule stands in front of `exists`). */
  function LookupId(v: Value): Option<int> {
    match v
    case Num(n) => if IsIntegral(n) then Some(IntegralValue(n)) else None
    case Bool(b) => Some(if b then 1 else 0)
    case Str(s) => if ParseDecimal(s).Some? && IsIntegral(ParseDecimal(s).value) then Some(IntegralValue(ParseDecimal(s).value)) else None
    case _ => None
  }

  /** Whether one rule accepts a value. `integer` is `filter_var(FILTER_VALIDATE_INT)`, which
      takes `true` (as "1") but not `false`. A size rule on a value of the wrong type is
      passed here because the type rule beside it already fails the field. */
  predicate RulePasses(rule: Rule, v: Value, ctx: Context) {
    match rule
    case Sometimes => true
    case Nullable => true
    case StringRule => v.Str?
    case MaxLength(limit) => v.Str? ==> |v.s| <= limit
    case Numeric => v.Num?
    case IntegerRule => (v.Num? && IsIntegral(v.n)) || v == Bool(true)
    case MinValue(bound) => NumericSize(v).Some? ==> Le(bound, NumericSize(v).value)
    case MaxValue(bound) => NumericSize(v).Some? ==> Le(NumericSize(v).value, bound)
    case Between(low, high) => NumericSize(v).Some? ==> Le(low, NumericSize(v).value) && Le(NumericSize(v).value, high)
    case In(options) => v.Str? && v.s in options
    case BooleanRule =>
      || v.Bool?
      || (v.Num? && (v.n == Decimal(0, 0) || v.n == Decimal(1, 0)))
      || (v.Str? && (v.s == "0" || v.s == "1"))
    case ArrayRule => v.IsArray()
    case ExistsUser => LookupId(v).Some? && LookupId(v).value in ctx.userIds
  }

  /** Whether a present value satisfies a field's rules. None of the rules is implicit, so
      Laravel skips them all for a blank string, and `nullable` skips them for null. */
  predicate ValuePasses(v: Value, rules: seq<Rule>, ctx: Context) {
    if v.Null? && Nullable in rules then true
    else if v.Str? && IsBlank(v.s) then true
    else forall i :: 0 <= i < |rules| ==> RulePasses(rules[i], v, ctx)
  }

  /** Whether a key's rules run at all: a non-implicit rule runs only on a present key, and
      `sometimes` asks for the same. */
  predicate IsChecked(payload: Payload, key: string, rules: seq<Rule>) {
    && key in payload
    && (Sometimes in rules ==> key in payload)
  }

  /** The error key of the `i`-th element of an array: its index for a list, its key for an
      object (`features.0`, `features.a`). */
  function ElementKey(v: Value, i: nat): string
    requires v.IsArray() && i < |v.Elements()|
  {
    if v.List? then NatToString(i) else v.fields[i].0
  }

  /** The checked fields whose value fails their rules. */
  function FieldErrors(rules: map<string, seq<Rule>>, payload: Payload, ctx: Context): (r: set<string>)
    ensures r <= rules.Keys
  {
    set key | key in rules && IsChecked(payload, key, rules[key]) && !ValuePasses(payload[key], rules[key], ctx)
  }

  /** The failing elements of the array fields that have wildcard rules, under their error
      keys. */
  function ElementErrors(elementRules: map<string, seq<Rule>>, payload: Payload, ctx: Context): set<string> {
    set key, i | key in elementRules && key in payload && payload[key].IsArray()
                 && 0 <= i < |payload[key].Elements()|
                 && !ValuePasses(payload[key].Elements()[i], elementRules[key], ctx)
               :: key + "." + ElementKey(payload[key], i)
  }

  /** The keys Laravel reports errors under. */
  function Errors(rules: map<string, seq<Rule>>, elementRules: map<string, seq<Rule>>, payload: Payload, ctx: Context): set<string> {
    FieldErrors(rules, payload, ctx) + ElementErrors(elementRules, payload, ctx)
  }

  function StoreErrors(payload: Payload, ctx: Context): set<string> {
    Errors(StoreRules(ctx.currentYear), ElementRules, payload, ctx)
  }

  function UpdateErrors(payload: Payload, ctx: Context): set<string> {
    Errors(UpdateRules(ctx.currentYear), ElementRules, payload, ctx)
  }

  /** `$request->validated()`: the payload restricted to the keys that have rules. */
  function Validated(rules: map<string, seq<Rule>>, payload: Payload): (r: Payload)
    ensures r.Keys == payload.Keys * rules.Keys
    ensures forall key :: key in r ==> r[key] == payload[key]
  {
    map key | key in payload && key in rules :: payload[key]
  }

  // ---------------------------------------------------------------------------
  // What the rules accept, stated without the rules
  // ---------------------------------------------------------------------------

  /** The kinds of field the two requests declare, described by what they accept. */
  datatype FieldKind =
    | Text(limit: Option<nat>)  // a string, optionally bounded in length
    | Count(least: int)         // a whole number not below `least`
    | Amount                    // a non-negative number
    | Coordinate(bound: int)    // a number in [-bound, bound]
    | Choice(options: seq<string>)
    | Flag                      // true, false, 0, 1, "0" or "1"
    | Collection                // a JSON list or object
    | Year                      // a whole year from 1800 to the current one
    | Owner                     // the id of an existing user

  /** The field table of both requests, by kind. */
  const FieldKinds: map<string, FieldKind> := map[
    "title" := Text(Some(255)),
    "description" := Text(None),
    "address" := Text(Some(255)),
    "city" := Text(Some(100)),
    "state" := Text(Some(50)),
    "zip_code" := Text(Some(20)),
    "latitude" := Coordinate(90),
    "longitude" := Coordinate(180),
    "square_feet" := Count(1),
    "bedrooms" := Count(0),
    "bathrooms" := Count(0),
    "floors" := Count(1),
    "price" := Amount,
    "monthly_rent" := Amount,
    "property_taxes" := Amount,
    "property_type" := Choice(PropertyTypes),
    "status" := Choice(Statuses),
    "year_built" := Year,
    "lot_size" := Amount,
    "garage_spaces" := Count(0),
    "has_basement" := Flag,
    "has_pool" := Flag,
    "has_garden" := Flag,
    "features" := Collection,
    "metadata" := Collection,
    "user_id" := Owner
  ]

  predicate IsBlankString(v: Value) {
    v.Str? && IsBlank(v.s)
  }

  /** What a field of the given kind accepts: null and a blank string always, and otherwise
      a value of the kind's type within its bounds. JSON `true` counts as a whole number of
      size 1, which every count accepts and no year does; for an owner it is user 1. An
      owner may also be a numeric string denoting a whole number, such as "1" or "1.0". */
  ghost predicate Acceptable(kind: FieldKind, v: Value, ctx: Context) {
    v.Null? || IsBlankString(v) ||
    match kind
    case Text(limit) => v.Str? && (limit.Some? ==> |v.s| <= limit.value)
    case Count(least) => (v.Num? && IsIntegral(v.n) && IntegralValue(v.n) >= least) || (v == Bool(true) && least <= 1)
    case Amount => v.Num? && RealValue(v.n) >= 0.0
    case Coordinate(bound) => v.Num? && -(bound as real) <= RealValue(v.n) <= bound as real
    case Choice(options) => v.Str? && v.s in options
    case Flag => v.Bool? || v == Num(Decimal(0, 0)) || v == Num(Decimal(1, 0)) || v == Str("0") || v == Str("1")
    case Collection => v.IsArray()
    case Year => v.Num? && IsIntegral(v.n) && 1800 <= IntegralValue(v.n) <= ctx.currentYear
    case Owner =>
      || (v.Num? && IsIntegral(v.n) && IntegralValue(v.n) in ctx.userIds)
      || (v.Bool? && (if v.b then 1 else 0) in ctx.userIds)
      || (v.Str? && ParseDecimal(v.s).Some? && IsIntegral(ParseDecimal(v.s).value)
          && IntegralValue(ParseDecimal(v.s).value) in ctx.userIds)
  }

  /** A whole bound compares with a whole decimal as the whole numbers do. */
  lemma {:induction false} WholeLeMeaning(low: int, x: Decimal)
    requires IsIntegral(x)
    ensures Le(Whole(low), x) <==> low <= IntegralValue(x)
    ensures Le(x, Whole(low)) <==> IntegralValue(x) <= low
  {
    var p, k := Pow10(x.exp), IntegralValue(x);
    assert Le(Whole(low), x) <==> low * p <= k * p;
    assert Le(x, Whole(low)) <==> k * p <= low * p;
    if low <= k { MulMonotone(low, k, p); } else { MulMonotone(k + 1, low, p); }
    if k <= low { MulMonotone(k, low, p); } else { MulMonotone(low + 1, k, p); }
  }

  lemma WholeRealValue(n: int)
    ensures RealValue(Whole(n)) == n as real
  {
  }

  /** A value that is neither null nor blank passes a rule list when it passes each rule. */
  lemma PassesEach(v: Value, rules: seq<Rule>, ctx: Context)
    requires !v.Null? && !IsBlankString(v)
    requires 2 <= |rules| <= 4
    ensures ValuePasses(v, rules, ctx) <==>
      && RulePasses(rules[0], v, ctx) && RulePasses(rules[1], v, ctx)
      && (|rules| > 2 ==> RulePasses(rules[2], v, ctx))
      && (|rules| > 3 ==> RulePasses(rules[3], v, ctx))
  {
  }

  /** The rule list a field of the given kind declares in the store request. */
  function DeclaredRules(kind: FieldKind, currentYear: int): seq<Rule> {
    match kind
    case Text(limit) => if limit.Some? then [Nullable, StringRule, MaxLength(limit.value)] else [Nullable, StringRule]
    case Count(least) => [Nullable, IntegerRule, MinValue(Whole(least))]
    case Amount => [Nullable, Numeric, MinValue(Whole(0))]
    case Coordinate(bound) => [Nullable, Numeric, Between(Whole(-bound), Whole(bound))]
    case Choice(options) => [Nullable, StringRule, In(options)]
    case Flag => [Nullable, BooleanRule]
    case Collection => [Nullable, ArrayRule]
    case Year => [Nullable, IntegerRule, MinValue(Whole(1800)), MaxValue(Whole(currentYear))]
    case Owner => [Nullable, ExistsUser]
  }

  /** The store request's table is the field table with each kind's rules. */
  lemma StoreRulesByKind(currentYear: int)
    ensures StoreRules(currentYear).Keys == FieldKinds.Keys
    ensures forall key :: key in FieldKinds ==> StoreRules(currentYear)[key] == DeclaredRules(FieldKinds[key], currentYear)
  {
    StoreRulesKeys(currentYear);
    StoreRulesValues(currentYear);
  }

  lemma StoreRulesKeys(currentYear: int)
    ensures StoreRules(currentYear).Keys == FieldKinds.Keys
  {
  }

  lemma StoreRulesValues(currentYear: int)
    ensures forall key :: key in FieldKinds && key in StoreRules(currentYear) ==>
      StoreRules(currentYear)[key] == DeclaredRules(FieldKinds[key], currentYear)
  {
  }

  /** Each kind's rules accept exactly what the kind accepts. */
  lemma {:induction false} DeclaredRulesMeaning(kind: FieldKind, v: Value, ctx: Context)
    ensures ValuePasses(v, DeclaredRules(kind, ctx.currentYear), ctx) <==> Acceptable(kind, v, ctx)
  {
    var rs := DeclaredRules(kind, ctx.currentYear);
    if v.Null? || IsBlankString(v) {
      assert rs[0] == Nullable;
      return;
    }
    match kind
    case Count(least) => CountRulesMeaning(least, v, ctx);
    case Amount => AmountRulesMeaning(v, ctx);
    case Coordinate(bound) => CoordinateRulesMeaning(bound, v, ctx);
    case Year => YearRulesMeaning(v, ctx);
    case _ => PassesEach(v, rs, ctx);
  }

  lemma CountRulesMeaning(least: int, v: Value, ctx: Context)
    requires !v.Null? && !IsBlankString(v)
    ensures ValuePasses(v, DeclaredRules(Count(least), ctx.currentYear), ctx) <==> Acceptable(Count(least), v, ctx)
  {
    PassesEach(v, DeclaredRules(Count(least), ctx.currentYear), ctx);
    if v.Num? && IsIntegral(v.n) { WholeLeMeaning(least, v.n); }
    if v == Bool(true) { WholeLeMeaning(least, Whole(1)); }
  }

  lemma YearRulesMeaning(v: Value, ctx: Context)
    requires !v.Null? && !IsBlankString(v)
    ensures ValuePasses(v, DeclaredRules(Year, ctx.currentYear), ctx) <==> Acceptable(Year, v, ctx)
  {
    PassesEach(v, DeclaredRules(Year, ctx.currentYear), ctx);
    if v.Num? && IsIntegral(v.n) { WholeLeMeaning(1800, v.n); WholeLeMeaning(ctx.currentYear, v.n); }
    if v == Bool(true) { WholeLeMeaning(1800, Whole(1)); }
  }

  lemma AmountRulesMeaning(v: Value, ctx: Context)
    requires !v.Null? && !IsBlankString(v)
    ensures ValuePasses(v, DeclaredRules(Amount, ctx.currentYear), ctx) <==> Acceptable(Amount, v, ctx)
  {
    PassesEach(v, DeclaredRules(Amount, ctx.currentYear), ctx);
    if v.Num? { LeIsValueOrder(Whole(0), v.n); WholeRealValue(0); }
  }

  lemma CoordinateRulesMeaning(bound: int, v: Value, ctx: Context)
    requires !v.Null? && !IsBlankString(v)
    ensures ValuePasses(v, DeclaredRules(Coordinate(bound), ctx.currentYear), ctx) <==> Acceptable(Coordinate(bound), v, ctx)
  {
    PassesEach(v, DeclaredRules(Coordinate(bound), ctx.currentYear), ctx);
    if v.Num? {
      LeIsValueOrder(Whole(-bound), v.n);
      LeIsValueOrder(v.n, Whole(bound));
      WholeRealValue(-bound);
      WholeRealValue(bound);
    }
  }

  /** The store request's rules for each field accept exactly what its kind accepts. */
  lemma StoreRulesMeaning(key: string, v: Value, ctx: Context)
    requires key in FieldKinds
    ensures key in StoreRules(ctx.currentYear)
    ensures ValuePasses(v, StoreRules(ctx.currentYear)[key], ctx) <==> Acceptable(FieldKinds[key], v, ctx)
  {
    StoreRulesByKind(ctx.currentYear);
    DeclaredRulesMeaning(FieldKinds[key], v, ctx);
  }

  /** The error keys of the array elements are `features.` followed by something. */
  lemma FieldKeysAreNotElementKeys(key: string, suffix: string)
    requires key in FieldKinds
    ensures key != "features" + "." + suffix
  {
    var t := "features" + "." + suffix;
    assert t[8] == '.';
    assert |key| <= 8 || key[8] != '.';
  }

  /** The store request reports a field exactly when it is present with a value its kind
      does not accept. */
  lemma StoreFieldErrors(payload: Payload, ctx: Context, key: string)
    requires key in FieldKinds
    ensures key in StoreErrors(payload, ctx) <==> key in payload && !Acceptable(FieldKinds[key], payload[key], ctx)
  {
    StoreRulesMeaning(key, if key in payload then payload[key] else Null, ctx);
    if key in ElementErrors(ElementRules, payload, ctx) {
      var k, i :| k in ElementRules && k in payload && payload[k].IsArray() && 0 <= i < |payload[k].Elements()|
                  && key == k + "." + ElementKey(payload[k], i);
      FieldKeysAreNotElementKeys(key, ElementKey(payload[k], i));
    }
  }

  /** What an element of `features` must be: a string of at most 100 characters, or blank. */
  predicate FeatureAcceptable(v: Value) {
    v.Str? && (IsBlank(v.s) || |v.s| <= 100)
  }

  /** For a list of features, the store request reports element `i` exactly when the
      element is not an acceptable feature. */
  lemma {:induction false} FeatureElementErrors(payload: Payload, ctx: Context, i: nat)
    requires "features" in payload && payload["features"].List?
    ensures "features." + NatToString(i) in StoreErrors(payload, ctx) <==>
      i < |payload["features"].items| && !FeatureAcceptable(payload["features"].items[i])
  {
    var key := "features." + NatToString(i);
    assert key !in FieldErrors(StoreRules(ctx.currentYear), payload, ctx) by {
      assert key == "features" + "." + NatToString(i);
      StoreRulesByKind(ctx.currentYear);
      if key in StoreRules(ctx.currentYear) {
        FieldKeysAreNotElementKeys(key, NatToString(i));
      }
    }
    FeatureElementKey(payload, ctx, i);
  }

  /** Element `i` of a feature list is reported under `features.i` exactly when it is not
      an acceptable feature. */
  lemma FeatureElementKey(payload: Payload, ctx: Context, i: nat)
    requires "features" in payload && payload["features"].List?
    ensures "features." + NatToString(i) in ElementErrors(ElementRules, payload, ctx) <==>
      i < |payload["features"].items| && !FeatureAcceptable(payload["features"].items[i])
  {
    var items := payload["features"].items;
    var key := "features." + NatToString(i);
    var elementErrors := ElementErrors(ElementRules, payload, ctx);
    if i < |items| {
      FeatureRulesMeaning(items[i], ctx);
      assert key == "features" + "." + ElementKey(payload["features"], i);
    }
    if key in elementErrors {
      var k, j :| k in ElementRules && k in payload && payload[k].IsArray() && 0 <= j < |payload[k].Elements()|
                  && !ValuePasses(payload[k].Elements()[j], ElementRules[k], ctx)
                  && key == k + "." + ElementKey(payload[k], j);
      assert k == "features";
      assert NatToString(j) == key[9..] == NatToString(i);
      DigitsValueOfNatToString(i);
      DigitsValueOfNatToString(j);
      FeatureRulesMeaning(items[j], ctx);
    }
  }

  lemma FeatureRulesMeaning(v: Value, ctx: Context)
    ensures ValuePasses(v, ElementRules["features"], ctx) <==> FeatureAcceptable(v)
  {
    var rules := ElementRules["features"];
    if v.Null? {
      assert Nullable !in rules;
      assert !RulePasses(rules[0], v, ctx);
    } else if !IsBlankString(v) {
      PassesEach(v, rules, ctx);
    }
  }

  /** A body whose every value is null (the empty body included) passes both requests. */
  lemma NullBodyPasses(payload: Payload, ctx: Context)
    requires forall key :: key in payload ==> payload[key] == Null
    ensures StoreErrors(payload, ctx) == {}
  {
    StoreRulesByKind(ctx.currentYear);
    forall key | key in StoreRules(ctx.currentYear)
      ensures key !in StoreErrors(payload, ctx)
    {
      StoreFieldErrors(payload, ctx, key);
    }
  }

  /** `sometimes` changes nothing about whether a present value passes. */
  lemma SometimesIsNeutral(v: Value, rules: seq<Rule>, ctx: Context)
    ensures ValuePasses(v, [Sometimes] + rules, ctx) <==> ValuePasses(v, rules, ctx)
  {
    var extended := [Sometimes] + rules;
    assert forall i :: 0 <= i < |rules| ==> extended[i + 1] == rules[i];
    assert Nullable in extended <==> Nullable in rules;
    if !(v.Null? && Nullable in rules) && !(v.Str? && IsBlank(v.s)) {
      if forall i :: 0 <= i < |rules| ==> RulePasses(rules[i], v, ctx) {
        forall i | 0 <= i < |extended|
          ensures RulePasses(extended[i], v, ctx)
        {
          if i > 0 { assert extended[i] == rules[i - 1]; }
        }
      }
    }
  }

  /** The two requests accept and reject the same bodies, with the same errors: `sometimes`
      skips an absent key, which a non-implicit rule skips anyway. */
  lemma StoreAndUpdateAgree(payload: Payload, ctx: Context)
    ensures UpdateErrors(payload, ctx) == StoreErrors(payload, ctx)
  {
    var store, update := StoreRules(ctx.currentYear), UpdateRules(ctx.currentYear);
    UpdateRulesAreStoreRulesWithSometimes(ctx.currentYear);
    forall key | key in store && key in payload
      ensures ValuePasses(payload[key], update[key], ctx) <==> ValuePasses(payload[key], store[key], ctx)
    {
      SometimesIsNeutral(payload[key], store[key], ctx);
    }
    assert FieldErrors(update, payload, ctx) == FieldErrors(store, payload, ctx);
  }

  /** Without an array of features, errors are reported only under keys of the body. */
  lemma ErrorsOnlyForPresentKeys(payload: Payload, ctx: Context)
    requires "features" !in payload
    ensures StoreErrors(payload, ctx) <= payload.Keys
  {
    assert ElementErrors(ElementRules, payload, ctx) == {};
  }

  /** A whole number below a count's minimum is an error. */
  lemma CountBelowMinimumRejected(payload: Payload, ctx: Context, key: string, n: int)
    requires key in FieldKinds && FieldKinds[key].Count?
    requires key in payload && payload[key] == Num(Whole(n)) && n < FieldKinds[key].least
    ensures key in StoreErrors(payload, ctx)
  {
    StoreFieldErrors(payload, ctx, key);
  }

  /** A whole number outside a coordinate's range is an error. */
  lemma CoordinateOutOfRangeRejected(payload: Payload, ctx: Context, key: string, n: int)
    requires key in FieldKinds && FieldKinds[key].Coordinate?
    requires key in payload && payload[key] == Num(Whole(n))
    requires n < -FieldKinds[key].bound || FieldKinds[key].bound < n
    ensures key in StoreErrors(payload, ctx)
  {
    WholeRealValue(n);
    StoreFieldErrors(payload, ctx, key);
  }

  /** A string outside a choice's options is an error unless it is blank. */
  lemma UnknownChoiceRejected(payload: Payload, ctx: Context, key: string)
    requires key in FieldKinds && FieldKinds[key].Choice?
    requires key in payload && payload[key].Str?
    requires payload[key].s !in FieldKinds[key].options && !IsBlank(payload[key].s)
    ensures key in StoreErrors(payload, ctx)
  {
    StoreFieldErrors(payload, ctx, key);
  }

  /** A year after the current one is an error. */
  lemma FutureYearRejected(payload: Payload, ctx: Context, n: int)
    requires "year_built" in payload && payload["year_built"] == Num(Whole(n)) && n > ctx.currentYear
    ensures "year_built" in StoreErrors(payload, ctx)
  {
    StoreFieldErrors(payload, ctx, "year_built");
  }

  /** A whole number written as a string reads as that id. */
  lemma NatStringLookup(n: nat)
    ensures ParseDecimal(NatToString(n)) == Some(Decimal(n, 0))
    ensures LookupId(Str(NatToString(n))) == Some(n)
  {
    ParseNatToString(n);
    var d := Decimal(n, 0);
    assert IsIntegral(d) && IntegralValue(d) == n;
  }

  /** A user id sent as a string, such as "1", passes `exists:users,id` exactly when that
      user exists: no `integer` rule stands before the lookup. */
  lemma NumericStringOwnerAccepted(payload: Payload, ctx: Context, n: nat)
    requires "user_id" in payload && payload["user_id"] == Str(NatToString(n))
    ensures "user_id" in StoreErrors(payload, ctx) <==> n !in ctx.userIds
  {
    OwnerStringAcceptable(n, ctx);
    assert FieldKinds["user_id"] == Owner;
    StoreFieldErrors(payload, ctx, "user_id");
  }

  lemma OwnerStringAcceptable(n: nat, ctx: Context)
    ensures Acceptable(Owner, Str(NatToString(n)), ctx) <==> n in ctx.userIds
  {
    var s := NatToString(n);
    NatStringLookup(n);
    assert !IsBlank(s) by {
      assert IsDigit(s[0]);
    }
    OwnerStringMeaning(s, ctx);
  }

  /** A non-blank string is an acceptable owner when it reads as an existing user's id. */
  lemma OwnerStringMeaning(s: string, ctx: Context)
    requires !IsBlank(s)
    ensures Acceptable(Owner, Str(s), ctx) <==> LookupId(Str(s)).Some? && LookupId(Str(s)).value in ctx.userIds
  {
  }

  /** The body of the feature test that posts negative counts, an unknown type and a
      latitude of 100. */
  const OutOfRangeBody: Payload := map[
    "square_feet" := Num(Whole(-100)), "bedrooms" := Num(Whole(-1)),
    "property_type" := Str("invalid_type"), "latitude" := Num(Whole(100))]

  lemma OutOfRangeBodyCounts(ctx: Context)
    ensures "square_feet" in StoreErrors(OutOfRangeBody, ctx)
    ensures "bedrooms" in StoreErrors(OutOfRangeBody, ctx)
  {
    KindOfSquareFeet();
    CountBelowMinimumRejected(OutOfRangeBody, ctx, "square_feet", -100);
    KindOfBedrooms();
    CountBelowMinimumRejected(OutOfRangeBody, ctx, "bedrooms", -1);
  }

  lemma OutOfRangeBodyTypeAndLatitude(ctx: Context)
    ensures "property_type" in StoreErrors(OutOfRangeBody, ctx)
    ensures "latitude" in StoreErrors(OutOfRangeBody, ctx)
  {
    KindOfPropertyType();
    UnknownTypeWord("invalid_type");
    UnknownChoiceRejected(OutOfRangeBody, ctx, "property_type");
    KindOfLatitude();
    CoordinateOutOfRangeRejected(OutOfRangeBody, ctx, "latitude", 100);
  }

  lemma KindOfSquareFeet()
    ensures FieldKinds["square_feet"] == Count(1)
  {
  }

  lemma KindOfBedrooms()
    ensures FieldKinds["bedrooms"] == Count(0)
  {
  }

  lemma KindOfPropertyType()
    ensures FieldKinds["property_type"] == Choice(PropertyTypes)
  {
  }

  lemma KindOfLatitude()
    ensures FieldKinds["latitude"] == Coordinate(90)
  {
  }

  /** A word that is not one of the five types is neither blank nor a type. */
  lemma UnknownTypeWord(w: string)
    requires w == "invalid_type" || w == "castle"
    ensures !IsBlank(w) && w !in PropertyTypes
  {
    assert !IsTrimmed(w[0]);
  }

  /** That body is rejected on exactly those four fields. */
  lemma RejectsOutOfRangeBody(ctx: Context)
    ensures StoreErrors(OutOfRangeBody, ctx) == {"square_feet", "bedrooms", "property_type", "latitude"}
  {
    ErrorsOnlyForPresentKeys(OutOfRangeBody, ctx);
    OutOfRangeBodyCounts(ctx);
    OutOfRangeBodyTypeAndLatitude(ctx);
  }

  /** The body of the architecture test: a negative area, an unknown type, a future year. */
  const FutureYearBody: Payload := map[
    "square_feet" := Num(Whole(-100)), "property_type" := Str("castle"), "year_built" := Num(Whole(2030))]

  lemma FutureYearBodyFields(ctx: Context)
    requires ctx.currentYear < 2030
    ensures "square_feet" in StoreErrors(FutureYearBody, ctx)
    ensures "property_type" in StoreErrors(FutureYearBody, ctx)
  {
    KindOfSquareFeet();
    CountBelowMinimumRejected(FutureYearBody, ctx, "square_feet", -100);
    KindOfPropertyType();
    UnknownTypeWord("castle");
    UnknownChoiceRejected(FutureYearBody, ctx, "property_type");
  }

  /** That body is rejected on exactly those three fields while the current year is before
      2030. */
  lemma RejectsFutureYearBody(ctx: Context)
    requires ctx.currentYear < 2030
    ensures StoreErrors(FutureYearBody, ctx) == {"square_feet", "property_type", "year_built"}
  {
    ErrorsOnlyForPresentKeys(FutureYearBody, ctx);
    FutureYearBodyFields(ctx);
    FutureYearRejected(FutureYearBody, ctx, 2030);
  }

  // ---------------------------------------------------------------------------
  // prepareForValidation
  // ---------------------------------------------------------------------------

  /** How PHP 8 evaluates `$value > 0` for a request value: null is false and a boolean is
      itself; a number and a numeric string compare by value; any other string is compared
      with "0" as a string; an array is greater than any number. */
  predicate LooselyPositive(v: Value) {
    match v
    case Null => false
    case Bool(b) => b
    case Num(n) => n.mantissa > 0
    case Str(s) => if ParseDecimal(s).Some? then ParseDecimal(s).value.mantissa > 0 else SortsAfterZero(s)
    case _ => true
  }

  /** `s` sorts after "0" byte by byte. A character above '0' has a first UTF-8 byte above
      it, so comparing characters gives the byte order. */
  predicate SortsAfterZero(s: string) {
    |s| > 0 && (s[0] > '0' || (s[0] == '0' && |s| > 1))
  }

  /** The number PHP's `/` makes of an operand: null is 0, a boolean 0 or 1, a numeric string
      its value. Any other string or an array makes PHP throw (a TypeError, or a warning
      that Laravel turns into an exception), which is None here. */
  function Operand(v: Value): (r: Option<Decimal>)
    ensures v.Num? ==> r == Some(v.n)
    ensures v.IsArray() ==> r.None?
  {
    match v
    case Null => Some(Whole(0))
    case Bool(b) => Some(Whole(if b then 1 else 0))
    case Num(n) => Some(n)
    case Str(s) => ParseDecimal(s)
    case _ => None
  }

  /** An area PHP finds positive and can divide by is a positive number. */
  lemma PositiveOperand(v: Value)
    requires LooselyPositive(v) && Operand(v).Some?
    ensures Operand(v).value.mantissa > 0
  {
  }

  /** `round($price / $squareFeet, 2)` in hundredths, for a positive area. */
  function RoundedRatio(price: Decimal, squareFeet: Decimal): (r: int)
    requires squareFeet.mantissa > 0
    ensures IsRoundedQuotient(r, price.mantissa * Pow10(squareFeet.exp) * 100, squareFeet.mantissa * Pow10(price.exp))
  {
    RoundHalfUpDiv(price.mantissa * Pow10(squareFeet.exp) * 100, squareFeet.mantissa * Pow10(price.exp))
  }

  /** The guard of `prepareForValidation()`: both keys present, and the area greater than 0
      as PHP compares it. */
  predicate MergeApplies(payload: Payload) {
    "price" in payload && "square_feet" in payload && LooselyPositive(payload["square_feet"])
  }

  /** `prepareForValidation()` of both requests: under the guard, merge
      `price_per_sqft = round(price / square_feet, 2)`; the division fails when an operand is
      not a number, before any rule runs. */
  function Prepare(payload: Payload): (r: Result<Payload, Fault>)
    ensures r.Failure? <==> MergeApplies(payload) && (Operand(payload["price"]).None? || Operand(payload["square_feet"]).None?)
    ensures r.Failure? ==> r.error == NonNumericOperand
    ensures r.Success? && !MergeApplies(payload) ==> r.value == payload
    ensures r.Success? && MergeApplies(payload) ==>
      && Operand(payload["price"]).Some? && Operand(payload["square_feet"]).Some?
      && r.value.Keys == payload.Keys + {"price_per_sqft"}
      && (forall key :: key in payload && key != "price_per_sqft" ==> r.value[key] == payload[key])
      && var price, area := Operand(payload["price"]).value, Operand(payload["square_feet"]).value;
         r.value["price_per_sqft"] == Num(Decimal(RoundedRatio(price, area), 2))
  {
    if !MergeApplies(payload) then Success(payload)
    else match (Operand(payload["price"]), Operand(payload["square_feet"]))
      case (Some(price), Some(area)) =>
        PositiveOperand(payload["square_feet"]);
        Success(payload["price_per_sqft" := Num(Decimal(RoundedRatio(price, area), 2))])
      case _ => Failure(NonNumericOperand)
  }

  /** The merged value never reaches the model: `price_per_sqft` has no rule, so
      `validated()` drops it and keeps exactly what it would keep of the body as sent,
      whichever request validates it. */
  lemma MergedPricePerSqftIsDropped(payload: Payload, currentYear: int)
    requires Prepare(payload).Success?
    ensures "price_per_sqft" !in Validated(StoreRules(currentYear), Prepare(payload).value)
    ensures "price_per_sqft" !in Validated(UpdateRules(currentYear), Prepare(payload).value)
    ensures Validated(StoreRules(currentYear), Prepare(payload).value) == Validated(StoreRules(currentYear), payload)
    ensures Validated(UpdateRules(currentYear), Prepare(payload).value) == Validated(UpdateRules(currentYear), payload)
  {
    var p := Prepare(payload).value;
    NoRuleForPricePerSqft(currentYear);
    ValidatedReadsOnlyRuleKeys(StoreRules(currentYear), p, payload);
    ValidatedReadsOnlyRuleKeys(UpdateRules(currentYear), p, payload);
  }

  lemma NoRuleForPricePerSqft(currentYear: int)
    ensures "price_per_sqft" !in StoreRules(currentYear)
    ensures "price_per_sqft" !in UpdateRules(currentYear)
  {
    StoreRulesKeys(currentYear);
    UpdateRulesKeys(currentYear);
    assert "price_per_sqft" !in FieldKinds;
  }

  /** `validated()` reads only the keys that have rules. */
  lemma ValidatedReadsOnlyRuleKeys(rules: map<string, seq<Rule>>, p: Payload, q: Payload)
    requires forall key :: key in rules ==> (key in p <==> key in q) && (key in p ==> p[key] == q[key])
    ensures Validated(rules, p) == Validated(rules, q)
  {
  }

  /** Two bodies that agree on every key with rules get the same errors. */
  lemma ErrorsReadOnlyRuleKeys(rules: map<string, seq<Rule>>, elementRules: map<string, seq<Rule>>, p: Payload, q: Payload, ctx: Context)
    requires forall key :: key in rules ==> (key in p <==> key in q) && (key in p ==> p[key] == q[key])
    requires forall key :: key in elementRules ==> (key in p <==> key in q) && (key in p ==> p[key] == q[key])
    ensures Errors(rules, elementRules, p, ctx) == Errors(rules, elementRules, q, ctx)
  {
  }

  /** Merging adds no error: validation judges the prepared body as it judges the body. */
  lemma PrepareKeepsErrors(payload: Payload, ctx: Context)
    requires Prepare(payload).Success?
    ensures StoreErrors(Prepare(payload).value, ctx) == StoreErrors(payload, ctx)
    ensures UpdateErrors(Prepare(payload).value, ctx) == UpdateErrors(payload, ctx)
  {
    var p := Prepare(payload).value;
    var store, update := StoreRules(ctx.currentYear), UpdateRules(ctx.currentYear);
    assert "price_per_sqft" !in store.Keys;
    UpdateRulesAreStoreRulesWithSometimes(ctx.currentYear);
    ErrorsReadOnlyRuleKeys(store, ElementRules, p, payload, ctx);
    ErrorsReadOnlyRuleKeys(update, ElementRules, p, payload, ctx);
  }
}

=== FILE: wrappers.dfy ===
/** Optional values and results with an error, used for nullable columns and for the
    error paths of the controller (validation failure, missing row, store failure). */
module Wrappers {

  /** A nullable value: `None` stands for SQL NULL or PHP `null`. */
  datatype Option<+T> = None | Some(value: T) {

    /** The wrapped value, or `default` when there is none (PHP's `$x ?? $default`). */
    function GetOr(default: T): T {
      match this
      case Some(v) => v
      case None => default
    }
  }

  /** The outcome of an operation that can fail with an error of type `E`. */
  datatype Result<+R, +E> = Success(value: R) | Failure(error: E) {

    predicate IsFailure() {
      Failure?
    }

    function PropagateFailure<U>(): Result<U, E>
      requires Failure?
    {
      Failure(error)
    }

    function Extract(): R
      requires Success?
    {
      value
    }
  }
}
